=== FILE: README.md ===
# green-agent, modelled in Dafny

This project models the decision logic of the green-agent assessment service and of its
two OSWorld benchmark scripts:

- the fake OSWorld loop, which generates frames and calls the white agent's `decide` once per frame;
- the run store, a table of assessment rows plus an append-only action log;
- the assessment endpoints `start`, `status` and `results`;
- the task converter;
- the snippet builders of the OSWorld REST client;
- the baseline white agent;
- the two `pyautogui` action-string parsers, setup runners, step loops and the benchmark `main`.

Each Python source file has one module:

| module | source file |
|---|---|
| `Adapter` | `green_agent/osworld_adapter.py` |
| `Storage` | `green_agent/storage.py` |
| `App` | `green_agent/app.py` |
| `TaskConverter` | `green_agent/task_converter.py` |
| `OsworldClient` | `green_agent/osworld_client.py` |
| `WhiteAgent` | `white_agent/server.py` |
| `Gpt4vRunner` | `run_with_gpt4v.py` |
| `BenchmarkRunner` | `run_osworld_benchmark.py` |

Shared vocabulary lives in five more modules:

- `Wrappers`: `Option` and `Outcome`. `Outcome` is either a returned value or a raised exception with its message.
- `JsonValues`: JSON values.
- `Text`: Python's `strip`, `split`, `join`, `lower` and `in` on strings.
- `PurePath`: `pathlib`'s POSIX paths, as far as the scripts build them with `/` and render them with `str`.
- `ScriptCommon`: what the two scripts share. That is the parsed `Command`, the `Effect` trace, the prefix recognisers, the task-file records, the DONE/FAIL/WAIT filter and the loop-stop rule.

Everything outside the model becomes a parameter:

- The network, the VM and the white agent are oracles.
  - `decide` is a function from an observation to an `Outcome`.
  - An agent's predictions are a function from the step number to a `Prediction`.
  - The store is a `map` from assessment id to `Row`.
- What a script does to the environment is a sequence of `Effect`s. An effect is either `Request(call)` (one REST call) or `Sleep(seconds)`.
- A Python exception is a `Raised` outcome carrying the message Python 3.11 would print. This includes the two limits the scripts can hit on model output: `int` refuses a digit run longer than 4300 characters, and `time.sleep` refuses a duration over 2^63-1 nanoseconds (about 9223372036 seconds).
- The recursion of `run_with_gpt4v.py`'s multi-line branch runs on `fuel`, the remaining Python recursion depth. Running out of fuel is the `RecursionError` that the step loop catches per action. A one-line action that contains `import` recurses on the identical string, so it never finishes at any depth.

At `green_agent/app.py:55`, `run_osworld` is called with three arguments, but it takes two. The model keeps the number of arguments and raises the `TypeError` Python would raise. Every run on an existing task therefore ends as an adapter error after zero decide calls.

## Model

| member | source | states |
|---|---|---|
| Adapter.FrameCount | green_agent/osworld_adapter.py:20 | The number of frames is min(10, MAX_STEPS), and never negative. |
| Adapter.FakeFrames | green_agent/osworld_adapter.py:19-28 | Frames are numbered 1, 2, … in order. Frame i's hint is hints[i-1], then the last hint repeats, and it is None when there are no hints. Only the last frame is done. |
| Adapter.ObservationOf | green_agent/osworld_adapter.py:37-42 | The observation copies the frame id and hint, and always has done = False. |
| Adapter.DecideLoop | green_agent/osworld_adapter.py:36-48 | The j-th decide call gets the j-th frame. The loop stops after the first raising call. Steps count only the calls that returned, and the failure reason is "white_decide_error: " + message. |
| Adapter.RunOsworldLike | green_agent/osworld_adapter.py:31-57 | The fake run always returns. Artifacts are empty, and success is 1 exactly when there is no failure reason. |
| Adapter.RunSucceedsWhenDecideNeverRaises | green_agent/osworld_adapter.py:36-55 | If decide never raises, the result has success 1, steps equal to the frame count and no failure reason. Every frame is sent once, in order, with done = False. |
| Adapter.RunStopsAtFirstRaise | green_agent/osworld_adapter.py:43-53 | If decide first raises on call k, exactly k calls are made. The result has success 0, steps k-1 and a reason starting "white_decide_error: ". |
| Adapter.CallRunOsworld | green_agent/osworld_adapter.py:68-74 | A call with an argument count other than two raises before any decide call. With two arguments it runs the fake loop when USE_FAKE is set, and raises NotImplementedError otherwise. |
| Storage.PathJoin | green_agent/storage.py:47 | `os.path.join` of two parts: an absolute name wins, and a separator is added only when the directory lacks one. |
| Storage.CreateRun | green_agent/storage.py:46-66 | Returns RUNS_DIR joined with the id. The stored row has that path as artifacts_dir, status "running", the given task and agent, and null metrics. Every other row and the action log are unchanged. |
| Storage.CreateRunReplaces | green_agent/storage.py:51 | Creating an existing id replaces the whole row and resets the metrics to null. The result equals a create on the original store. |
| Storage.Updated | green_agent/storage.py:69-75 | An update sets the status plus exactly the named columns. Every unnamed column keeps its value. |
| Storage.UpdateStatus | green_agent/storage.py:69-77 | Only the addressed row changes, and an id with no row changes nothing. The key set and the action log are unchanged. |
| Storage.RecordAction | green_agent/storage.py:80-87 | Appends exactly one action entry and leaves the runs table untouched. |
| Storage.FetchRun | green_agent/storage.py:90-95 | Returns the row exactly when the id is stored, and None otherwise. |
| Storage.FetchAfterCreateAndUpdate | green_agent/storage.py:90-95 | A fetch after create returns the row whose artifacts_dir is the returned path. A fetch after an update returns the updated row. |
| Storage.FetchNeverCreated | green_agent/storage.py:90-95 | After any sequence of operations that never creates the id, fetching it gives None. |
| App.Conclude | green_agent/app.py:54-78 | If the adapter returned, the single "completed" update copies its metrics with missing values read as 0, and the response says "running". If the adapter raised, the update records success 0, the step counter and "adapter_error: " + message, and the response says "completed". |
| App.StartAssessment | green_agent/app.py:29-78 | The run is created first. A missing task answers 404 "Task not found: …" after that one write. An existing task adds exactly one "completed" update. |
| App.MissingTaskLeavesRunRunning | green_agent/app.py:31-37 | A missing task answers 404 and leaves the row stored with status "running" and null metrics. |
| App.EveryRunIsAnAdapterError | green_agent/app.py:54-64 | The three-argument call raises before any decide call. Every existing task ends "completed" with success 0, steps 0 and the adapter TypeError as the reason. |
| App.ConcludeFinalises | green_agent/app.py:66-73 | The update marks the row "completed", keeps its artifacts_dir and leaves every other run unchanged. The response says "running" exactly when the adapter returned. |
| App.Status | green_agent/app.py:81-92 | An unknown id gives 404. Otherwise the response copies the status. Progress is 1.0 exactly when the status is "completed" and 0.5 otherwise, and last_step is the steps value or 0. |
| App.Results | green_agent/app.py:95-109 | An unknown id gives 404. Otherwise null success, steps and time are reported as 0, and failure_reason and artifacts_dir pass through. |
| App.StartThenQuery | green_agent/app.py:81-109 | After a start on an existing task, status reports "completed" with progress 1.0 and step 0. Results report success 0, steps 0, the task id and the run directory. |
| App.MissingTaskStatus | green_agent/app.py:83-92 | After a start on a missing task, status reports "running" with progress 0.5. |
| App.StageReset | green_agent/app.py:23-26 | The service's reset answers the same {"ok": true} as the white agent's. |
| TaskConverter.Convert | green_agent/task_converter.py:40-65 | The id is task_id or "unknown_task", and the instruction is goal or "". Config is empty and the evaluator fixed. Metadata copies environment, constraints (default {}) and hints (default []). |
| TaskConverter.ConvertFixedParts | green_agent/task_converter.py:46-57 | Config and evaluator do not depend on the input. |
| TaskConverter.RecoverConvert | green_agent/task_converter.py:40-65 | A task with every field present is recovered exactly from its conversion. |
| TaskConverter.Constraint | green_agent/task_converter.py:79-80 | A present key gives the stored value. A missing key or missing constraints gives the default. |
| TaskConverter.ExtractMaxSteps | green_agent/task_converter.py:68-80 | Gives max_steps when the key is present, and the default otherwise. |
| TaskConverter.ExtractMaxTime | green_agent/task_converter.py:83-95 | Gives max_time_sec when the key is present, and the default otherwise. |
| TaskConverter.BudgetsSurviveConversion | green_agent/task_converter.py:60-64 | Reading the budgets from the converted metadata agrees with reading them from the original task, defaults 15 and 600 included. |
| TaskConverter.ZeroStepsKept | green_agent/task_converter.py:79-80 | A stored max_steps of 0 is kept rather than replaced by the default. |
| OsworldClient.NormaliseBaseUrl | green_agent/osworld_client.py:25 | The base url is a prefix of the input with no trailing '/'. Only '/' characters were removed. |
| OsworldClient.NormaliseIdempotent | green_agent/osworld_client.py:25 | Normalising twice is normalising once, and an extra trailing '/' changes nothing. |
| OsworldClient.HealthCheck | green_agent/osworld_client.py:28-39 | Healthy exactly when the /platform request returned status 200. A raised request gives false. |
| OsworldClient.Escape | green_agent/osworld_client.py:196-197 | Escaping never shortens the text and never starts with a bare quote. |
| OsworldClient.EscapedQuotesArePreceded | green_agent/osworld_client.py:197 | Every quote in the escaped text has a backslash just before it. |
| OsworldClient.UnescapeEscape | green_agent/osworld_client.py:196-197 | Deleting the inserted backslashes gives back the original text. |
| OsworldClient.TypeTextCode | green_agent/osworld_client.py:196-199 | The program is the import line, then `pyautogui.write('…')`. Unescaping the quoted part gives back the typed text. |
| OsworldClient.ClickAtCode | green_agent/osworld_client.py:226-230 | Gives `click()` when x or y is None, and `click(x, y)` otherwise. |
| OsworldClient.MouseMoveCode | green_agent/osworld_client.py:201-213 | The program is the import line, then `pyautogui.moveTo(` with the two coordinates as `str` writes them, then `)`. |
| OsworldClient.DoubleClickAtCode | green_agent/osworld_client.py:232-244 | The same layout with `pyautogui.doubleClick(`. |
| OsworldClient.RightClickAtCode | green_agent/osworld_client.py:246-258 | The same layout with `pyautogui.rightClick(`. |
| OsworldClient.PressKeyCode | green_agent/osworld_client.py:260-271 | The program is the import line, then `pyautogui.press(` with the key in single quotes, unescaped, then `)`. |
| OsworldClient.HotkeyCode | green_agent/osworld_client.py:273-285 | The program is the import line, then `pyautogui.hotkey(` with the quoted keys, then `)`. No keys give `hotkey()`. |
| OsworldClient.QuoteAll | green_agent/osworld_client.py:283 | Each key, in order, is wrapped in single quotes. |
| OsworldClient.HotkeyArgs | green_agent/osworld_client.py:283-284 | Zero keys give an empty argument list, so the program ends in `hotkey()`. |
| OsworldClient.Snippet | green_agent/osworld_client.py:186-285 | Every pyautogui helper sends the import line plus its own line. Execute and screenshot calls are not snippets. |
| OsworldClient.LaunchChrome | green_agent/osworld_client.py:153-166 | The command is google-chrome --no-sandbox --new-window, with the url appended only when it is non-empty. It runs with the default execute options. |
| OsworldClient.ToDict | green_agent/osworld_client.py:321-328 | Exactly the four keys, each taken from the matching field. |
| OsworldClient.FromToDict | green_agent/osworld_client.py:321-328 | The dictionary gives back the observation it was built from. |
| OsworldClient.CreateObservation | green_agent/osworld_client.py:331-369 | A screenshot failure propagates after the one request. Otherwise the requests are screenshot, tree (only when include_a11y is set), cursor position and screen size, in that order. Each optional field holds the value its request returned, and None when that request raised or the tree was not asked for. |
| OsworldClient.OptionalFailuresAreIsolated | green_agent/osworld_client.py:342-362 | A failure in one optional field changes that field alone, compared with the same call without the failure. |
| WhiteAgent.ParseObservation | white_agent/server.py:9-13 | frame_id and image_png_b64 are required. ui_hint defaults to None and done to False. |
| WhiteAgent.ParseToJson | white_agent/server.py:9-13 | Parsing a serialised observation gives it back. |
| WhiteAgent.ObservationDefaults | white_agent/server.py:12-13 | A body with only the required fields parses with ui_hint None and done False. |
| WhiteAgent.Decide | white_agent/server.py:24-30 | The answer is the save hotkey exactly when the hint contains "Ctrl+S", and the default click otherwise. |
| WhiteAgent.DecideTwoWay | white_agent/server.py:24-30 | Only two answers are possible, and the answer depends on nothing but the hint. |
| WhiteAgent.DecideExamples | white_agent/server.py:28-30 | Examples only: "Press Ctrl+S to save" gives the hotkey. "ctrl+s", "" and None give the click. |
| WhiteAgent.Reset | white_agent/server.py:19-21 | Always {"ok": true}. |
| WhiteAgent.HandleDecide | white_agent/server.py:24-30 | A valid body gets one of the two answers, and it gets the save hotkey exactly when its `ui_hint` contains "Ctrl+S". An invalid body gets no answer. |
| ScriptCommon.EffectsOf | run_with_gpt4v.py:96-152 | A command issues at most one call and never a screenshot. Scroll, no keys and unknown actions issue nothing. |
| PurePath.Parse | run_with_gpt4v.py:36 | Every part a path keeps is non-empty, not "." and free of separators. |
| PurePath.Parts | run_with_gpt4v.py:36 | Only empty and "." segments are dropped. The kept ones come from the input, and with separator-free input they are valid parts. |
| PurePath.Anchor | run_with_gpt4v.py:36 | A path is relative exactly when it does not start with '/'. Exactly two leading separators are kept as "//". |
| PurePath.NormalRoundTrip | run_with_gpt4v.py:36 | A relative path string whose segments are all valid parts renders as itself. |
| PurePath.RelativeRoundTrip | run_with_gpt4v.py:36 | Valid parts joined with '/' parse back into the same relative path, which renders as the joined string. |
| PurePath.JoinPart | run_with_gpt4v.py:36 | Appending a part to a non-empty path adds one separator and the part. |
| PurePath.JoinNothing | run_with_gpt4v.py:36 | Appending "" or "." leaves the path unchanged. |
| PurePath.JoinTwoParts | run_with_gpt4v.py:36 | Appending a directory and a name to a non-empty relative path renders as path/dir/name. |
| PurePath.JoinEmptyThenPart | run_with_gpt4v.py:36 | An empty directory between a path and a name adds no level. |
| PurePath.ParseName | run_with_gpt4v.py:210 | A single valid part parses into a relative path of that one part. |
| PurePath.JoinSnoc | run_with_gpt4v.py:36 | Rendering one more part adds one separator and that part at the end. |
| PurePath.PartsOfParts | run_with_gpt4v.py:36 | Segments that are all valid parts are kept as they are. |
| ScriptCommon.ExamplesDirParts | run_with_gpt4v.py:36 | The examples directory parses into its four parts and renders as itself. |
| ScriptCommon.JsonNamePart | run_with_gpt4v.py:36 | A task id without '/' gives a file name that is one path part. |
| ScriptCommon.TaskPath | run_with_gpt4v.py:36 | With a plain domain and a task id without '/', the path is examples dir/domain/id.json. An empty domain adds no level: the path is examples dir/id.json, not a doubled separator. |
| ScriptCommon.AbsoluteDomainTaskPath | run_with_gpt4v.py:36 | An absolute domain "/d" replaces the examples directory: the path is /d/id.json. |
| ScriptCommon.LoadTaskConfig | run_with_gpt4v.py:34-42 | A stored task file is returned. A missing one raises "Task file not found: " + its path as pathlib renders it. |
| ScriptCommon.Executable | run_with_gpt4v.py:253-255 | The DONE, FAIL and WAIT markers are dropped, and every other action is kept. |
| ScriptCommon.ExecutableAppend | run_with_gpt4v.py:253-255 | Filtering a joined list filters each part, so kept actions stay in their order. |
| ScriptCommon.ExecutableOne | run_with_gpt4v.py:253-255 | A single action is kept exactly when it is not DONE, FAIL or WAIT. |
| ScriptCommon.NumberPair | run_with_gpt4v.py:96 | Reads two non-empty digit runs with optional x=/y= prefixes. Input not starting with a digit or a permitted prefix gives nothing. |
| ScriptCommon.NumberPairRendered | run_with_gpt4v.py:96-115 | The coordinates the client renders are captured as exactly the digits it wrote. |
| ScriptCommon.NumberPairNamedOf | run_with_gpt4v.py:101 | The named form x=…, y=… is read where the prefixes are allowed. |
| ScriptCommon.NumberPairNamedRefused | run_osworld_benchmark.py:51 | The named form is refused where the prefixes are not allowed. |
| ScriptCommon.LazyQuoted | run_with_gpt4v.py:118-124 | The captured text is non-empty, on one line, and runs from the opening quote to the next quote of either kind. |
| ScriptCommon.LazyQuotedRendered | run_with_gpt4v.py:122 | Text without quotes or newlines is captured exactly from `'text'`. |
| ScriptCommon.FindQuoted | run_with_gpt4v.py:128 | Every single-quoted substring found is non-empty and contains no quote. No quotes gives no keys. |
| ScriptCommon.FindQuotedHotkeyArgs | green_agent/osworld_client.py:283-284 | The quoted keys the client joins into a hotkey call are found again, in order. |
| ScriptCommon.PressCall | run_with_gpt4v.py:141 | A key is read only from `press('key')` at the start of the call. The key is non-empty and holds no quote. |
| ScriptCommon.ScrollCall | run_with_gpt4v.py:146-147 | An amount is read only after `scroll(`, and the only error it raises is `int`'s digit-limit ValueError. |
| ScriptCommon.SignedInt | run_with_gpt4v.py:146-147 | A negative amount needs a leading '-', and a leading digit always gives a non-negative amount. It raises exactly when the digit run after an optional '-' is longer than 4300, with the message for that many digits. |
| ScriptCommon.SignedIntWritten | run_with_gpt4v.py:146-147 | A number `str` can write, followed by a non-digit, is read back as itself. |
| ScriptCommon.IntOf | run_with_gpt4v.py:97 | `int` of a digit run raises exactly when the run has more than 4300 digits, with Python 3.11's message giving the count. Otherwise it is the run's decimal value. |
| ScriptCommon.IntOfWritten | run_with_gpt4v.py:97 | `int(str(n)) == n` for every number of at most 4300 digits. |
| ScriptCommon.PairValues | run_with_gpt4v.py:97 | Both numbers convert exactly when neither is over the limit. The error raised is the first number's when it is over the limit, else the second's. |
| ScriptCommon.PairValuesWritten | run_with_gpt4v.py:97 | Two numbers `str` can write convert back to themselves. |
| ScriptCommon.PointerCommand | run_with_gpt4v.py:96-115 | A matched coordinate pattern raises exactly when a captured run is over the digit limit, with the limit message. Otherwise it gives the command of that kind at the two values. |
| ScriptCommon.PointerWritten | run_with_gpt4v.py:96-115 | Coordinates as the client writes them give the command at those coordinates. |
| ScriptCommon.Pointing | run_with_gpt4v.py:96-115 | Each coordinate pattern leads to its own command kind: move, click, double click or right click. |
| ScriptCommon.SleepError | run_with_gpt4v.py:68 | `time.sleep` accepts a duration exactly when it is non-negative and at most 2^63-1 nanoseconds. Beyond that it raises the OverflowError, and a negative duration within range raises the ValueError. |
| ScriptCommon.SleepBound | run_osworld_benchmark.py:95 | 9223372036 seconds are accepted. 9223372037 and 10000000000 seconds overflow. |
| ScriptCommon.KeysCommand | run_with_gpt4v.py:128-138 | No keys means no call. Otherwise each key is looked up in the script's key map, in order. |
| ScriptCommon.HotkeyLineKeys | run_osworld_benchmark.py:73-85 | A hotkey line as the client writes it gives back its keys, when the key map leaves them alone. |
| ScriptCommon.SetupTrace | run_with_gpt4v.py:45-70 | With at most one effect per entry, setup has at most one effect per entry. |
| ScriptCommon.SetupTraceAppend | run_with_gpt4v.py:45-70 | Entries are handled independently and in order, so later entries always run. |
| ScriptCommon.SetupTraceSkips | run_with_gpt4v.py:49-70 | An entry that does nothing, or whose failure is swallowed, leaves the entries around it unaffected. |
| ScriptCommon.SetupTraceBlind | run_with_gpt4v.py:45-70 | Setup whose entries take no screenshot takes none. |
| Gpt4vRunner.MapKey | run_with_gpt4v.py:131-137 | control_l, shift_l, alt_l and super_l, in any case, map to ctrl, shift, alt and win. Every other key passes through unchanged. |
| Gpt4vRunner.Recognise | run_with_gpt4v.py:96-152 | Parsing raises only on input starting `pyautogui.`, and only with `int`'s digit-limit ValueError. A hotkey result comes only from input containing `pyautogui.hotkey` and carries the keys found there. Press, scroll and unknown results come only from input without it. A single line is never a sleep. |
| Gpt4vRunner.RecogniseCall | run_with_gpt4v.py:96-152 | Each command kind comes only from its own call prefix. A raise comes only from a coordinate or scroll call, and only with the digit-limit ValueError. |
| Gpt4vRunner.RecognisePointer | run_with_gpt4v.py:96-115 | The coordinate branches give only moves and clicks, each from its own prefix, or the digit-limit error. |
| Gpt4vRunner.RecogniseText | run_with_gpt4v.py:118-152 | The later branches give typing, hotkeys, presses, scrolls or nothing. They raise only from a scroll amount over the digit limit. |
| Gpt4vRunner.RecognisesLongCoordinate | run_with_gpt4v.py:101-103 | `click(d, y)` with more than 4300 digits in d raises the ValueError for that many digits. |
| Gpt4vRunner.LongCoordinateRefused | run_with_gpt4v.py:256-261 | Executing such a line makes no call and raises, at any depth. The step loop catches it and goes on with the next action. |
| Gpt4vRunner.RecognisesClientLines | run_with_gpt4v.py:96-138 | Every line the client would send for a move, click, double click, right click, type or hotkey is parsed back into exactly that call. Coordinates must be non-negative and at most 4300 digits long. |
| Gpt4vRunner.RecognisesMove | run_with_gpt4v.py:96-98 | `moveTo(x, y)` is parsed as a move to (x, y). |
| Gpt4vRunner.RecognisesClick | run_with_gpt4v.py:101-103 | `click(x, y)` is parsed as a click at (x, y). |
| Gpt4vRunner.RecognisesClickHere | run_with_gpt4v.py:105-107 | `click()` is parsed as a click at the current position. |
| Gpt4vRunner.RecognisesDoubleClick | run_with_gpt4v.py:109-111 | `doubleClick(x, y)` is parsed as a double click at (x, y). |
| Gpt4vRunner.RecognisesRightClick | run_with_gpt4v.py:113-115 | `rightClick(x, y)` is parsed as a right click at (x, y). |
| Gpt4vRunner.RecognisesWrite | run_with_gpt4v.py:122-124 | `write('t')` is parsed as typing t. |
| Gpt4vRunner.RecognisesHotkey | run_with_gpt4v.py:127-138 | A hotkey call with unmapped keys is parsed into the same keys. |
| Gpt4vRunner.EscapeWithoutQuotes | green_agent/osworld_client.py:197 | Text without quotes is sent unchanged. |
| Gpt4vRunner.ImportLineDiverges | run_with_gpt4v.py:83-93 | A one-line pyautogui action containing "import" never finishes: at every depth it ends in the recursion error, with no effect. |
| Gpt4vRunner.WriteImportDiverges | run_with_gpt4v.py:83-92 | `pyautogui.write('import os')` is such an action. |
| Gpt4vRunner.ExecuteAction | run_with_gpt4v.py:73-152 | With any depth left, execution equals the one-level interpretation: the lines are run in order, and an import line or a line whose parsing raises ends the action. |
| Gpt4vRunner.ExecuteLinesIsInterpret | run_with_gpt4v.py:84-93 | The same holds line by line for a whole block. |
| Gpt4vRunner.LineSkipped | run_with_gpt4v.py:86-91 | Empty, comment, import, time. and other non-pyautogui lines are skipped. |
| Gpt4vRunner.LineRuns | run_with_gpt4v.py:91-92 | A pyautogui line without "import" contributes its command's effects, followed by those of the remaining lines. |
| Gpt4vRunner.LineImports | run_with_gpt4v.py:91-92 | A pyautogui line containing "import" diverges and ends the block with no effect. |
| Gpt4vRunner.LineRefused | run_with_gpt4v.py:91-92 | A pyautogui line whose parsing raises ends the block with no further effect, in both readings. |
| Gpt4vRunner.DispatchTakesNoScreenshot | run_with_gpt4v.py:73-152 | Executing an action never takes a screenshot, at any depth. |
| Gpt4vRunner.ExecutorIsBlind | run_with_gpt4v.py:73-152 | The executor used by the loop takes no screenshot for any action. |
| Gpt4vRunner.SetupEffect | run_with_gpt4v.py:47-70 | "launch" sends the joined command + " &" through the shell with timeout 5. "execute" sends the list without a shell and with timeout 30. "sleep" sleeps exactly when `time.sleep` accepts the time. A negative time, or one over 2^63-1 nanoseconds, makes it raise, and the swallowed error leaves the entry with no effect. Other entries do nothing. |
| Gpt4vRunner.LaunchLine | run_with_gpt4v.py:55 | The launched shell line splits back into the command words. |
| Gpt4vRunner.SetupEffects | run_with_gpt4v.py:45-70 | At most one effect per setup entry. |
| Gpt4vRunner.RefusedSleepSkipped | run_with_gpt4v.py:65-70 | A sleep entry that `time.sleep` refuses contributes nothing, and the entries after it still run. |
| Gpt4vRunner.SetupTakesNoScreenshot | run_with_gpt4v.py:45-70 | Setup never takes a screenshot. |
| Gpt4vRunner.IsChromeTask | run_with_gpt4v.py:182 | "chrome" or "Chrome" anywhere in the domain or the instruction makes the task a Chrome task, since both are lower-cased before the test. |
| Gpt4vRunner.IdPrefix | run_with_gpt4v.py:192 | The Chrome profile uses the first eight characters of the task id, or all of a shorter id. |
| Gpt4vRunner.ChromeTaskIgnoresCase | run_with_gpt4v.py:182 | Whether a task is a Chrome task does not depend on the case of its domain or instruction. |
| Gpt4vRunner.ChromeLine | run_with_gpt4v.py:192 | The line is the fixed google-chrome start, the task's id prefix as the profile name, and the fixed Google start page in the background. |
| Gpt4vRunner.ChromeLineShared | run_with_gpt4v.py:192 | Two tasks get the same Chrome line, and so the same profile, exactly when their ids agree on the first eight characters. |
| Gpt4vRunner.ChromeEffects | run_with_gpt4v.py:184-199 | Kill Chrome, sleep 1, launch through the shell with timeout 10, then sleep 5. |
| Gpt4vRunner.PrepareEffects | run_with_gpt4v.py:182-206 | A Chrome task, by domain or instruction, gets the Chrome launch. Any other task runs its setup followed by a 2-second sleep, or nothing when it has no setup. |
| Gpt4vRunner.ChromeIgnoresSetup | run_with_gpt4v.py:182-199 | A Chrome task's preparation does not depend on its setup list. |
| Gpt4vRunner.PrepareTakesNoScreenshot | run_with_gpt4v.py:182-206 | Preparation takes no screenshot. |
| Gpt4vRunner.ExecuteAll | run_with_gpt4v.py:253-261 | No actions give no effects, and one action gives exactly its own effects. |
| Gpt4vRunner.ExecuteAllAppend | run_with_gpt4v.py:253-261 | Each action's effects follow those of the actions before it, and a failing action does not stop the rest. |
| Gpt4vRunner.ExecuteAllTakesNoScreenshot | run_with_gpt4v.py:253-261 | Executing a step's actions takes no screenshot when the executor takes none. |
| Gpt4vRunner.AgentLoop | run_with_gpt4v.py:219-264 | The loop ends at the first step that stops (prediction error, DONE or FAIL) or at max_steps. Success means DONE was predicted at the last step. The first effect is the first step's screenshot. |
| Gpt4vRunner.LoopTrace | run_with_gpt4v.py:219-264 | The loop's effects are the traces of its steps, in order. A stopping step is a lone screenshot. Any other step is a screenshot, then the executable actions' effects in order, then a one-second sleep. |
| Gpt4vRunner.DoneBeatsFail | run_with_gpt4v.py:244-247 | DONE is checked before FAIL, so a prediction holding both succeeds at once. |
| Gpt4vRunner.PredictionErrorStops | run_with_gpt4v.py:235-241 | A prediction error ends the loop at that step without success. |
| Gpt4vRunner.StepTakesOneScreenshot | run_with_gpt4v.py:222-264 | One step takes exactly one screenshot. |
| Gpt4vRunner.OneScreenshotPerStep | run_with_gpt4v.py:219-264 | The loop takes one screenshot per step entered. |
| Gpt4vRunner.ScriptRunIsBlind | run_with_gpt4v.py:73-152 | The script's own executor takes no screenshot. |
| Gpt4vRunner.RunSingleTask | run_with_gpt4v.py:155-280 | A missing task file raises. A step limit below 1 raises the unbound-variable error. Otherwise the report has the id, domain and instruction, steps between 1 and max_steps, success exactly on DONE, the loop-stop facts and the screenshot directory exactly when screenshots are saved. The trace starts with the preparation. |
| Gpt4vRunner.RunTrace | run_with_gpt4v.py:170-264 | A run's effects are the preparation followed by the traces of steps 1 to the reported step. |
| Gpt4vRunner.ResultsRootParts | run_with_gpt4v.py:210 | "results" parses into one part and renders as itself. |
| Gpt4vRunner.ResultsDir | run_with_gpt4v.py:210 | With a plain domain and task id, the screenshot directory is results/domain/id. An empty domain adds no level: the directory is results/id. |
| Gpt4vRunner.RunScreenshots | run_with_gpt4v.py:219-223 | A run takes as many screenshots as the reported number of steps. |
| BenchmarkRunner.MapKey | run_osworld_benchmark.py:78-84 | ctrl, shift, alt and super, in any case, map to Control_L, Shift_L, Alt_L and Super_L. Every other key passes through unchanged. |
| BenchmarkRunner.KeyMapsRoundTrip | run_osworld_benchmark.py:78-84 | Mapping ctrl, shift or alt with this script's table and then the GPT-4V script's gives back the lower-case modifier, but super comes back as win: the two tables are not inverses. |
| BenchmarkRunner.SleepCall | run_osworld_benchmark.py:93 | Captures a non-empty run of digits and dots after `sleep(`. |
| BenchmarkRunner.FloatOf | run_osworld_benchmark.py:94 | `float` of a digits-and-dots string is non-negative and needs at least one digit. |
| BenchmarkRunner.FloatOfWhole | run_osworld_benchmark.py:94 | `float` of a whole number's decimal text is that number. |
| BenchmarkRunner.FloatOfDecimal | run_osworld_benchmark.py:94 | `float` of "w.f" is w + f / 10^len(f). |
| BenchmarkRunner.FloatOfRefuses | run_osworld_benchmark.py:94 | Examples only: "." and "1.2.3" are not floats. |
| BenchmarkRunner.Recognise | run_osworld_benchmark.py:48-98 | Parsing raises only on input starting `pyautogui.`: a click-kind call whose coordinate `int` refuses, with the digit-limit ValueError, or a matched sleep whose duration is not a float, with Python's ValueError message. A hotkey result comes only from input containing `pyautogui.hotkey` and carries the keys found there. A move, bare click or scroll never results, and a pause is never negative. |
| BenchmarkRunner.RecogniseCall | run_osworld_benchmark.py:51-98 | The same facts for the text after `pyautogui.`. |
| BenchmarkRunner.RecognisePointer | run_osworld_benchmark.py:51-61 | The coordinate branches match only click, double click and right click calls, and raise only the digit-limit error. |
| BenchmarkRunner.RecogniseText | run_osworld_benchmark.py:64-98 | The later branches give typing, hotkeys, presses, non-negative pauses or nothing. They raise only on a sleep whose duration is not a float. |
| BenchmarkRunner.ExecuteAction | run_osworld_benchmark.py:33-98 | An action raises exactly when parsing its stripped text raises, with the same message, or when it is a pause over 2^63-1 nanoseconds, with the OverflowError. Otherwise it issues the parsed command's effects, at most one. |
| BenchmarkRunner.RecognisesClick | run_osworld_benchmark.py:51-53 | `click(x, y)` is parsed as a click at (x, y). |
| BenchmarkRunner.RecognisesDoubleClick | run_osworld_benchmark.py:55-57 | `doubleClick(x, y)` is parsed as a double click at (x, y). |
| BenchmarkRunner.RecognisesRightClick | run_osworld_benchmark.py:59-61 | `rightClick(x, y)` is parsed as a right click at (x, y). |
| BenchmarkRunner.RecognisesWrite | run_osworld_benchmark.py:68-70 | `write('t')` is parsed as typing t. |
| BenchmarkRunner.RecognisesHotkey | run_osworld_benchmark.py:73-85 | A hotkey call with keys this script's map leaves alone is parsed into the same keys. |
| BenchmarkRunner.RecognisesSleep | run_osworld_benchmark.py:93-95 | `sleep(n)` is parsed as a pause of n seconds. |
| BenchmarkRunner.RecognisesLongCoordinate | run_osworld_benchmark.py:51-53 | `click(d, y)` with more than 4300 digits in d raises the ValueError for that many digits. |
| BenchmarkRunner.LongCoordinateRaises | run_osworld_benchmark.py:51-53 | Executing that line raises the same error out of the action, ending the task. |
| BenchmarkRunner.ExecutesSleep | run_osworld_benchmark.py:93-95 | `sleep(n)` sleeps n seconds when n is at most 9223372036, and raises the OverflowError for any larger n. |
| BenchmarkRunner.SetupEffect | run_osworld_benchmark.py:120-141 | "launch" and "execute" send the command list unchanged with the client defaults. "sleep" sleeps exactly when `time.sleep` accepts the time. A negative time, or one over 2^63-1 nanoseconds, makes it raise, and the swallowed error leaves the entry with no effect. Other entries do nothing. |
| BenchmarkRunner.SetupEffects | run_osworld_benchmark.py:118-141 | At most one effect per setup entry. |
| BenchmarkRunner.RefusedSleepSkipped | run_osworld_benchmark.py:135-141 | A sleep entry that `time.sleep` refuses contributes nothing, and the entries after it still run. |
| BenchmarkRunner.SetupDiffersOnlyOnLaunch | run_osworld_benchmark.py:125-134 | Compared with the GPT-4V script, setup differs only on launch (no shell here) and on execute (timeout 120 here, 30 there). |
| BenchmarkRunner.SetupTakesNoScreenshot | run_osworld_benchmark.py:118-141 | Setup takes no screenshot. |
| BenchmarkRunner.PrepareEffects | run_osworld_benchmark.py:175-180 | A task with setup entries runs them, then sleeps 2 seconds. A task without setup does nothing. |
| BenchmarkRunner.ExecuteAll | run_osworld_benchmark.py:208-213 | A step's actions all run exactly when none of them raises. One action gives its own outcome. A raise carries the message of the first action that raised, all before it having run. |
| BenchmarkRunner.ExecuteAllAppend | run_osworld_benchmark.py:208-213 | When both parts run, the effects of the joined list are the first part's followed by the second's. |
| BenchmarkRunner.AgentLoop | run_osworld_benchmark.py:185-217 | A returned loop ended at the first DONE or FAIL, or at max_steps, and every step went through. A raised loop had a step whose prediction or action raised. |
| BenchmarkRunner.LoopTrace | run_osworld_benchmark.py:185-217 | A returned loop's effects are the traces of its steps, in order. A stopping step is a lone screenshot. Any other step is a screenshot, then the executable actions' effects in order, then a one-second sleep. |
| BenchmarkRunner.LoopRaise | run_osworld_benchmark.py:185-217 | A raised loop carries the error of the first step that did not go through: its prediction's error or its first raising action's. Every earlier step ran all its actions without stopping. |
| BenchmarkRunner.RaisingStep | run_osworld_benchmark.py:185-217 | The step a raising loop raises at, with its error. |
| BenchmarkRunner.RaiseHere | run_osworld_benchmark.py:188-213 | A step that does not go through raises its own error. |
| BenchmarkRunner.RaiseComesLater | run_osworld_benchmark.py:188-217 | After a step that went through, a raise comes from the later steps. |
| BenchmarkRunner.FirstFailingLater | run_osworld_benchmark.py:185-217 | A step that goes on to the next keeps the first failing step after it the first. |
| BenchmarkRunner.LoopReturns | run_osworld_benchmark.py:185-217 | When every step goes through, the loop returns. |
| BenchmarkRunner.ScriptRunIsBlind | run_osworld_benchmark.py:33-98 | The script's executor takes no screenshot. |
| BenchmarkRunner.ExecuteAllIsBlind | run_osworld_benchmark.py:208-213 | Executing a step's actions takes no screenshot. |
| BenchmarkRunner.OneScreenshotPerStep | run_osworld_benchmark.py:185-189 | The loop takes one screenshot per step entered. |
| BenchmarkRunner.RunSingleTask | run_osworld_benchmark.py:145-232 | A missing task file or a step limit below 1 raises. A returned report has the id, domain and instruction and steps within 1..max_steps, with the loop-stop facts. The trace starts with the preparation. |
| BenchmarkRunner.RunTrace | run_osworld_benchmark.py:158-217 | A finished task's effects are the preparation followed by the traces of steps 1 to the reported step. |
| BenchmarkRunner.RunRaise | run_osworld_benchmark.py:158-217 | With an existing task file and a step limit of at least 1, a raise carries the error of the first step that did not go through. |
| BenchmarkRunner.RunScreenshots | run_osworld_benchmark.py:185-189 | A returned run took as many screenshots as the reported steps. |
| BenchmarkRunner.ResultOf | run_osworld_benchmark.py:274-289 | A returned task records its report. A raising task records its id, the domain and the error message. |
| BenchmarkRunner.RunAll | run_osworld_benchmark.py:272-290 | Exactly one result per task id, in order, each from running that task alone. |
| BenchmarkRunner.TaskIds | run_osworld_benchmark.py:263-266 | A given non-empty task id gives the list of that one id. Otherwise the list is the domain's tasks. |
| BenchmarkRunner.BenchmarkMain | run_osworld_benchmark.py:235-296 | An absent domain gives exit code 1 and runs nothing. Otherwise the code is 0, with one result per selected task, and a single result when a task id is given. |

## Left out

- HTTP transport (FastAPI routing, uvicorn, `requests`, `httpx`) is left out. Remote calls are oracle outcomes.
- `green_agent/white_client.py` is folded into the `decide` oracle.
- The vendored `PromptAgent` and `WhiteAgentBridge` are not part of this model. Their predictions are an input function of the step number.
- sqlite, the DDL and the SQL text are replaced by a map of rows and a list of action entries. Serialising `args` with `json.dumps` is kept as an opaque string.
- The filesystem is not modelled: JSON file loading, `os.makedirs`, `Path.mkdir` and screenshot files. Task files are a map from path to parsed task.
- PIL drawing and base64/PNG encoding are left out. Images are opaque strings.
- `time.time`, `time.sleep` and `round(dt, 3)` are not computed. Elapsed time is a parameter, and a sleep is an effect in the trace.
- uuid generation is out of scope. The assessment id is a parameter.
- Logging, argparse, `.env` loading and the GPT-4V script's `main` are not modelled.
- Only the client's snippet builders, `execute`, `launch_chrome`, `health_check` and `create_observation` are modelled. `get_platform`, the screenshot getters, `get_accessibility_tree`, `get_cursor_position`, `get_screen_size`, `get_terminal_output` and `close` are environment calls, represented as oracle outcomes.
- Exceptions raised by environment calls in the scripts are not modelled. Every REST call is assumed to return. This leaves out the skipped one-second sleep after a failing `pkill` and a setup entry that raises part-way.
- BenchmarkRunner.RunSingleTask: a raised outcome carries only the message. The effects made before the exception are dropped.
- Gpt4vRunner.RunSingleTask: a raised outcome carries only the message. The effects made before the exception are dropped. This includes the Chrome or setup preparation, which runs before a step limit below 1 raises at run_with_gpt4v.py:267.
- TaskConverter.ExtractMaxSteps: JSON `null` and an absent key are both `None`. The source raises AttributeError on `{"constraints": null}`, but the model reads the default 15. `extract_max_time` behaves the same way.
- Gpt4vRunner.SetupEffect: `"parameters": null` is read as absent parameters. The source raises AttributeError on it and swallows it, so the entry is skipped. The model sends the command with an empty argument list. BenchmarkRunner.SetupEffect behaves the same way.
- Gpt4vRunner.RunSingleTask: `"instruction": null` is read as an absent instruction, "". In the source, `.lower()` on it raises AttributeError.
- BenchmarkRunner.RunSingleTask: `"instruction": null` is read as an absent instruction and reported as "". The source reports it as `None` in the result entry.
- Pydantic coercion of request bodies is left out. A field of the wrong JSON type makes the observation invalid.
- `\d` and `str.lower` are modelled on ASCII only; Python also accepts other Unicode digits and letters.
- Python floats are modelled as exact reals. `float()` is modelled only for the digits-and-dots strings the sleep pattern can capture.
- Gpt4vRunner.Recognise: round trips are proved for move, click, double click, right click, write and hotkey. They are not proved for press and scroll; their recognisers are modelled and constrained only by their call prefix.
- BenchmarkRunner.Recognise: round trips are not proved for typewrite and press. Their recognisers are modelled.
- Storage.PathJoin models `os.path.join` for two plain string parts only.
- OsworldClient.ClickAtCode: the builders render any coordinate, but Python's `str` refuses to write an integer of more than 4300 digits. The round trips through the parsers therefore require coordinates that `str` can write.
- ScriptCommon.SleepError: the bound is checked on the exact product of the seconds and 10^9. Python rounds that product in floating point, so a duration within a nanosecond or so of the bound may be judged differently.

=== FILE: app.dfy ===
/** Assessment orchestration (green_agent/app.py): starting a run, and the status and
    results projections of the run store. */
module App {
  import opened Wrappers
  import opened JsonValues
  import Storage
  import Adapter
  import TaskConverter
  import WhiteAgent

  datatype StartRequest = StartRequest(taskId: string, whiteAgentUrl: string)

  /** A route's answer: a body, or an HTTP error with its detail text. */
  datatype Http<+T> = Ok(body: T) | HttpError(code: int, detail: string)

  datatype StartResponse = StartResponse(assessmentId: string, status: string)

  /** The adapter's result as read with `result.get(key)`: a missing key is None. */
  datatype ResultDict = ResultDict(success: Option<int>, steps: Option<int>, timeSec: Option<real>, failureReason: Option<string>)

  function AsDict(r: Adapter.RunResult): ResultDict {
    ResultDict(Some(r.success), Some(r.steps), Some(r.timeSec), r.failureReason)
  }

  /** The number of positional arguments `start_assessment` passes to `run_osworld`. */
  const AdapterArgCount := 3

  const AdapterErrorTag := "adapter_error: "

  /** Everything after the adapter returns or raises: the single store update and the
      response. `counter` is the number of decision-callback invocations, each counted
      before its remote call is made. */
  function Conclude(id: string, adapter: Outcome<ResultDict>, counter: nat, elapsed: real): (r: (Storage.Op, StartResponse))
    ensures r.0.Update? && r.0.id == id && r.0.status == "completed"
    ensures r.0.u.taskId.None? && r.0.u.whiteAgent.None? && r.0.u.artifactsDir.None? && r.0.u.createdAt.None?
    ensures r.1.assessmentId == id
    ensures adapter.Returned? ==>
      && r.1.status == "running"
      && r.0.u.success == Some(Some(adapter.value.success.GetOr(0)))
      && r.0.u.steps == Some(Some(adapter.value.steps.GetOr(0)))
      && r.0.u.timeSec == Some(Some(adapter.value.timeSec.GetOr(0.0)))
      && r.0.u.failureReason == Some(adapter.value.failureReason)
    ensures adapter.Raised? ==>
      && r.1.status == "completed"
      && r.0.u.success == Some(Some(0))
      && r.0.u.steps == Some(Some(counter))
      && r.0.u.timeSec == Some(Some(elapsed))
      && r.0.u.failureReason == Some(Some(AdapterErrorTag + adapter.message))
  {
    var failure: Option<string> := if adapter.Raised? then Some(AdapterErrorTag + adapter.message) else None;
    var result := match adapter
      case Returned(d) => d
      case Raised(e) => ResultDict(Some(0), Some(counter), Some(elapsed), failure);
    var u := Storage.Updates(None, None,
      Some(Some(result.success.GetOr(0))), Some(Some(result.steps.GetOr(0))),
      Some(Some(result.timeSec.GetOr(0.0))), Some(result.failureReason), None, None);
    (Storage.Update(id, "completed", u), StartResponse(id, if failure.None? then "running" else "completed"))
  }

  /** A start: the store operations performed, in order, the resulting store and the answer. */
  datatype Start = Start(ops: seq<Storage.Op>, store: Storage.Store, response: Http<StartResponse>)

  /** `start_assessment`. `id` is the fresh assessment id, `task` the parsed task file (None
      when it does not exist), `decide` the remote agent and `now`/`elapsed` the clock. */
  function StartAssessment(s: Storage.Store, cfg: Adapter.Config, runsDir: string, id: string, now: real,
                           req: StartRequest, task: Option<TaskConverter.GreenTask>,
                           decide: WhiteAgent.Observation -> Outcome<Json>, elapsed: real): (r: Start)
    ensures r.store == Storage.ApplyAll(s, r.ops)
    ensures 1 <= |r.ops| <= 2
    ensures r.ops[0] == Storage.Create(runsDir, id, req.taskId, req.whiteAgentUrl, now)
    ensures task.None? <==> r.response.HttpError?
    ensures task.None? ==> |r.ops| == 1 && r.response == HttpError(404, "Task not found: " + req.taskId)
    ensures task.Some? ==> |r.ops| == 2 && r.ops[1].Update? && r.ops[1].id == id && r.ops[1].status == "completed"
  {
    var create := Storage.Create(runsDir, id, req.taskId, req.whiteAgentUrl, now);
    if task.None? then
      Start([create], Storage.ApplyAll(s, [create]), HttpError(404, "Task not found: " + req.taskId))
    else
      var run := Adapter.CallRunOsworld(cfg, AdapterArgCount, task.value, decide, elapsed);
      var outcome := match run.outcome
        case Returned(res) => Returned(AsDict(res))
        case Raised(e) => Raised(e);
      var (update, response) := Conclude(id, outcome, |run.calls|, elapsed);
      Start([create, update], Storage.ApplyAll(s, [create, update]), Ok(response))
  }

  /** A missing task is reported as 404 after the run was created, so its row stays "running"
      with no metrics. */
  lemma {:induction false} MissingTaskLeavesRunRunning(s: Storage.Store, cfg: Adapter.Config, runsDir: string, id: string, now: real,
                                    req: StartRequest, decide: WhiteAgent.Observation -> Outcome<Json>, elapsed: real)
    ensures var r := StartAssessment(s, cfg, runsDir, id, now, req, None, decide, elapsed);
      && r.response.HttpError? && r.response.code == 404
      && id in r.store.runs
      && r.store.runs[id].status == "running"
      && r.store.runs[id].success == None && r.store.runs[id].steps == None
      && r.store.runs[id].failureReason == None
  {
    var create := Storage.Create(runsDir, id, req.taskId, req.whiteAgentUrl, now);
    Storage.ApplyShort(s, create, create);
  }

  /** With `run_osworld` taking two parameters, the three-argument call raises before the
      decision agent is ever asked: every run of an existing task ends completed, failed, with
      zero steps and an `adapter_error` reason, while the response says "completed". */
  lemma {:induction false} EveryRunIsAnAdapterError(s: Storage.Store, cfg: Adapter.Config, runsDir: string, id: string, now: real,
                                 req: StartRequest, task: TaskConverter.GreenTask,
                                 decide: WhiteAgent.Observation -> Outcome<Json>, elapsed: real)
    ensures var r := StartAssessment(s, cfg, runsDir, id, now, req, Some(task), decide, elapsed);
      && Adapter.CallRunOsworld(cfg, AdapterArgCount, task, decide, elapsed).calls == []
      && r.response == Ok(StartResponse(id, "completed"))
      && id in r.store.runs
      && r.store.runs[id].status == "completed"
      && r.store.runs[id].success == Some(0)
      && r.store.runs[id].steps == Some(0)
      && r.store.runs[id].failureReason
         == Some(AdapterErrorTag + "run_osworld() takes 2 positional arguments but 3 were given")
  {
    var run := Adapter.CallRunOsworld(cfg, AdapterArgCount, task, decide, elapsed);
    assert Adapter.ArityMessage(3) == "run_osworld() takes 2 positional arguments but 3 were given";
    assert run.outcome == Raised(Adapter.ArityMessage(3));
    var create := Storage.Create(runsDir, id, req.taskId, req.whiteAgentUrl, now);
    var (update, _) := Conclude(id, Raised(Adapter.ArityMessage(3)), 0, elapsed);
    Storage.ApplyShort(s, create, update);
  }

  /** Whatever the adapter does, the run is left "completed" and no other run changes; the
      response nevertheless says "running" exactly when the adapter returned. */
  lemma {:induction false} ConcludeFinalises(st: Storage.Store, id: string, adapter: Outcome<ResultDict>, counter: nat, elapsed: real)
    requires id in st.runs
    ensures var (op, resp) := Conclude(id, adapter, counter, elapsed);
      var st' := Storage.Apply(st, op);
      && st'.runs[id].status == "completed"
      && st'.runs[id].artifactsDir == st.runs[id].artifactsDir
      && (forall other :: other in st.runs && other != id ==> st'.runs[other] == st.runs[other])
      && (resp.status == "running" <==> adapter.Returned?)
  {
  }

  datatype AssessmentStatus = AssessmentStatus(assessmentId: string, status: string, progress: real, lastStep: int)

  /** `GET /assessments/{id}/status`. */
  function Status(s: Storage.Store, id: string): (r: Http<AssessmentStatus>)
    ensures id !in s.runs <==> r == HttpError(404, "assessment not found")
    ensures id in s.runs ==> r.Ok? && r.body.assessmentId == id && r.body.status == s.runs[id].status
    ensures id in s.runs ==> (r.body.progress == 1.0 <==> s.runs[id].status == "completed")
    ensures id in s.runs ==> r.body.progress == 1.0 || r.body.progress == 0.5
    ensures id in s.runs ==> r.body.lastStep == s.runs[id].steps.GetOr(0)
  {
    match Storage.FetchRun(s, id)
    case None => HttpError(404, "assessment not found")
    case Some(row) =>
      Ok(AssessmentStatus(id, row.status, if row.status == "completed" then 1.0 else 0.5, row.steps.GetOr(0)))
  }

  datatype RunMetrics = RunMetrics(
    assessmentId: string, taskId: string, whiteAgent: string,
    success: int, steps: int, timeSec: real, failureReason: Option<string>, artifactsDir: string)

  /** `GET /assessments/{id}/results`: NULL metrics read as zero, the rest passes through. */
  function Results(s: Storage.Store, id: string): (r: Http<RunMetrics>)
    ensures id !in s.runs <==> r == HttpError(404, "assessment not found")
    ensures id in s.runs ==> r.Ok? && r.body.assessmentId == id
    ensures id in s.runs ==> var row := s.runs[id];
      && r.body.taskId == row.taskId && r.body.whiteAgent == row.whiteAgent
      && r.body.success == row.success.GetOr(0) && r.body.steps == row.steps.GetOr(0)
      && r.body.timeSec == row.timeSec.GetOr(0.0)
      && r.body.failureReason == row.failureReason && r.body.artifactsDir == row.artifactsDir
  {
    match Storage.FetchRun(s, id)
    case None => HttpError(404, "assessment not found")
    case Some(row) =>
      Ok(RunMetrics(id, row.taskId, row.whiteAgent, row.success.GetOr(0), row.steps.GetOr(0),
        row.timeSec.GetOr(0.0), row.failureReason, row.artifactsDir))
  }

  /** End to end: after a start on an existing task, status shows completion at step 0 and
      results show the failure, with the artifacts directory that creation chose. */
  lemma {:induction false} StartThenQuery(s: Storage.Store, cfg: Adapter.Config, runsDir: string, id: string, now: real,
                       req: StartRequest, task: TaskConverter.GreenTask,
                       decide: WhiteAgent.Observation -> Outcome<Json>, elapsed: real)
    ensures var st := StartAssessment(s, cfg, runsDir, id, now, req, Some(task), decide, elapsed).store;
      && Status(st, id) == Ok(AssessmentStatus(id, "completed", 1.0, 0))
      && Results(st, id).Ok?
      && Results(st, id).body.success == 0 && Results(st, id).body.steps == 0
      && Results(st, id).body.taskId == req.taskId
      && Results(st, id).body.artifactsDir == Storage.PathJoin(runsDir, id)
  {
    EveryRunIsAnAdapterError(s, cfg, runsDir, id, now, req, task, decide, elapsed);
    var create := Storage.Create(runsDir, id, req.taskId, req.whiteAgentUrl, now);
    var (update, _) := Conclude(id, Raised(Adapter.ArityMessage(3)), 0, elapsed);
    Storage.ApplyShort(s, create, update);
  }

  /** A run whose task is missing is reported forever as half done. */
  lemma {:induction false} MissingTaskStatus(s: Storage.Store, cfg: Adapter.Config, runsDir: string, id: string, now: real,
                          req: StartRequest, decide: WhiteAgent.Observation -> Outcome<Json>, elapsed: real)
    ensures var st := StartAssessment(s, cfg, runsDir, id, now, req, None, decide, elapsed).store;
      Status(st, id) == Ok(AssessmentStatus(id, "running", 0.5, 0))
  {
    MissingTaskLeavesRunRunning(s, cfg, runsDir, id, now, req, decide, elapsed);
  }

  /** The stage's own `/reset` answers `{"ok": true}`, like the agent's. */
  function StageReset(): (r: Json)
    ensures r == WhiteAgent.Reset()
  {
    Obj(map["ok" := Bool(true)])
  }
}

=== FILE: benchmark_runner.dfy ===
/** The benchmark script driven by the white agent (run_osworld_benchmark.py): its action
    parser, task setup, the step loop, and the run over a domain's tasks. Unlike the GPT-4V
    script it catches nothing inside a task: a failed prediction or a bad action ends the
    task, and the run over the domain records the error and goes on. */
module BenchmarkRunner {
  import opened Wrappers
  import Text
  import Client = OsworldClient
  import opened ScriptCommon
  import Gpt4v = Gpt4vRunner

  // ---------------------------------------------------------------------------------------
  // Actions

  /** The script's `key_map`, looked up with the lower-cased key: pyautogui's modifier names
      to the OSWorld ones; other keys pass through as given. */
  function MapKey(k: string): (r: string)
    ensures Text.Lower(k) == "ctrl" ==> r == "Control_L"
    ensures Text.Lower(k) == "shift" ==> r == "Shift_L"
    ensures Text.Lower(k) == "alt" ==> r == "Alt_L"
    ensures Text.Lower(k) == "super" ==> r == "Super_L"
    ensures Text.Lower(k) !in {"ctrl", "shift", "alt", "super"} ==> r == k
  {
    var l := Text.Lower(k);
    if l == "ctrl" then "Control_L"
    else if l == "shift" then "Shift_L"
    else if l == "alt" then "Alt_L"
    else if l == "super" then "Super_L"
    else k
  }

  /** The command for the quoted keys of a hotkey line, mapped by `key_map`. */
  function HotkeyOf(found: seq<string>): Command {
    KeysCommand(MapKey, found)
  }

  /** Going through this script's map and then the GPT-4V script's gives back the lower-cased
      modifier for ctrl, shift and alt, but turns super into win: the two maps are not
      inverse to each other. */
  lemma {:induction false} KeyMapsRoundTrip(k: string)
    ensures Text.Lower(k) == "ctrl" ==> Gpt4v.MapKey(MapKey(k)) == "ctrl"
    ensures Text.Lower(k) == "shift" ==> Gpt4v.MapKey(MapKey(k)) == "shift"
    ensures Text.Lower(k) == "alt" ==> Gpt4v.MapKey(MapKey(k)) == "alt"
    ensures Text.Lower(k) == "super" ==> Gpt4v.MapKey(MapKey(k)) == "win"
  {
    LowerOfModifiers();
  }

  lemma {:induction false} LowerOfModifiers()
    ensures Text.Lower("Control_L") == "control_l" && Text.Lower("Shift_L") == "shift_l"
    ensures Text.Lower("Alt_L") == "alt_l" && Text.Lower("Super_L") == "super_l"
  {
  }

  /** `sleep(` then the longest run of digits and dots, closed by `)`: that run. */
  function SleepCall(call: string): (r: Option<string>)
    ensures r.Some? ==> "sleep(" <= call && |r.value| > 0
    ensures r.Some? ==> forall k :: 0 <= k < |r.value| ==> Text.IsDigit(r.value[k]) || r.value[k] == '.'
  {
    match After(call, "sleep(")
    case None => None
    case Some(args) =>
      var n := DecimalRun(args);
      if n > 0 && n < |args| && args[n] == ')' then Some(args[..n]) else None
  }

  /** The length of the longest prefix made of digits and dots. */
  function DecimalRun(s: string): (n: nat)
    ensures n <= |s|
    ensures forall k :: 0 <= k < n ==> Text.IsDigit(s[k]) || s[k] == '.'
    ensures n < |s| ==> !Text.IsDigit(s[n]) && s[n] != '.'
    decreases |s|
  {
    if |s| > 0 && (Text.IsDigit(s[0]) || s[0] == '.') then 1 + DecimalRun(s[1..]) else 0
  }

  /** 10 to the power `n`. */
  function Pow10(n: nat): (p: nat)
    ensures p >= 1
  {
    if n == 0 then 1 else 10 * Pow10(n - 1)
  }

  /** Python's `float()` on a run of digits and dots: whole digits, then optionally a dot
      and fraction digits, with at least one digit in all; anything else is refused. */
  function FloatOf(g: string): (r: Option<real>)
    ensures r.Some? ==> r.value >= 0.0
    ensures r.Some? ==> exists k :: 0 <= k < |g| && Text.IsDigit(g[k])
  {
    var i := Text.LeadingDigits(g);
    if i == |g| then
      if i > 0 then Some(Text.DigitsValue(g) as real) else None
    else if g[i] != '.' then None
    else
      var frac := g[i + 1..];
      var j := Text.LeadingDigits(frac);
      if j < |frac| || i + j == 0 then None
      else
        assert frac[..j] == frac;
        assert g[..i] + "." + frac == g;
        if i > 0 then Some(Text.DigitsValue(g[..i]) as real + Text.DigitsValue(frac) as real / Pow10(j) as real)
        else
          assert Text.IsDigit(g[i + 1]);
          Some(Text.DigitsValue(frac) as real / Pow10(j) as real)
  }

  /** A whole number written out is read back. */
  lemma {:induction false} FloatOfWhole(n: nat)
    ensures FloatOf(Text.NatToString(n)) == Some(n as real)
  {
    var g := Text.NatToString(n);
    Text.LeadingDigitsOf(g, "");
    assert g + "" == g;
    Text.NatToStringRoundTrip(n);
  }

  /** Digits, a dot and more digits are read as the decimal number they spell. */
  lemma {:induction false} FloatOfDecimal(w: string, f: string)
    requires |w| > 0 && Text.AllDigits(w) && Text.AllDigits(f)
    ensures FloatOf(w + "." + f) == Some(Text.DigitsValue(w) as real + Text.DigitsValue(f) as real / Pow10(|f|) as real)
  {
    var g := w + "." + f;
    Text.LeadingDigitsOf(w, "." + f);
    assert w + ("." + f) == g;
    assert g[|w|] == '.';
    assert g[|w| + 1..] == f;
    Text.LeadingDigitsOf(f, "");
    assert f + "" == f;
    assert g[..|w|] == w;
  }

  /** Examples of refused runs, beside the general `FloatOfWhole` and `FloatOfDecimal`: a run with
      two dots, or with no digit, is refused. */
  lemma {:induction false} FloatOfRefuses()
    ensures FloatOf(".") == None
    ensures FloatOf("1.2.3") == None
  {
    var g := "1.2.3";
    assert Text.LeadingDigits(g) == 1 by {
      assert Text.IsDigit(g[0]) && !Text.IsDigit(g[1]);
      assert Text.LeadingDigits(g[1..]) == 0;
    }
    var frac := g[2..];
    assert frac == "2.3";
    assert Text.LeadingDigits(frac) == 1 by {
      assert Text.IsDigit(frac[0]) && !Text.IsDigit(frac[1]);
      assert Text.LeadingDigits(frac[1..]) == 0;
    }
  }

  /** The message of the ValueError `float()` raises. */
  function FloatError(g: string): string {
    "could not convert string to float: '" + g + "'"
  }

  /** Calls this script reads two coordinates from. */
  predicate PointerCall(call: string) {
    "click(" <= call || "doubleClick(" <= call || "rightClick(" <= call
  }

  /** The branches of this script's `execute_pyautogui_action` after stripping, tried in
      the source's order. Only positional coordinates are read, there is no `moveTo` or
      bare `click()`, a coordinate `int()` refuses raises, and so does a sleep whose number
      `float()` refuses. */
  function Recognise(a: string): (r: Outcome<Command>)
    ensures r.Raised? ==> Module <= a
    ensures r.Raised? ==>
      (PointerCall(a[|Module|..]) && IsIntLimitError(r.message)) ||
      (exists g :: SleepCall(a[|Module|..]) == Some(g) && r.message == FloatError(g))
    ensures r.Returned? && (r.value.Hotkey? || r.value.NoKeys?) ==>
      Text.Contains(a, Module + "hotkey") && r.value == HotkeyOf(FindQuoted(a))
    ensures r.Returned? ==> !r.value.MoveTo? && !r.value.ClickHere? && !r.value.Scroll?
    ensures r.Returned? && r.value.Pause? ==> r.value.seconds >= 0.0
  {
    match After(a, Module)
    case Some(call) => RecogniseCall(a, call)
    case None => Returned(if Text.Contains(a, Module + "hotkey") then HotkeyOf(FindQuoted(a)) else Unknown)
  }

  /** The branches after the "pyautogui." prefix; `call` is the rest of the action `a`. */
  function RecogniseCall(a: string, call: string): (r: Outcome<Command>)
    requires a == Module + call
    ensures r.Raised? ==>
      (PointerCall(call) && IsIntLimitError(r.message)) ||
      (exists g :: SleepCall(call) == Some(g) && r.message == FloatError(g))
    ensures r.Returned? && (r.value.Hotkey? || r.value.NoKeys?) ==>
      Text.Contains(a, Module + "hotkey") && r.value == HotkeyOf(FindQuoted(a))
    ensures r.Returned? ==> !r.value.MoveTo? && !r.value.ClickHere? && !r.value.Scroll?
    ensures r.Returned? && r.value.Pause? ==> r.value.seconds >= 0.0
  {
    assert a[|Module|..] == call;
    match RecognisePointer(call)
    case Some(o) => o
    case None => RecogniseText(a, call)
  }

  /** The coordinate branches, tried first; None when none of their patterns matches. */
  function RecognisePointer(call: string): (r: Option<Outcome<Command>>)
    ensures r.Some? ==> PointerCall(call)
    ensures r.Some? && r.value.Raised? ==> IsIntLimitError(r.value.message)
    ensures r.Some? && r.value.Returned? ==> r.value.value.ClickAt? || r.value.value.DoubleClick? || r.value.value.RightClick?
  {
    var click := PairCall(call, "click(", false, true);
    var double := PairCall(call, "doubleClick(", false, true);
    var right := PairCall(call, "rightClick(", false, true);
    if click.Some? then Some(PointerCommand(Click, click.value))
    else if double.Some? then Some(PointerCommand(Double, double.value))
    else if right.Some? then Some(PointerCommand(Right, right.value))
    else None
  }

  /** The branches after the coordinate ones: typing, hotkeys, key presses and sleeps. */
  function RecogniseText(a: string, call: string): (r: Outcome<Command>)
    ensures r.Raised? ==> exists g :: SleepCall(call) == Some(g) && r.message == FloatError(g)
    ensures r.Returned? ==> r.value.Type? || r.value.Hotkey? || r.value.NoKeys? || r.value.Press? || r.value.Pause? || r.value.Unknown?
    ensures r.Returned? && (r.value.Hotkey? || r.value.NoKeys?) ==>
      Text.Contains(a, Module + "hotkey") && r.value == HotkeyOf(FindQuoted(a))
    ensures r.Returned? && r.value.Pause? ==> r.value.seconds >= 0.0
  {
    var typed := TextCall(call, "typewrite(");
    var written := TextCall(call, "write(");
    if typed.Some? then Returned(Type(typed.value))
    else if written.Some? then Returned(Type(written.value))
    else if Text.Contains(a, Module + "hotkey") then Returned(HotkeyOf(FindQuoted(a)))
    else if PressCall(call).Some? then Returned(Press(PressCall(call).value))
    else
      match SleepCall(call)
      case None => Returned(Unknown)
      case Some(g) =>
        match FloatOf(g)
        case None => Raised(FloatError(g))
        case Some(d) => Returned(Pause(d))
  }

  /** `execute_pyautogui_action`: the stripped action's effects, or the error it raises.
      Besides the parser's errors, `time.sleep` refuses a pause too long for its clock. */
  function ExecuteAction(s: string): (r: Outcome<seq<Effect>>)
    ensures var c := Recognise(Text.Strip(s));
      r.Raised? <==> c.Raised? || (c.value.Pause? && c.value.seconds * 1000000000.0 > MaxNanoseconds)
    ensures var c := Recognise(Text.Strip(s));
      c.Raised? ==> r == Raised(c.message)
    ensures var c := Recognise(Text.Strip(s));
      c.Returned? && r.Raised? ==> r == Raised(SleepOverflowError)
    ensures r.Returned? ==> r.value == EffectsOf(Recognise(Text.Strip(s)).value) && |r.value| <= 1
  {
    match Recognise(Text.Strip(s))
    case Raised(m) => Raised(m)
    case Returned(c) =>
      if c.Pause? && SleepError(c.seconds).Some? then Raised(SleepError(c.seconds).value)
      else Returned(EffectsOf(c))
  }

  /** The action executor the loop uses. */
  function ScriptRun(): string -> Outcome<seq<Effect>> {
    (a: string) => ExecuteAction(a)
  }

  // Reading back the client's lines.

  /** A call whose first character differs from a pattern's is not that pattern. */
  lemma {:induction false} OtherCall(call: string, lit: string)
    requires |lit| > 0 && |call| > 0 && call[0] != lit[0]
    ensures PairCall(call, lit, false, true).None? && TextCall(call, lit).None?
  {
  }

  lemma {:induction false} ClickBranch(call: string, p: Pair)
    requires PairCall(call, "click(", false, true) == Some(p)
    ensures RecogniseCall(Module + call, call) == PointerCommand(Click, p)
  {
  }

  lemma {:induction false} DoubleClickBranch(call: string, p: Pair)
    requires "doubleClick(" <= call
    requires PairCall(call, "doubleClick(", false, true) == Some(p)
    ensures RecogniseCall(Module + call, call) == PointerCommand(Double, p)
  {
    OtherCall(call, "click(");
  }

  lemma {:induction false} RightClickBranch(call: string, p: Pair)
    requires "rightClick(" <= call
    requires PairCall(call, "rightClick(", false, true) == Some(p)
    ensures RecogniseCall(Module + call, call) == PointerCommand(Right, p)
  {
    OtherCall(call, "click(");
    OtherCall(call, "doubleClick(");
  }

  lemma {:induction false} WriteBranch(call: string, t: string)
    requires "write(" <= call
    requires TextCall(call, "write(") == Some(t)
    ensures RecogniseCall(Module + call, call) == Returned(Type(t))
  {
    OtherCall(call, "click(");
    OtherCall(call, "doubleClick(");
    OtherCall(call, "rightClick(");
    OtherCall(call, "typewrite(");
  }

  lemma {:induction false} HotkeyBranch(call: string)
    requires "hotkey(" <= call
    requires Text.Contains(Module + call, Module + "hotkey")
    ensures RecogniseCall(Module + call, call) == Returned(HotkeyOf(FindQuoted(Module + call)))
  {
    OtherCall(call, "click(");
    OtherCall(call, "doubleClick(");
    OtherCall(call, "rightClick(");
    OtherCall(call, "typewrite(");
    OtherCall(call, "write(");
  }

  /** What follows the module prefix decides. */
  lemma {:induction false} RecogniseAfterModule(call: string, r: Outcome<Command>)
    requires RecogniseCall(Module + call, call) == r
    ensures Recognise(Module + call) == r
  {
    Gpt4v.Prefixed(call);
  }

  /** Two positional numbers after a call name, as the client writes them, are read back. */
  lemma {:induction false} RenderedPairCall(lit: string, x: nat, y: nat)
    ensures PairCall(lit + (Client.Coordinates(x, y) + ")"), lit, false, true) == Some(Pair(Text.NatToString(x), Text.NatToString(y), ")"))
  {
    var args := Client.Coordinates(x, y) + ")";
    NumberPairRendered(x, y, ")", false);
    assert After(lit + args, lit) == Some(args);
  }

  lemma {:induction false} RecognisesClick(x: nat, y: nat)
    requires Writable(x) && Writable(y)
    ensures Recognise(Module + ("click(" + (Client.Coordinates(x, y) + ")"))) == Returned(ClickAt(x, y))
  {
    var call := "click(" + (Client.Coordinates(x, y) + ")");
    RenderedPairCall("click(", x, y);
    ClickBranch(call, Pair(Text.NatToString(x), Text.NatToString(y), ")"));
    PointerWritten(Click, x, y, ")");
    RecogniseAfterModule(call, Returned(ClickAt(x, y)));
  }

  lemma {:induction false} RecognisesDoubleClick(x: nat, y: nat)
    requires Writable(x) && Writable(y)
    ensures Recognise(Module + ("doubleClick(" + (Client.Coordinates(x, y) + ")"))) == Returned(DoubleClick(x, y))
  {
    var call := "doubleClick(" + (Client.Coordinates(x, y) + ")");
    RenderedPairCall("doubleClick(", x, y);
    assert "doubleClick(" <= call;
    DoubleClickBranch(call, Pair(Text.NatToString(x), Text.NatToString(y), ")"));
    PointerWritten(Double, x, y, ")");
    RecogniseAfterModule(call, Returned(DoubleClick(x, y)));
  }

  lemma {:induction false} RecognisesRightClick(x: nat, y: nat)
    requires Writable(x) && Writable(y)
    ensures Recognise(Module + ("rightClick(" + (Client.Coordinates(x, y) + ")"))) == Returned(RightClick(x, y))
  {
    var call := "rightClick(" + (Client.Coordinates(x, y) + ")");
    RenderedPairCall("rightClick(", x, y);
    assert "rightClick(" <= call;
    RightClickBranch(call, Pair(Text.NatToString(x), Text.NatToString(y), ")"));
    PointerWritten(Right, x, y, ")");
    RecogniseAfterModule(call, Returned(RightClick(x, y)));
  }

  lemma {:induction false} RecognisesWrite(t: string)
    requires |t| > 0 && '\n' !in t && forall k :: 0 <= k < |t| ==> t[k] !in Quotes
    ensures Recognise(Module + ("write(" + ("'" + t + "'" + ")"))) == Returned(Type(t))
  {
    var args := "'" + t + "'" + ")";
    var call := "write(" + args;
    LazyQuotedRendered(t, ")");
    assert After(call, "write(") == Some(args);
    assert "write(" <= call;
    WriteBranch(call, t);
    RecogniseAfterModule(call, Returned(Type(t)));
  }

  /** Keys this script's map leaves alone. */
  predicate Unmapped(keys: seq<string>) {
    Fixes(MapKey, keys)
  }

  lemma {:induction false} RecognisesHotkey(keys: seq<string>)
    requires |keys| > 0 && Unmapped(keys)
    requires forall k :: 0 <= k < |keys| ==> |keys[k]| > 0 && '\'' !in keys[k]
    ensures Recognise(Module + ("hotkey(" + (Client.HotkeyArgs(keys) + ")"))) == Returned(Hotkey(keys))
  {
    var tail := Client.HotkeyArgs(keys) + ")";
    var call := "hotkey(" + tail;
    var a := Module + call;
    assert a == (Module + "hotkey(") + tail;
    assert Module + "hotkey" <= a;
    assert "hotkey(" <= call;
    HotkeyBranch(call);
    HotkeyLineKeys(MapKey, keys, a, tail);
    RecogniseAfterModule(call, Returned(Hotkey(keys)));
  }

  /** A sleep the client could ask for, written with a whole number of seconds, is a pause
      of that many seconds. */
  lemma {:induction false} RecognisesSleep(n: nat)
    ensures Recognise(Module + ("sleep(" + (Text.NatToString(n) + ")"))) == Returned(Pause(n as real))
  {
    var g := Text.NatToString(n);
    var call := "sleep(" + (g + ")");
    SleepOf(g, call);
    FloatOfWhole(n);
    SleepLineHasNoHotkey(g, call);
    SleepBranch(call, g, n as real);
    RecogniseAfterModule(call, Returned(Pause(n as real)));
  }

  /** A click whose first coordinate has more digits than `int` reads: the line raises the
      ValueError for that many digits. */
  lemma {:induction false} RecognisesLongCoordinate(d: string, y: nat)
    requires |d| > IntMaxStrDigits && Text.AllDigits(d)
    ensures Recognise(Module + ("click(" + (d + ", " + Text.NatToString(y) + ")"))) == Raised(IntLimitError(|d|))
  {
    var ny := Text.NatToString(y);
    var args := d + ", " + ny + ")";
    var call := "click(" + args;
    NumberPairOf(d, ny, ")", false);
    assert After(call, "click(") == Some(args);
    var p := Pair(d, ny, ")");
    ClickBranch(call, p);
    RecogniseAfterModule(call, PointerCommand(Click, p));
  }

  /** The error leaves the action uncaught, which ends the task with an error entry. */
  lemma {:induction false} LongCoordinateRaises(d: string, y: nat)
    requires |d| > IntMaxStrDigits && Text.AllDigits(d)
    ensures ExecuteAction(Module + ("click(" + (d + ", " + Text.NatToString(y) + ")"))) == Raised(IntLimitError(|d|))
  {
    RecognisesLongCoordinate(d, y);
    Gpt4v.PlainClickLine(d, Text.NatToString(y));
  }

  /** A sleep of `n` whole seconds is carried out up to the clock's limit: 9223372036 seconds
      sleep, and any more make `time.sleep` raise its OverflowError, which ends the task. */
  lemma {:induction false} ExecutesSleep(n: nat)
    ensures n <= 9223372036 ==> ExecuteAction(Module + ("sleep(" + (Text.NatToString(n) + ")"))) == Returned([Sleep(n as real)])
    ensures n > 9223372036 ==> ExecuteAction(Module + ("sleep(" + (Text.NatToString(n) + ")"))) == Raised(SleepOverflowError)
  {
    ExecutesPause(Module + ("sleep(" + (Text.NatToString(n) + ")")), n);
    if n > 9223372036 {
      assert (n as real) * 1000000000.0 >= 9223372037000000000.0;
    }
  }

  /** A recognised pause runs into `time.sleep`. */
  lemma {:induction false} ExecutesPause(line: string, n: nat)
    requires line == Module + ("sleep(" + (Text.NatToString(n) + ")"))
    ensures SleepError(n as real).None? ==> ExecuteAction(line) == Returned([Sleep(n as real)])
    ensures SleepError(n as real).Some? ==> ExecuteAction(line) == Raised(SleepError(n as real).value)
  {
    assert line[0] == 'p' && line[|line| - 1] == ')';
    Text.StripStripped(line);
    RecognisesSleep(n);
  }

  lemma {:induction false} SleepLineHasNoHotkey(g: string, call: string)
    requires Text.AllDigits(g) && call == "sleep(" + (g + ")")
    ensures !Text.Contains(Module + call, Module + "hotkey")
  {
    assert Module + call == "pyautogui.sleep(" + g + ")";
    Text.MissingChar(Module + call, Module + "hotkey", 'h');
  }

  lemma {:induction false} SleepOf(g: string, call: string)
    requires |g| > 0 && Text.AllDigits(g) && call == "sleep(" + (g + ")")
    ensures SleepCall(call) == Some(g)
  {
    var args := g + ")";
    assert After(call, "sleep(") == Some(args);
    DecimalRunOf(g, ")");
  }

  lemma {:induction false} DecimalRunOf(g: string, rest: string)
    requires Text.AllDigits(g) && |rest| > 0 && rest[0] == ')'
    ensures DecimalRun(g + rest) == |g| && (g + rest)[..|g|] == g && (g + rest)[|g|] == ')'
    decreases |g|
  {
    var s := g + rest;
    if |g| == 0 {
      assert s[0] == ')';
    } else {
      assert s[0] == g[0] && Text.IsDigit(g[0]);
      assert s[1..] == g[1..] + rest;
      assert Text.AllDigits(g[1..]);
      DecimalRunOf(g[1..], rest);
    }
  }

  lemma {:induction false} SleepBranch(call: string, g: string, d: real)
    requires "sleep(" <= call && SleepCall(call) == Some(g) && FloatOf(g) == Some(d)
    requires !Text.Contains(Module + call, Module + "hotkey")
    ensures RecogniseCall(Module + call, call) == Returned(Pause(d))
  {
    OtherCall(call, "click(");
    OtherCall(call, "doubleClick(");
    OtherCall(call, "rightClick(");
    OtherCall(call, "typewrite(");
    OtherCall(call, "write(");
    assert PressCall(call).None?;
  }

  // ---------------------------------------------------------------------------------------
  // Task setup

  /** One entry of this script's `run_task_setup`: a launch or an execute runs the argument
      list with the client's defaults, a sleep waits; other entries do nothing. */
  function SetupEffect(e: SetupEntry): (r: seq<Effect>)
    ensures |r| <= 1
    ensures |r| == 1 <==>
      e.kind == Some("launch") || e.kind == Some("execute") || (e.kind == Some("sleep") && SleepError(SecondsOf(e)).None?)
    ensures e.kind == Some("launch") || e.kind == Some("execute") ==>
      r == [Request(Client.Execute(Client.Argv(CommandOf(e)), false, Client.DefaultExecuteTimeout))]
    ensures e.kind == Some("sleep") && SleepError(SecondsOf(e)).None? ==> r == [Sleep(SecondsOf(e))] && SecondsOf(e) >= 0.0
    ensures e.kind == Some("sleep") && (SecondsOf(e) < 0.0 || SecondsOf(e) * 1000000000.0 > MaxNanoseconds) ==> r == []
  {
    if e.kind == Some("launch") || e.kind == Some("execute") then
      [Request(Client.Execute(Client.Argv(CommandOf(e)), false, Client.DefaultExecuteTimeout))]
    else if e.kind == Some("sleep") && SleepError(SecondsOf(e)).None? then [Sleep(SecondsOf(e))]
    else []
  }

  /** `run_task_setup` over the whole list. */
  function SetupEffects(config: seq<SetupEntry>): (r: seq<Effect>)
    ensures |r| <= |config|
  {
    SetupTrace(SetupEffect, config)
  }

  /** A sleep for a negative time, or one too long for the clock, makes `time.sleep` raise,
      which the entry's handler swallows: the entry does nothing and the entries after it
      still run. */
  lemma {:induction false} RefusedSleepSkipped(a: seq<SetupEntry>, e: SetupEntry, b: seq<SetupEntry>)
    requires e.kind == Some("sleep") && SleepError(SecondsOf(e)).Some?
    ensures SetupEffects(a + [e] + b) == SetupEffects(a) + SetupEffects(b)
  {
    SetupTraceSkips(SetupEffect, a, e, b);
  }

  /** The two scripts agree on every entry but a launch: this one runs it directly with the
      default timeout, the GPT-4V one in the background through the shell. */
  lemma {:induction false} SetupDiffersOnlyOnLaunch(e: SetupEntry)
    ensures e.kind != Some("launch") && e.kind != Some("execute") ==> SetupEffect(e) == Gpt4v.SetupEffect(e)
    ensures e.kind == Some("execute") ==>
      SetupEffect(e)[0].call.command == Gpt4v.SetupEffect(e)[0].call.command &&
      SetupEffect(e)[0].call.timeout == 120 && Gpt4v.SetupEffect(e)[0].call.timeout == 30
    ensures e.kind == Some("launch") ==>
      !SetupEffect(e)[0].call.shell && Gpt4v.SetupEffect(e)[0].call.shell
  {
  }

  /** Before the loop: the setup list and, when it is not empty, a two-second wait. */
  function PrepareEffects(task: TaskFile): (r: seq<Effect>)
    ensures r == [] <==> |task.config.GetOr([])| == 0
    ensures r != [] ==> r == SetupEffects(task.config.value) + [Sleep(2.0)]
  {
    var config := task.config.GetOr([]);
    if |config| > 0 then SetupEffects(config) + [Sleep(2.0)] else []
  }

  /** Setup never asks for a screenshot. */
  lemma {:induction false} SetupTakesNoScreenshot(config: seq<SetupEntry>)
    ensures Request(Client.Screenshot) !in SetupEffects(config)
  {
    SetupTraceBlind(SetupEffect, config);
  }

  // ---------------------------------------------------------------------------------------
  // The step loop

  /** The actions of one step, executed in order; the first that raises ends everything. */
  function ExecuteAll(run: string -> Outcome<seq<Effect>>, actions: seq<string>): (r: Outcome<seq<Effect>>)
    ensures r.Returned? <==> forall k :: 0 <= k < |actions| ==> run(actions[k]).Returned?
    ensures |actions| == 0 ==> r == Returned([])
    ensures |actions| == 1 ==> r == run(actions[0])
    ensures r.Raised? ==> exists k :: FirstRaise(run, actions, k) && r.message == run(actions[k]).message
    decreases |actions|
  {
    if |actions| == 0 then Returned([])
    else
      match run(actions[0])
      case Raised(m) =>
        assert FirstRaise(run, actions, 0);
        Raised(m)
      case Returned(e) =>
        match ExecuteAll(run, actions[1..])
        case Raised(m) =>
          var k :| FirstRaise(run, actions[1..], k) && m == run(actions[1..][k]).message;
          assert FirstRaise(run, actions, k + 1);
          Raised(m)
        case Returned(rest) =>
          assert |actions| == 1 ==> rest == [] && e + rest == e;
          Returned(e + rest)
  }

  /** Action `k` is the first whose execution raises. */
  predicate FirstRaise(run: string -> Outcome<seq<Effect>>, actions: seq<string>, k: int) {
    0 <= k < |actions| && run(actions[k]).Raised? && forall j :: 0 <= j < k ==> run(actions[j]).Returned?
  }

  /** Executing two lists of actions that both go through is executing the joined list: the
      effects of each action follow those of the actions before it. */
  lemma {:induction false} ExecuteAllAppend(run: string -> Outcome<seq<Effect>>, xs: seq<string>, ys: seq<string>)
    requires ExecuteAll(run, xs).Returned? && ExecuteAll(run, ys).Returned?
    ensures ExecuteAll(run, xs + ys) == Returned(ExecuteAll(run, xs).value + ExecuteAll(run, ys).value)
    decreases |xs|
  {
    if |xs| == 0 {
      assert xs + ys == ys;
      assert ExecuteAll(run, xs).value + ExecuteAll(run, ys).value == ExecuteAll(run, ys).value;
    } else {
      assert (xs + ys)[0] == xs[0];
      assert (xs + ys)[1..] == xs[1..] + ys;
      assert run(xs[0]).Returned? && ExecuteAll(run, xs[1..]).Returned?;
      ExecuteAllAppend(run, xs[1..], ys);
      var e, rest, tail := run(xs[0]).value, ExecuteAll(run, xs[1..]).value, ExecuteAll(run, ys).value;
      assert ExecuteAll(run, xs) == Returned(e + rest);
      assert ExecuteAll(run, xs + ys) == Returned(e + (rest + tail));
      assert e + (rest + tail) == (e + rest) + tail;
    }
  }

  /** A step that goes through: the prediction came back, and it either stops the loop or
      all its actions ran. */
  predicate StepGoesThrough(run: string -> Outcome<seq<Effect>>, p: Prediction) {
    p.Predicted? && (Stops(p) || ExecuteAll(run, Executable(p.actions)).Returned?)
  }

  datatype LoopEnd = LoopEnd(effects: seq<Effect>, lastStep: nat)

  /** Steps `step` to `maxSteps` of this script's loop. */
  function AgentLoop(run: string -> Outcome<seq<Effect>>, step: nat, maxSteps: nat, predict: nat -> Prediction): (r: Outcome<LoopEnd>)
    requires 1 <= step <= maxSteps
    ensures r.Returned? ==> step <= r.value.lastStep <= maxSteps
    ensures r.Returned? ==> forall s :: step <= s <= r.value.lastStep ==> StepGoesThrough(run, predict(s))
    ensures r.Returned? ==> forall s :: step <= s < r.value.lastStep ==> !Stops(predict(s))
    ensures r.Returned? && r.value.lastStep < maxSteps ==> Stops(predict(r.value.lastStep))
    ensures r.Raised? ==> exists s :: step <= s <= maxSteps && !StepGoesThrough(run, predict(s))
    decreases maxSteps - step
  {
    var p := predict(step);
    var shot := [Request(Client.Screenshot)];
    match p
    case PredictionFailed(m) => Raised(m)
    case Predicted(_, actions) =>
      if Stops(p) then Returned(LoopEnd(shot, step))
      else
        match ExecuteAll(run, Executable(actions))
        case Raised(m) => Raised(m)
        case Returned(acted) =>
          var here := shot + acted + [Sleep(1.0)];
          if step == maxSteps then Returned(LoopEnd(here, step))
          else
            match AgentLoop(run, step + 1, maxSteps, predict)
            case Raised(m) => Raised(m)
            case Returned(rest) => Returned(LoopEnd(here + rest.effects, rest.lastStep))
  }

  /** When every step up to the limit goes through, the loop returns. */
  lemma {:induction false} LoopReturns(run: string -> Outcome<seq<Effect>>, step: nat, maxSteps: nat, predict: nat -> Prediction)
    requires 1 <= step <= maxSteps
    requires forall s :: step <= s <= maxSteps ==> StepGoesThrough(run, predict(s))
    ensures AgentLoop(run, step, maxSteps, predict).Returned?
    decreases maxSteps - step
  {
    if step < maxSteps {
      LoopReturns(run, step + 1, maxSteps, predict);
    }
  }

  /** What one step that goes through adds to the trace: a step whose prediction stops the
      loop takes only its screenshot; any other takes the screenshot, runs its executable
      actions in order and waits a second. */
  function StepTrace(run: string -> Outcome<seq<Effect>>, p: Prediction): seq<Effect>
    requires StepGoesThrough(run, p)
  {
    if Stops(p) then [Request(Client.Screenshot)]
    else [Request(Client.Screenshot)] + ExecuteAll(run, Executable(p.actions)).value + [Sleep(1.0)]
  }

  /** The traces of steps `first` last `last`, one after the other. */
  function StepsTrace(run: string -> Outcome<seq<Effect>>, predict: nat -> Prediction, first: nat, last: nat): seq<Effect>
    requires forall s :: first <= s <= last ==> StepGoesThrough(run, predict(s))
    decreases last + 1 - first
  {
    if first > last then [] else StepTrace(run, predict(first)) + StepsTrace(run, predict, first + 1, last)
  }

  /** A loop that returns has the traces of its steps as its effects, from the first to the
      one it ends at, in order. */
  lemma {:induction false} LoopTrace(run: string -> Outcome<seq<Effect>>, step: nat, maxSteps: nat, predict: nat -> Prediction)
    requires 1 <= step <= maxSteps
    ensures var r := AgentLoop(run, step, maxSteps, predict);
      r.Returned? ==> r.value.effects == StepsTrace(run, predict, step, r.value.lastStep)
    decreases maxSteps - step
  {
    var r := AgentLoop(run, step, maxSteps, predict);
    if r.Returned? {
      var p := predict(step);
      if Stops(p) || step == maxSteps {
        assert StepsTrace(run, predict, step + 1, step) == [];
        assert StepsTrace(run, predict, step, step) == StepTrace(run, p) + [];
      } else {
        LoopTrace(run, step + 1, maxSteps, predict);
      }
    }
  }

  /** The message a step that does not go through raises: the prediction's own, or that of
      its first action that raises. */
  function StepError(run: string -> Outcome<seq<Effect>>, p: Prediction): string
    requires !StepGoesThrough(run, p)
  {
    if p.PredictionFailed? then p.message else ExecuteAll(run, Executable(p.actions)).message
  }

  /** Step `s` is the first from `first` on that does not go through, and every step before
      it went on to the next. */
  predicate FirstFailingStep(run: string -> Outcome<seq<Effect>>, predict: nat -> Prediction, first: nat, s: nat) {
    first <= s && !StepGoesThrough(run, predict(s)) &&
    forall t :: first <= t < s ==> StepGoesThrough(run, predict(t)) && !Stops(predict(t))
  }

  /** A loop that raises does so with the error of the first step that does not go
      through, every step before it having run all its actions without stopping. */
  lemma {:induction false} LoopRaise(run: string -> Outcome<seq<Effect>>, step: nat, maxSteps: nat, predict: nat -> Prediction)
    requires 1 <= step <= maxSteps
    ensures var r := AgentLoop(run, step, maxSteps, predict);
      r.Raised? ==> exists s: nat :: s <= maxSteps && FirstFailingStep(run, predict, step, s) && r.message == StepError(run, predict(s))
  {
    if AgentLoop(run, step, maxSteps, predict).Raised? {
      var s := RaisingStep(run, step, maxSteps, predict);
    }
  }

  /** The step a raising loop raises at. */
  lemma {:induction false} RaisingStep(run: string -> Outcome<seq<Effect>>, step: nat, maxSteps: nat, predict: nat -> Prediction)
    returns (s: nat)
    requires 1 <= step <= maxSteps && AgentLoop(run, step, maxSteps, predict).Raised?
    ensures s <= maxSteps && FirstFailingStep(run, predict, step, s)
    ensures AgentLoop(run, step, maxSteps, predict).message == StepError(run, predict(s))
    decreases maxSteps - step
  {
    if !StepGoesThrough(run, predict(step)) {
      RaiseHere(run, step, maxSteps, predict);
      s := step;
    } else {
      RaiseComesLater(run, step, maxSteps, predict);
      s := RaisingStep(run, step + 1, maxSteps, predict);
      FirstFailingLater(run, predict, step, s);
    }
  }

  /** A step that does not go through raises its error. */
  lemma {:induction false} RaiseHere(run: string -> Outcome<seq<Effect>>, step: nat, maxSteps: nat, predict: nat -> Prediction)
    requires 1 <= step <= maxSteps && !StepGoesThrough(run, predict(step))
    ensures AgentLoop(run, step, maxSteps, predict) == Raised(StepError(run, predict(step)))
  {
  }

  /** A loop that raises after a step that went through raises in the steps after it. */
  lemma {:induction false} RaiseComesLater(run: string -> Outcome<seq<Effect>>, step: nat, maxSteps: nat, predict: nat -> Prediction)
    requires 1 <= step <= maxSteps && StepGoesThrough(run, predict(step))
    requires AgentLoop(run, step, maxSteps, predict).Raised?
    ensures !Stops(predict(step)) && step < maxSteps
    ensures AgentLoop(run, step + 1, maxSteps, predict) == AgentLoop(run, step, maxSteps, predict)
  {
  }

  /** A step that goes through without stopping lets the first failing step after it be the
      first from it on. */
  lemma {:induction false} FirstFailingLater(run: string -> Outcome<seq<Effect>>, predict: nat -> Prediction, step: nat, s: nat)
    requires StepGoesThrough(run, predict(step)) && !Stops(predict(step))
    requires FirstFailingStep(run, predict, step + 1, s)
    ensures FirstFailingStep(run, predict, step, s)
  {
    forall t | step <= t < s
      ensures StepGoesThrough(run, predict(t)) && !Stops(predict(t))
    {
      if t > step {
        assert step + 1 <= t < s;
      }
    }
  }

  /** An action executor that never takes a screenshot of its own. */
  ghost predicate Blind(run: string -> Outcome<seq<Effect>>) {
    forall a :: run(a).Returned? ==> Screenshots(run(a).value) == 0
  }

  /** The script's own executor only sends the call an action names, never a screenshot. */
  lemma {:induction false} ScriptRunIsBlind()
    ensures Blind(ScriptRun())
  {
    forall a | ScriptRun()(a).Returned?
      ensures Screenshots(ScriptRun()(a).value) == 0
    {
      var c := Recognise(Text.Strip(a));
      assert c.Returned?;
      NoScreenshots(EffectsOf(c.value));
    }
  }

  lemma {:induction false} ExecuteAllIsBlind(run: string -> Outcome<seq<Effect>>, actions: seq<string>)
    requires Blind(run)
    ensures ExecuteAll(run, actions).Returned? ==> Screenshots(ExecuteAll(run, actions).value) == 0
    decreases |actions|
  {
    if |actions| > 0 && run(actions[0]).Returned? {
      ExecuteAllIsBlind(run, actions[1..]);
      if ExecuteAll(run, actions[1..]).Returned? {
        ScreenshotsAppend(run(actions[0]).value, ExecuteAll(run, actions[1..]).value);
      }
    }
  }

  /** Each step the loop completes takes exactly one screenshot. */
  lemma {:induction false} OneScreenshotPerStep(run: string -> Outcome<seq<Effect>>, step: nat, maxSteps: nat, predict: nat -> Prediction)
    requires Blind(run) && 1 <= step <= maxSteps
    ensures var r := AgentLoop(run, step, maxSteps, predict);
      r.Returned? ==> Screenshots(r.value.effects) == r.value.lastStep - step + 1
    decreases maxSteps - step
  {
    var p := predict(step);
    var shot := [Request(Client.Screenshot)];
    assert Screenshots(shot) == 1;
    if p.Predicted? && !Stops(p) && ExecuteAll(run, Executable(p.actions)).Returned? {
      var acted := ExecuteAll(run, Executable(p.actions)).value;
      ExecuteAllIsBlind(run, Executable(p.actions));
      ScreenshotsAppend(shot, acted);
      ScreenshotsAppend(shot + acted, [Sleep(1.0)]);
      assert Screenshots([Sleep(1.0)]) == 0;
      var here := shot + acted + [Sleep(1.0)];
      if step < maxSteps {
        OneScreenshotPerStep(run, step + 1, maxSteps, predict);
        var rest := AgentLoop(run, step + 1, maxSteps, predict);
        if rest.Returned? {
          ScreenshotsAppend(here, rest.value.effects);
        }
      }
    }
  }

  // ---------------------------------------------------------------------------------------
  // One task and the run over a domain

  /** The dictionary this script's `run_single_task` returns. */
  datatype Report = Report(taskId: string, domain: string, steps: nat, instruction: string)

  datatype TaskRun = TaskRun(effects: seq<Effect>, report: Report)

  /** `run_single_task`: a missing task file, a step limit below one, a failed prediction
      or an action that raises all end the task with the error. */
  function RunSingleTask(files: map<string, TaskFile>, domain: string, taskId: string, maxSteps: int,
                         predict: nat -> Prediction, run: string -> Outcome<seq<Effect>>): (r: Outcome<TaskRun>)
    ensures TaskPath(domain, taskId) !in files ==> r == Raised("Task file not found: " + TaskPath(domain, taskId))
    ensures TaskPath(domain, taskId) in files && maxSteps < 1 ==> r == Raised(UnboundStep)
    ensures r.Returned? ==> TaskPath(domain, taskId) in files && 1 <= r.value.report.steps <= maxSteps
    ensures r.Returned? ==>
      var task := files[TaskPath(domain, taskId)];
      var rep := r.value.report;
      rep.taskId == taskId && rep.domain == domain && rep.instruction == task.instruction.GetOr("") &&
      PrepareEffects(task) <= r.value.effects &&
      (forall s :: 1 <= s <= rep.steps ==> StepGoesThrough(run, predict(s))) &&
      (rep.steps < maxSteps ==> Stops(predict(rep.steps)))
  {
    match LoadTaskConfig(files, domain, taskId)
    case Raised(m) => Raised(m)
    case Returned(task) =>
      var instruction := task.instruction.GetOr("");
      var prepared := PrepareEffects(task);
      if maxSteps < 1 then Raised(UnboundStep)
      else
        match AgentLoop(run, 1, maxSteps, predict)
        case Raised(m) => Raised(m)
        case Returned(loop) =>
          Returned(TaskRun(prepared + loop.effects, Report(taskId, domain, loop.lastStep, instruction)))
  }

  /** A finished task's effects are the preparation followed by the traces of steps 1 to
      the step it reports. */
  lemma {:induction false} RunTrace(files: map<string, TaskFile>, domain: string, taskId: string, maxSteps: int,
                                    predict: nat -> Prediction, run: string -> Outcome<seq<Effect>>)
    ensures var r := RunSingleTask(files, domain, taskId, maxSteps, predict, run);
      r.Returned? ==>
        r.value.effects == PrepareEffects(files[TaskPath(domain, taskId)]) + StepsTrace(run, predict, 1, r.value.report.steps)
  {
    if TaskPath(domain, taskId) in files && maxSteps >= 1 {
      LoopTrace(run, 1, maxSteps, predict);
    }
  }

  /** A task whose file exists and whose step limit is at least one can only fail at a
      step: with the error of the first step that does not go through. */
  lemma {:induction false} RunRaise(files: map<string, TaskFile>, domain: string, taskId: string, maxSteps: int,
                                    predict: nat -> Prediction, run: string -> Outcome<seq<Effect>>)
    requires TaskPath(domain, taskId) in files && maxSteps >= 1
    ensures var r := RunSingleTask(files, domain, taskId, maxSteps, predict, run);
      r.Raised? ==> exists s: nat :: s <= maxSteps && FirstFailingStep(run, predict, 1, s) && r.message == StepError(run, predict(s))
  {
    LoopRaise(run, 1, maxSteps, predict);
  }

  /** A task that finishes has taken one screenshot per step, and none while being set up. */
  lemma {:induction false} RunScreenshots(files: map<string, TaskFile>, domain: string, taskId: string, maxSteps: int,
                                          predict: nat -> Prediction, run: string -> Outcome<seq<Effect>>)
    requires Blind(run)
    ensures var r := RunSingleTask(files, domain, taskId, maxSteps, predict, run);
      r.Returned? ==> Screenshots(r.value.effects) == r.value.report.steps
  {
    var r := RunSingleTask(files, domain, taskId, maxSteps, predict, run);
    if r.Returned? {
      var task := files[TaskPath(domain, taskId)];
      var prepared := PrepareEffects(task);
      var loop := AgentLoop(run, 1, maxSteps, predict);
      if prepared != [] {
        SetupTakesNoScreenshot(task.config.value);
      }
      NoScreenshots(prepared);
      OneScreenshotPerStep(run, 1, maxSteps, predict);
      ScreenshotsAppend(prepared, loop.value.effects);
    }
  }

  /** One entry of the results list: a task's report, or the error that ended it. */
  datatype TaskResult = Finished(report: Report) | Errored(taskId: string, domain: string, error: string)

  /** The tasks `main` runs: the one named, or every task of the domain. */
  function TaskIds(testTasks: map<string, seq<string>>, domain: string, taskId: Option<string>): (r: seq<string>)
    requires domain in testTasks
    ensures taskId.Some? && taskId.value != "" ==> r == [taskId.value]
    ensures taskId.None? || taskId.value == "" ==> r == testTasks[domain]
  {
    if taskId.Some? && taskId.value != "" then [taskId.value] else testTasks[domain]
  }

  /** The entry `main` appends for one task: the report, or the task id, the domain and the
      message of the exception that ended it. */
  function ResultOf(outcome: Outcome<TaskRun>, taskId: string, domain: string): (r: TaskResult)
    ensures r.Finished? <==> outcome.Returned?
    ensures r.Finished? ==> r.report == outcome.value.report
    ensures r.Errored? ==> r.taskId == taskId && r.domain == domain && r.error == outcome.message
  {
    match outcome
    case Returned(t) => Finished(t.report)
    case Raised(m) => Errored(taskId, domain, m)
  }

  /** The results of running `ids` one after the other, in order; `predict` gives each
      task's predictions. */
  function RunAll(ids: seq<string>, files: map<string, TaskFile>, domain: string, maxSteps: int,
                  predict: string -> nat -> Prediction, run: string -> Outcome<seq<Effect>>): (r: seq<TaskResult>)
    ensures |r| == |ids|
    ensures forall i :: 0 <= i < |ids| ==>
      r[i] == ResultOf(RunSingleTask(files, domain, ids[i], maxSteps, predict(ids[i]), run), ids[i], domain)
    decreases |ids|
  {
    if |ids| == 0 then []
    else
      [ResultOf(RunSingleTask(files, domain, ids[0], maxSteps, predict(ids[0]), run), ids[0], domain)] +
      RunAll(ids[1..], files, domain, maxSteps, predict, run)
  }

  /** `main`: exit status 1 when the domain is not in the test file, otherwise 0 with one
      result per task, errors included. */
  function BenchmarkMain(testTasks: map<string, seq<string>>, domain: string, taskId: Option<string>,
                         files: map<string, TaskFile>, maxSteps: int,
                         predict: string -> nat -> Prediction, run: string -> Outcome<seq<Effect>>): (r: (int, seq<TaskResult>))
    ensures domain !in testTasks <==> r.0 == 1
    ensures domain !in testTasks ==> r.1 == []
    ensures domain in testTasks ==> r.0 == 0 && |r.1| == |TaskIds(testTasks, domain, taskId)|
    ensures domain in testTasks && taskId.Some? && taskId.value != "" ==> |r.1| == 1
  {
    if domain !in testTasks then (1, [])
    else (0, RunAll(TaskIds(testTasks, domain, taskId), files, domain, maxSteps, predict, run))
  }
}

=== FILE: gpt4v_runner.dfy ===
/** The GPT-4V benchmark script (run_with_gpt4v.py): its action parser and executor, task
    setup, the Chrome preparation and the step loop around the agent's predictions. */
module Gpt4vRunner {
  import opened Wrappers
  import Text
  import Client = OsworldClient
  import opened ScriptCommon
  import PurePath

  /** The script's `key_map`: OSWorld key names (in any case) to pyautogui's; other keys
      pass through unchanged. */
  function MapKey(k: string): (r: string)
    ensures Text.Lower(k) == "control_l" ==> r == "ctrl"
    ensures Text.Lower(k) == "shift_l" ==> r == "shift"
    ensures Text.Lower(k) == "alt_l" ==> r == "alt"
    ensures Text.Lower(k) == "super_l" ==> r == "win"
    ensures Text.Lower(k) !in {"control_l", "shift_l", "alt_l", "super_l"} ==> r == k
  {
    var l := Text.Lower(k);
    if l == "control_l" then "ctrl"
    else if l == "shift_l" then "shift"
    else if l == "alt_l" then "alt"
    else if l == "super_l" then "win"
    else k
  }

  /** The command for the quoted keys of a hotkey line, mapped by `key_map`. */
  function HotkeyOf(found: seq<string>): Command {
    KeysCommand(MapKey, found)
  }

  /** The single-line branches of `execute_pyautogui_action`, tried in the source's order:
      the first pattern that matches decides. Every pattern but the hotkey test starts with
      "pyautogui.", so an action without that prefix is a hotkey or unknown. Only `int` on a
      captured digit run can raise. */
  function Recognise(a: string): (r: Outcome<Command>)
    ensures r.Raised? ==> Module <= a && IsIntLimitError(r.message)
    ensures r.Returned? && (r.value.Hotkey? || r.value.NoKeys?) ==>
      Text.Contains(a, Module + "hotkey") && r.value == HotkeyOf(FindQuoted(a))
    ensures r.Returned? && (r.value.Press? || r.value.Scroll? || r.value.Unknown?) ==> !Text.Contains(a, Module + "hotkey")
    ensures !(Module <= a) ==> r == Returned(HotkeyOf(FindQuoted(a))) || r == Returned(Unknown)
    ensures r.Returned? ==> !r.value.Pause?
  {
    match After(a, Module)
    case Some(call) => RecogniseCall(a, call)
    case None => Returned(if Text.Contains(a, Module + "hotkey") then HotkeyOf(FindQuoted(a)) else Unknown)
  }

  /** The branches after the "pyautogui." prefix; `call` is the rest of the action `a`. */
  function RecogniseCall(a: string, call: string): (r: Outcome<Command>)
    ensures r.Raised? ==> IsIntLimitError(r.message)
    ensures r.Raised? ==> "moveTo(" <= call || "click(" <= call || "doubleClick(" <= call || "rightClick(" <= call || "scroll(" <= call
    ensures r.Returned? && r.value.MoveTo? ==> "moveTo(" <= call
    ensures r.Returned? && (r.value.ClickAt? || r.value.ClickHere?) ==> "click(" <= call
    ensures r.Returned? && r.value.DoubleClick? ==> "doubleClick(" <= call
    ensures r.Returned? && r.value.RightClick? ==> "rightClick(" <= call
    ensures r.Returned? && (r.value.Hotkey? || r.value.NoKeys?) ==>
      Text.Contains(a, Module + "hotkey") && r.value == HotkeyOf(FindQuoted(a))
    ensures r.Returned? && (r.value.Press? || r.value.Scroll? || r.value.Unknown?) ==> !Text.Contains(a, Module + "hotkey")
    ensures r.Returned? ==> !r.value.Pause?
  {
    match RecognisePointer(call)
    case Some(o) => o
    case None => RecogniseText(a, call)
  }

  /** The coordinate branches, tried first: a move, a click at a point or in place, a double
      or a right click; None when none of their patterns matches. */
  function RecognisePointer(call: string): (r: Option<Outcome<Command>>)
    ensures r.Some? && r.value.Raised? ==> IsIntLimitError(r.value.message)
    ensures r.Some? && r.value.Raised? ==> "moveTo(" <= call || "click(" <= call || "doubleClick(" <= call || "rightClick(" <= call
    ensures r.Some? && r.value.Returned? ==> r.value.value.MoveTo? || r.value.value.ClickAt? || r.value.value.ClickHere? || r.value.value.DoubleClick? || r.value.value.RightClick?
    ensures r.Some? && r.value.Returned? && r.value.value.MoveTo? ==> "moveTo(" <= call
    ensures r.Some? && r.value.Returned? && (r.value.value.ClickAt? || r.value.value.ClickHere?) ==> "click(" <= call
    ensures r.Some? && r.value.Returned? && r.value.value.DoubleClick? ==> "doubleClick(" <= call
    ensures r.Some? && r.value.Returned? && r.value.value.RightClick? ==> "rightClick(" <= call
  {
    var move := PairCall(call, "moveTo(", true, false);
    var click := PairCall(call, "click(", true, true);
    var double := PairCall(call, "doubleClick(", true, true);
    var right := PairCall(call, "rightClick(", true, true);
    if move.Some? then Some(PointerCommand(Move, move.value))
    else if click.Some? then Some(PointerCommand(Click, click.value))
    else if "click()" <= call then Some(Returned(ClickHere))
    else if double.Some? then Some(PointerCommand(Double, double.value))
    else if right.Some? then Some(PointerCommand(Right, right.value))
    else None
  }

  /** The branches after the coordinate ones: typing, hotkeys, key presses and scrolling. */
  function RecogniseText(a: string, call: string): (r: Outcome<Command>)
    ensures r.Raised? ==> IsIntLimitError(r.message) && "scroll(" <= call
    ensures r.Returned? ==> r.value.Type? || r.value.Hotkey? || r.value.NoKeys? || r.value.Press? || r.value.Scroll? || r.value.Unknown?
    ensures r.Returned? && (r.value.Hotkey? || r.value.NoKeys?) ==>
      Text.Contains(a, Module + "hotkey") && r.value == HotkeyOf(FindQuoted(a))
    ensures r.Returned? && (r.value.Press? || r.value.Scroll? || r.value.Unknown?) ==> !Text.Contains(a, Module + "hotkey")
  {
    var typed := TextCall(call, "typewrite(");
    var written := TextCall(call, "write(");
    if typed.Some? then Returned(Type(typed.value))
    else if written.Some? then Returned(Type(written.value))
    else if Text.Contains(a, Module + "hotkey") then Returned(HotkeyOf(FindQuoted(a)))
    else
      var key := PressCall(call);
      var amount := ScrollCall(call);
      if key.Some? then Returned(Press(key.value))
      else if amount.Some? then
        match amount.value
        case Raised(m) => Raised(m)
        case Returned(n) => Returned(Scroll(n))
      else Returned(Unknown)
  }

  /** Keys the script's map leaves alone. */
  predicate Unmapped(keys: seq<string>) {
    Fixes(MapKey, keys)
  }

  /** A coordinate `\d+` can capture and `str` can write. */
  predicate Coordinate(v: int) {
    v >= 0 && Writable(v)
  }

  /** The client calls whose written line this parser can read back: non-negative
      coordinates, a text free of quotes and newlines, keys free of quotes. */
  predicate Readable(c: Client.Call) {
    match c
    case MouseMove(x, y) => Coordinate(x) && Coordinate(y)
    case ClickAt(x, y) => (x.None? && y.None?) || (x.Some? && y.Some? && Coordinate(x.value) && Coordinate(y.value))
    case DoubleClickAt(x, y) => Coordinate(x) && Coordinate(y)
    case RightClickAt(x, y) => Coordinate(x) && Coordinate(y)
    case TypeText(t) => |t| > 0 && '\n' !in t && forall k :: 0 <= k < |t| ==> t[k] !in Quotes
    case Hotkey(keys) =>
      |keys| > 0 && Unmapped(keys) && forall k :: 0 <= k < |keys| ==> |keys[k]| > 0 && '\'' !in keys[k]
    case _ => false
  }

  /** Reading back what the client writes: for every readable call, the line of its code
      snippet is recognised as a command that makes exactly that call. */
  lemma {:induction false} RecognisesClientLines(c: Client.Call)
    requires Readable(c)
    ensures Recognise(Client.SnippetLine(c).value).Returned?
    ensures EffectsOf(Recognise(Client.SnippetLine(c).value).value) == [Request(c)]
  {
    var line := Client.SnippetLine(c).value;
    var read := ReadBack(c, line);
    assert EffectsOf(read) == [Request(c)];
  }

  /** The command that makes a given client call, for the calls a written line can make. */
  function CommandFor(c: Client.Call): (r: Command)
    requires Readable(c)
    ensures EffectsOf(r) == [Request(c)]
  {
    match c
    case MouseMove(x, y) => MoveTo(x, y)
    case ClickAt(x, y) => if x.Some? then ClickAt(x.value, y.value) else ClickHere
    case DoubleClickAt(x, y) => DoubleClick(x, y)
    case RightClickAt(x, y) => RightClick(x, y)
    case TypeText(t) => Type(t)
    case Hotkey(keys) => Hotkey(keys)
  }

  /** The command each readable call's line is recognised as. */
  lemma {:induction false} ReadBack(c: Client.Call, line: string) returns (read: Command)
    requires Readable(c) && line == Client.SnippetLine(c).value
    ensures Recognise(line) == Returned(read)
    ensures EffectsOf(read) == [Request(c)]
  {
    read := CommandFor(c);
    if c.MouseMove? || c.ClickAt? || c.DoubleClickAt? || c.RightClickAt? {
      ReadBackPointer(c, line);
    } else {
      ReadBackText(c, line);
    }
  }

  lemma {:induction false} ReadBackPointer(c: Client.Call, line: string)
    requires c.MouseMove? || c.ClickAt? || c.DoubleClickAt? || c.RightClickAt?
    requires Readable(c) && line == Client.SnippetLine(c).value
    ensures Recognise(line) == Returned(CommandFor(c))
  {
    match c {
      case MouseMove(x, y) => ReadsMove(c, line);
      case ClickAt(x, y) => ReadsClick(c, line);
      case DoubleClickAt(x, y) => ReadsDoubleClick(c, line);
      case RightClickAt(x, y) => ReadsRightClick(c, line);
    }
  }

  lemma {:induction false} ReadBackText(c: Client.Call, line: string)
    requires c.TypeText? || c.Hotkey?
    requires Readable(c) && line == Client.SnippetLine(c).value
    ensures Recognise(line) == Returned(CommandFor(c))
  {
    match c {
      case TypeText(t) => ReadsWrite(c, line);
      case Hotkey(keys) => ReadsHotkey(c, line);
    }
  }

  /** A literal that starts with the module prefix, regrouped. */
  lemma {:induction false} Regroup(whole: string, name: string, args: string)
    requires whole == Module + name
    ensures whole + args + ")" == Module + (name + (args + ")"))
  {
  }

  /** Equal lines are recognised alike. */
  lemma {:induction false} SameLine(line: string, other: string, r: Outcome<Command>)
    requires line == other && Recognise(other) == r
    ensures Recognise(line) == r
  {
  }

  lemma {:induction false} MoveLine(c: Client.Call, line: string)
    requires c.MouseMove? && Readable(c) && line == Client.SnippetLine(c).value
    ensures line == Module + ("moveTo(" + (Client.Coordinates(c.x, c.y) + ")"))
  {
    Regroup("pyautogui.moveTo(", "moveTo(", Client.Coordinates(c.x, c.y));
  }

  lemma {:induction false} ReadsMove(c: Client.Call, line: string)
    requires c.MouseMove? && Readable(c) && line == Client.SnippetLine(c).value
    ensures Recognise(line) == Returned(MoveTo(c.x, c.y))
  {
    MoveLine(c, line);
    RecognisesMove(c.x, c.y);
    SameLine(line, Module + ("moveTo(" + (Client.Coordinates(c.x, c.y) + ")")), Returned(MoveTo(c.x, c.y)));
  }

  lemma {:induction false} DoubleClickLine(c: Client.Call, line: string)
    requires c.DoubleClickAt? && Readable(c) && line == Client.SnippetLine(c).value
    ensures line == Module + ("doubleClick(" + (Client.Coordinates(c.x, c.y) + ")"))
  {
    Regroup("pyautogui.doubleClick(", "doubleClick(", Client.Coordinates(c.x, c.y));
  }

  lemma {:induction false} ReadsDoubleClick(c: Client.Call, line: string)
    requires c.DoubleClickAt? && Readable(c) && line == Client.SnippetLine(c).value
    ensures Recognise(line) == Returned(DoubleClick(c.x, c.y))
  {
    DoubleClickLine(c, line);
    RecognisesDoubleClick(c.x, c.y);
    SameLine(line, Module + ("doubleClick(" + (Client.Coordinates(c.x, c.y) + ")")), Returned(DoubleClick(c.x, c.y)));
  }

  lemma {:induction false} RightClickLine(c: Client.Call, line: string)
    requires c.RightClickAt? && Readable(c) && line == Client.SnippetLine(c).value
    ensures line == Module + ("rightClick(" + (Client.Coordinates(c.x, c.y) + ")"))
  {
    Regroup("pyautogui.rightClick(", "rightClick(", Client.Coordinates(c.x, c.y));
  }

  lemma {:induction false} ReadsRightClick(c: Client.Call, line: string)
    requires c.RightClickAt? && Readable(c) && line == Client.SnippetLine(c).value
    ensures Recognise(line) == Returned(RightClick(c.x, c.y))
  {
    RightClickLine(c, line);
    RecognisesRightClick(c.x, c.y);
    SameLine(line, Module + ("rightClick(" + (Client.Coordinates(c.x, c.y) + ")")), Returned(RightClick(c.x, c.y)));
  }

  lemma {:induction false} HotkeyLine(c: Client.Call, line: string)
    requires c.Hotkey? && Readable(c) && line == Client.SnippetLine(c).value
    ensures line == Module + ("hotkey(" + (Client.HotkeyArgs(c.keys) + ")"))
  {
    Regroup("pyautogui.hotkey(", "hotkey(", Client.HotkeyArgs(c.keys));
  }

  lemma {:induction false} ReadsHotkey(c: Client.Call, line: string)
    requires c.Hotkey? && Readable(c) && line == Client.SnippetLine(c).value
    ensures Recognise(line) == Returned(Hotkey(c.keys))
  {
    HotkeyLine(c, line);
    RecognisesHotkey(c.keys);
    SameLine(line, Module + ("hotkey(" + (Client.HotkeyArgs(c.keys) + ")")), Returned(Hotkey(c.keys)));
  }

  lemma {:induction false} ClickLine(c: Client.Call, line: string)
    requires c.ClickAt? && Readable(c) && line == Client.SnippetLine(c).value
    ensures c.cx.Some? ==> line == Module + ("click(" + (Client.Coordinates(c.cx.value, c.cy.value) + ")"))
    ensures c.cx.None? ==> line == Module + "click()"
  {
    if c.cx.Some? {
      Regroup("pyautogui.click(", "click(", Client.Coordinates(c.cx.value, c.cy.value));
    }
  }

  lemma {:induction false} ReadsClick(c: Client.Call, line: string)
    requires c.ClickAt? && Readable(c) && line == Client.SnippetLine(c).value
    ensures c.cx.Some? ==> Recognise(line) == Returned(ClickAt(c.cx.value, c.cy.value))
    ensures c.cx.None? ==> Recognise(line) == Returned(ClickHere)
  {
    ClickLine(c, line);
    if c.cx.Some? {
      RecognisesClick(c.cx.value, c.cy.value);
      SameLine(line, Module + ("click(" + (Client.Coordinates(c.cx.value, c.cy.value) + ")")), Returned(ClickAt(c.cx.value, c.cy.value)));
    } else {
      RecognisesClickHere();
      SameLine(line, Module + "click()", Returned(ClickHere));
    }
  }

  lemma {:induction false} WriteLine(c: Client.Call, line: string)
    requires c.TypeText? && Readable(c) && line == Client.SnippetLine(c).value
    ensures line == Module + ("write(" + ("'" + c.text + "'" + ")"))
  {
    EscapeWithoutQuotes(c.text);
  }

  lemma {:induction false} ReadsWrite(c: Client.Call, line: string)
    requires c.TypeText? && Readable(c) && line == Client.SnippetLine(c).value
    ensures Recognise(line) == Returned(Type(c.text))
  {
    WriteLine(c, line);
    RecognisesWrite(c.text);
    SameLine(line, Module + ("write(" + ("'" + c.text + "'" + ")")), Returned(Type(c.text)));
  }

  /** The action `a` is the module prefix followed by `call`. */
  lemma {:induction false} Prefixed(call: string)
    ensures After(Module + call, Module) == Some(call)
  {
    assert (Module + call)[|Module|..] == call;
  }

  /** What follows the module prefix decides. */
  lemma {:induction false} RecogniseAfterModule(call: string, c: Outcome<Command>)
    requires RecogniseCall(Module + call, call) == c
    ensures Recognise(Module + call) == c
  {
    Prefixed(call);
  }

  /** A call whose first character differs from a pattern's is not that pattern. */
  lemma {:induction false} OtherCall(call: string, lit: string)
    requires |lit| > 0 && |call| > 0 && call[0] != lit[0]
    ensures After(call, lit).None?
    ensures PairCall(call, lit, true, false).None? && PairCall(call, lit, true, true).None?
    ensures TextCall(call, lit).None?
  {
  }

  lemma {:induction false} MoveBranch(a: string, call: string, p: Pair)
    requires PairCall(call, "moveTo(", true, false) == Some(p)
    ensures RecogniseCall(a, call) == PointerCommand(Move, p)
  {
  }

  lemma {:induction false} ClickBranch(a: string, call: string, p: Pair)
    requires "click(" <= call
    requires PairCall(call, "click(", true, true) == Some(p)
    ensures RecogniseCall(a, call) == PointerCommand(Click, p)
  {
    OtherCall(call, "moveTo(");
  }

  lemma {:induction false} ClickHereBranch(a: string)
    ensures RecogniseCall(a, "click()") == Returned(ClickHere)
  {
    OtherCall("click()", "moveTo(");
    assert After("click()", "click(") == Some(")");
  }

  lemma {:induction false} DoubleClickBranch(a: string, call: string, p: Pair)
    requires "doubleClick(" <= call
    requires PairCall(call, "doubleClick(", true, true) == Some(p)
    ensures RecogniseCall(a, call) == PointerCommand(Double, p)
  {
    OtherCall(call, "moveTo(");
    OtherCall(call, "click(");
    OtherCall(call, "click()");
  }

  lemma {:induction false} RightClickBranch(a: string, call: string, p: Pair)
    requires "rightClick(" <= call
    requires PairCall(call, "rightClick(", true, true) == Some(p)
    ensures RecogniseCall(a, call) == PointerCommand(Right, p)
  {
    OtherCall(call, "moveTo(");
    OtherCall(call, "click(");
    OtherCall(call, "click()");
    OtherCall(call, "doubleClick(");
  }

  lemma {:induction false} WriteBranch(a: string, call: string, t: string)
    requires "write(" <= call
    requires TextCall(call, "write(") == Some(t)
    ensures RecogniseCall(a, call) == Returned(Type(t))
  {
    OtherCall(call, "moveTo(");
    OtherCall(call, "click(");
    OtherCall(call, "click()");
    OtherCall(call, "doubleClick(");
    OtherCall(call, "rightClick(");
    OtherCall(call, "typewrite(");
  }

  lemma {:induction false} HotkeyBranch(a: string, call: string)
    requires "hotkey(" <= call
    requires Text.Contains(a, Module + "hotkey")
    ensures RecogniseCall(a, call) == Returned(HotkeyOf(FindQuoted(a)))
  {
    OtherCall(call, "moveTo(");
    OtherCall(call, "click(");
    OtherCall(call, "click()");
    OtherCall(call, "doubleClick(");
    OtherCall(call, "rightClick(");
    OtherCall(call, "typewrite(");
    OtherCall(call, "write(");
  }

  /** Two numbers after a call name, as the client writes them, are read back. */
  lemma {:induction false} RenderedPairCall(lit: string, x: nat, y: nat, closed: bool)
    ensures PairCall(lit + (Client.Coordinates(x, y) + ")"), lit, true, closed) == Some(Pair(Text.NatToString(x), Text.NatToString(y), ")"))
  {
    var args := Client.Coordinates(x, y) + ")";
    NumberPairRendered(x, y, ")", true);
    assert After(lit + args, lit) == Some(args);
  }

  lemma {:induction false} RecognisesMove(x: nat, y: nat)
    requires Writable(x) && Writable(y)
    ensures Recognise(Module + ("moveTo(" + (Client.Coordinates(x, y) + ")"))) == Returned(MoveTo(x, y))
  {
    var call := "moveTo(" + (Client.Coordinates(x, y) + ")");
    RenderedPairCall("moveTo(", x, y, false);
    MoveBranch(Module + call, call, Pair(Text.NatToString(x), Text.NatToString(y), ")"));
    PointerWritten(Move, x, y, ")");
    RecogniseAfterModule(call, Returned(MoveTo(x, y)));
  }

  lemma {:induction false} RecognisesClick(x: nat, y: nat)
    requires Writable(x) && Writable(y)
    ensures Recognise(Module + ("click(" + (Client.Coordinates(x, y) + ")"))) == Returned(ClickAt(x, y))
  {
    var call := "click(" + (Client.Coordinates(x, y) + ")");
    RenderedPairCall("click(", x, y, true);
    assert "click(" <= call;
    ClickBranch(Module + call, call, Pair(Text.NatToString(x), Text.NatToString(y), ")"));
    PointerWritten(Click, x, y, ")");
    RecogniseAfterModule(call, Returned(ClickAt(x, y)));
  }

  lemma {:induction false} RecognisesClickHere()
    ensures Recognise(Module + "click()") == Returned(ClickHere)
  {
    ClickHereBranch(Module + "click()");
    RecogniseAfterModule("click()", Returned(ClickHere));
  }

  lemma {:induction false} RecognisesDoubleClick(x: nat, y: nat)
    requires Writable(x) && Writable(y)
    ensures Recognise(Module + ("doubleClick(" + (Client.Coordinates(x, y) + ")"))) == Returned(DoubleClick(x, y))
  {
    var call := "doubleClick(" + (Client.Coordinates(x, y) + ")");
    RenderedPairCall("doubleClick(", x, y, true);
    assert "doubleClick(" <= call;
    DoubleClickBranch(Module + call, call, Pair(Text.NatToString(x), Text.NatToString(y), ")"));
    PointerWritten(Double, x, y, ")");
    RecogniseAfterModule(call, Returned(DoubleClick(x, y)));
  }

  lemma {:induction false} RecognisesRightClick(x: nat, y: nat)
    requires Writable(x) && Writable(y)
    ensures Recognise(Module + ("rightClick(" + (Client.Coordinates(x, y) + ")"))) == Returned(RightClick(x, y))
  {
    var call := "rightClick(" + (Client.Coordinates(x, y) + ")");
    RenderedPairCall("rightClick(", x, y, true);
    assert "rightClick(" <= call;
    RightClickBranch(Module + call, call, Pair(Text.NatToString(x), Text.NatToString(y), ")"));
    PointerWritten(Right, x, y, ")");
    RecogniseAfterModule(call, Returned(RightClick(x, y)));
  }

  /** A click whose first coordinate has more digits than `int` reads: the line raises the
      ValueError for that many digits. */
  lemma {:induction false} RecognisesLongCoordinate(d: string, y: nat)
    requires |d| > IntMaxStrDigits && Text.AllDigits(d)
    ensures Recognise(Module + ("click(" + (d + ", " + Text.NatToString(y) + ")"))) == Raised(IntLimitError(|d|))
  {
    var ny := Text.NatToString(y);
    var args := d + ", " + ny + ")";
    var call := "click(" + args;
    NumberPairOf(d, ny, ")", true);
    assert After(call, "click(") == Some(args);
    var p := Pair(d, ny, ")");
    ClickBranch(Module + call, call, p);
    RecogniseAfterModule(call, PointerCommand(Click, p));
  }

  /** Executing that line makes no client call and raises, which the step loop logs before
      it goes on with the next action. */
  lemma {:induction false} LongCoordinateRefused(d: string, y: nat, fuel: nat)
    requires |d| > IntMaxStrDigits && Text.AllDigits(d)
    ensures ExecuteAction(Recognise, Module + ("click(" + (d + ", " + Text.NatToString(y) + ")")), fuel) == Execution([], true)
  {
    var line := Module + ("click(" + (d + ", " + Text.NatToString(y) + ")"));
    PlainClickLine(d, Text.NatToString(y));
    RecognisesLongCoordinate(d, y);
    assert Dispatch(Recognise, line, fuel) == Single(Recognise(line));
  }

  /** A click line of two digit runs is a single line, already stripped. */
  lemma {:induction false} PlainClickLine(dx: string, dy: string)
    requires Text.AllDigits(dx) && Text.AllDigits(dy)
    ensures var line := Module + ("click(" + (dx + ", " + dy + ")"));
      Text.Strip(line) == line && !MultiLine(line)
  {
    var line := Module + ("click(" + (dx + ", " + dy + ")"));
    assert line[0] == 'p' && line[|line| - 1] == ')';
    Text.StripStripped(line);
    Text.DigitsLack(dx, '\n');
    Text.DigitsLack(dy, '\n');
    Text.DigitsLack(dx, 'm');
    Text.DigitsLack(dy, 'm');
    assert '\n' !in line && 'm' !in line;
    Text.MissingChar(line, "import", 'm');
  }

  lemma {:induction false} RecognisesWrite(t: string)
    requires |t| > 0 && '\n' !in t && forall k :: 0 <= k < |t| ==> t[k] !in Quotes
    ensures Recognise(Module + ("write(" + ("'" + t + "'" + ")"))) == Returned(Type(t))
  {
    var args := "'" + t + "'" + ")";
    var call := "write(" + args;
    LazyQuotedRendered(t, ")");
    assert After(call, "write(") == Some(args);
    assert "write(" <= call;
    WriteBranch(Module + call, call, t);
    RecogniseAfterModule(call, Returned(Type(t)));
  }

  lemma {:induction false} RecognisesHotkey(keys: seq<string>)
    requires |keys| > 0 && Unmapped(keys)
    requires forall k :: 0 <= k < |keys| ==> |keys[k]| > 0 && '\'' !in keys[k]
    ensures Recognise(Module + ("hotkey(" + (Client.HotkeyArgs(keys) + ")"))) == Returned(Hotkey(keys))
  {
    var tail := Client.HotkeyArgs(keys) + ")";
    var call := "hotkey(" + tail;
    var a := Module + call;
    assert a == (Module + "hotkey(") + tail;
    assert Module + "hotkey" <= a;
    assert "hotkey(" <= call;
    HotkeyBranch(a, call);
    HotkeyLineKeys(MapKey, keys, a, tail);
    RecogniseAfterModule(call, Returned(Hotkey(keys)));
  }

  /** Escaping a text without single quotes leaves it as it is. */
  lemma {:induction false} EscapeWithoutQuotes(t: string)
    requires '\'' !in t
    ensures Client.Escape(t) == t
    decreases |t|
  {
    if |t| > 0 {
      assert '\'' !in t[1..];
      EscapeWithoutQuotes(t[1..]);
      assert t == [t[0]] + t[1..];
    }
  }

  /** The client calls one action string made, and whether it raised before it finished:
      RecursionError when Python's recursion limit is hit, ValueError when `int` refuses a
      number. The loop catches either and moves on. */
  datatype Execution = Execution(effects: seq<Effect>, raised: bool)

  /** One recognised line: the command's effects, or nothing and a raise. */
  function Single(r: Outcome<Command>): (e: Execution)
    ensures e.raised <==> r.Raised?
    ensures r.Returned? ==> e.effects == EffectsOf(r.value)
    ensures r.Raised? ==> e.effects == []
  {
    match r
    case Raised(_) => Execution([], true)
    case Returned(c) => Execution(EffectsOf(c), false)
  }

  /** Lines the multi-line branch passes over without a word. */
  predicate Skipped(line: string) {
    line == "" || "#" <= line || "import" <= line || "time." <= line
  }

  /** Lines of a multi-line action that are executed: unskipped, starting "pyautogui.". */
  predicate Dispatched(line: string) {
    !Skipped(line) && "pyautogui." <= line
  }

  /** Strings `execute_pyautogui_action` splits into lines. */
  predicate MultiLine(a: string) {
    '\n' in a || Text.Contains(a, "import")
  }

  /** `execute_pyautogui_action`. The action is stripped; one holding a newline or the word
      "import" anywhere is split into lines, and every stripped line starting "pyautogui." is
      executed by a recursive call; anything else goes to the single-line parser. `fuel` is
      the recursion depth Python has left: a line that itself holds "import" recurses until
      it runs out. The single-line parser is a parameter, `parse`; the script's is
      `Recognise`. */
  function ExecuteAction(parse: string -> Outcome<Command>, s: string, fuel: nat): (r: Execution)
    ensures fuel > 0 ==> r == Interpret(parse, s)
    decreases fuel, 2
  {
    var a := Text.Strip(s);
    if fuel > 0 && MultiLine(a) then
      ExecuteLinesIsInterpret(parse, Text.Split(a, '\n'), fuel - 1);
      Dispatch(parse, a, fuel)
    else Dispatch(parse, a, fuel)
  }

  /** The body of `execute_pyautogui_action` after stripping. */
  function Dispatch(parse: string -> Outcome<Command>, a: string, fuel: nat): (r: Execution)
    decreases fuel, 1
  {
    if MultiLine(a) then ExecuteLines(parse, Text.Split(a, '\n'), fuel)
    else Single(parse(a))
  }

  /** The loop over the lines. The recursive call receives the stripped line and strips it
      again, which changes nothing (`RestripIsDispatch`), so it goes straight to `Dispatch`. */
  function ExecuteLines(parse: string -> Outcome<Command>, lines: seq<string>, fuel: nat): (r: Execution)
    decreases fuel, 0, |lines|
  {
    if |lines| == 0 then Execution([], false)
    else
      var line := Text.Strip(lines[0]);
      if !Dispatched(line) then ExecuteLines(parse, lines[1..], fuel)
      else if fuel == 0 then Execution([], true)
      else
        var first := Dispatch(parse, line, fuel - 1);
        if first.raised then first
        else
          var rest := ExecuteLines(parse, lines[1..], fuel);
          Execution(first.effects + rest.effects, rest.raised)
  }

  /** Executing an already stripped line is dispatching it. */
  lemma {:induction false} RestripIsDispatch(parse: string -> Outcome<Command>, s: string, fuel: nat)
    ensures ExecuteAction(parse, Text.Strip(s), fuel) == Dispatch(parse, Text.Strip(s), fuel)
  {
    Text.StripIdempotent(s);
  }

  /** A reference reading of the same procedure without a recursion limit: a dispatched line
      that holds "import" is where the real one would recurse for ever. */
  function Interpret(parse: string -> Outcome<Command>, s: string): Execution {
    var a := Text.Strip(s);
    if MultiLine(a) then InterpretLines(parse, Text.Split(a, '\n'))
    else Single(parse(a))
  }

  function InterpretLines(parse: string -> Outcome<Command>, lines: seq<string>): Execution
    decreases |lines|
  {
    if |lines| == 0 then Execution([], false)
    else
      var line := Text.Strip(lines[0]);
      if !Dispatched(line) then InterpretLines(parse, lines[1..])
      else if Text.Contains(line, "import") || parse(line).Raised? then Execution([], true)
      else
        var rest := InterpretLines(parse, lines[1..]);
        Execution(EffectsOf(parse(line).value) + rest.effects, rest.raised)
  }

  /** A line starting "pyautogui." is dispatched. */
  lemma {:induction false} PrefixedLineDispatched(line: string)
    requires "pyautogui." <= line
    ensures Dispatched(line)
  {
    assert line[0] == 'p';
  }

  /** A stripped, dispatched single line that holds "import" — for instance
      `pyautogui.write('import os')` — never finishes: whatever the depth left, the call
      ends in RecursionError having made no client call. */
  lemma {:induction false} ImportLineDiverges(parse: string -> Outcome<Command>, line: string, fuel: int)
    requires fuel >= 0 && Text.Strip(line) == line
    requires '\n' !in line && Dispatched(line) && Text.Contains(line, "import")
    ensures Dispatch(parse, line, fuel) == Execution([], true)
    decreases fuel
  {
    SplitsIntoItself(parse, line, fuel);
    if fuel == 0 {
      OneLineWithoutDepth(parse, line);
    } else {
      ImportLineDiverges(parse, line, fuel - 1);
      OneDispatchedLine(parse, line, fuel - 1);
    }
  }

  /** A line holding "import" but no newline is split into itself alone. */
  lemma {:induction false} SplitsIntoItself(parse: string -> Outcome<Command>, line: string, fuel: nat)
    requires '\n' !in line && Text.Contains(line, "import")
    ensures Dispatch(parse, line, fuel) == ExecuteLines(parse, [line], fuel)
  {
    Text.SplitWithoutSeparator(line, '\n');
  }

  /** A one-line list whose line is stripped and dispatched, with no depth left: the depth
      runs out. */
  lemma {:induction false} OneLineWithoutDepth(parse: string -> Outcome<Command>, line: string)
    requires Text.Strip(line) == line && Dispatched(line)
    ensures ExecuteLines(parse, [line], 0) == Execution([], true)
  {
  }

  /** The same list with depth `d + 1` left: if the line's own execution ends in
      RecursionError, so does the list's, in the same way. */
  lemma {:induction false} OneDispatchedLine(parse: string -> Outcome<Command>, line: string, d: int)
    requires d >= 0 && Text.Strip(line) == line && Dispatched(line)
    ensures Dispatch(parse, line, d).raised ==> ExecuteLines(parse, [line], d + 1) == Dispatch(parse, line, d)
  {
  }

  /** The line `pyautogui.write('import os')` has no newline, is dispatched, and holds "import". */
  lemma {:induction false} WriteImportLine(line: string)
    requires line == "pyautogui.write('import os')"
    ensures Text.Strip(line) == line && '\n' !in line
    ensures Dispatched(line) && Text.Contains(line, "import")
  {
    WriteImportHoldsImport(line);
    WriteImportStripped(line);
    WriteImportOneLine(line);
    PrefixedLineDispatched(line);
  }

  lemma {:induction false} WriteImportStripped(line: string)
    requires line == "pyautogui.write('import os')"
    ensures Text.Strip(line) == line
  {
    assert line[0] == 'p' && line[|line| - 1] == ')';
    Text.StripStripped(line);
  }

  lemma {:induction false} WriteImportOneLine(line: string)
    requires line == "pyautogui.write('import os')"
    ensures '\n' !in line
  {
  }

  lemma {:induction false} WriteImportHoldsImport(line: string)
    requires line == "pyautogui.write('import os')"
    ensures Text.Contains(line, "import")
  {
    var quoted := "import os')";
    assert line[17..] == quoted;
    assert Text.Contains(quoted, "import") by {
      assert "import" <= quoted;
    }
    Text.ContainsInSuffix(line, 17, "import");
  }

  /** The instance the lemma above is about: the script never gets past this action. */
  lemma {:induction false} WriteImportDiverges(fuel: nat)
    ensures ExecuteAction(Recognise, "pyautogui.write('import os')", fuel).raised
  {
    var line := "pyautogui.write('import os')";
    WriteImportLine(line);
    ImportLineDiverges(Recognise, line, fuel);
  }

  lemma {:induction false} ExecuteLinesIsInterpret(parse: string -> Outcome<Command>, lines: seq<string>, depth: nat)
    requires forall k :: 0 <= k < |lines| ==> '\n' !in lines[k]
    ensures ExecuteLines(parse, lines, depth + 1) == InterpretLines(parse, lines)
    decreases |lines|
  {
    if |lines| > 0 {
      assert forall k :: 0 <= k < |lines[1..]| ==> '\n' !in lines[1..][k];
      ExecuteLinesIsInterpret(parse, lines[1..], depth);
      FirstLineStep(parse, lines, depth);
    }
  }

  /** One line of the list: if the rest agree, the whole lists agree. */
  lemma {:induction false} FirstLineStep(parse: string -> Outcome<Command>, lines: seq<string>, depth: nat)
    requires |lines| > 0 && '\n' !in lines[0]
    requires ExecuteLines(parse, lines[1..], depth + 1) == InterpretLines(parse, lines[1..])
    ensures ExecuteLines(parse, lines, depth + 1) == InterpretLines(parse, lines)
  {
    var line := Text.Strip(lines[0]);
    if !Dispatched(line) {
      LineSkipped(parse, lines, depth + 1);
    } else if Text.Contains(line, "import") {
      LineImports(parse, lines, depth);
    } else if parse(line).Raised? {
      LineRefused(parse, lines, depth);
    } else {
      LineRuns(parse, lines, depth);
    }
  }

  /** A line that is not dispatched is passed over by both readings. */
  lemma {:induction false} LineSkipped(parse: string -> Outcome<Command>, lines: seq<string>, fuel: nat)
    requires |lines| > 0 && !Dispatched(Text.Strip(lines[0]))
    ensures ExecuteLines(parse, lines, fuel) == ExecuteLines(parse, lines[1..], fuel)
    ensures InterpretLines(parse, lines) == InterpretLines(parse, lines[1..])
  {
  }

  /** A dispatched line holding "import" ends both readings, with no effects, whatever the
      depth `d + 1` left. */
  lemma {:induction false} LineImports(parse: string -> Outcome<Command>, lines: seq<string>, d: int)
    requires d >= 0 && |lines| > 0 && '\n' !in lines[0]
    requires Dispatched(Text.Strip(lines[0])) && Text.Contains(Text.Strip(lines[0]), "import")
    ensures ExecuteLines(parse, lines, d + 1) == Execution([], true)
    ensures InterpretLines(parse, lines) == Execution([], true)
  {
    StrippedImportDiverges(parse, lines[0], d);
    ImportEndsLines(parse, lines, d);
    ImportEndsInterpret(parse, lines);
  }

  lemma {:induction false} ImportEndsLines(parse: string -> Outcome<Command>, lines: seq<string>, d: int)
    requires d >= 0 && |lines| > 0 && Dispatched(Text.Strip(lines[0]))
    requires Dispatch(parse, Text.Strip(lines[0]), d) == Execution([], true)
    ensures ExecuteLines(parse, lines, d + 1) == Execution([], true)
  {
  }

  lemma {:induction false} ImportEndsInterpret(parse: string -> Outcome<Command>, lines: seq<string>)
    requires |lines| > 0 && Dispatched(Text.Strip(lines[0])) && Text.Contains(Text.Strip(lines[0]), "import")
    ensures InterpretLines(parse, lines) == Execution([], true)
  {
  }

  lemma {:induction false} StrippedImportDiverges(parse: string -> Outcome<Command>, raw: string, fuel: int)
    requires fuel >= 0 && '\n' !in raw
    requires Dispatched(Text.Strip(raw)) && Text.Contains(Text.Strip(raw), "import")
    ensures Dispatch(parse, Text.Strip(raw), fuel) == Execution([], true)
  {
    Text.StripKeepsOut(raw, '\n');
    Text.StripIdempotent(raw);
    ImportLineDiverges(parse, Text.Strip(raw), fuel);
  }

  /** A dispatched line without "import" whose parsing raises ends both readings, with the
      effects of the earlier lines only. */
  lemma {:induction false} LineRefused(parse: string -> Outcome<Command>, lines: seq<string>, d: int)
    requires d >= 0 && |lines| > 0 && '\n' !in lines[0]
    requires Dispatched(Text.Strip(lines[0])) && !Text.Contains(Text.Strip(lines[0]), "import")
    requires parse(Text.Strip(lines[0])).Raised?
    ensures ExecuteLines(parse, lines, d + 1) == Execution([], true)
    ensures InterpretLines(parse, lines) == Execution([], true)
  {
    Text.StripKeepsOut(lines[0], '\n');
  }

  /** Any other dispatched line is parsed and its effects come before the rest's. */
  lemma {:induction false} LineRuns(parse: string -> Outcome<Command>, lines: seq<string>, d: int)
    requires d >= 0 && |lines| > 0 && '\n' !in lines[0]
    requires Dispatched(Text.Strip(lines[0])) && !Text.Contains(Text.Strip(lines[0]), "import")
    requires parse(Text.Strip(lines[0])).Returned?
    ensures var rest := ExecuteLines(parse, lines[1..], d + 1);
      ExecuteLines(parse, lines, d + 1) == Execution(EffectsOf(parse(Text.Strip(lines[0])).value) + rest.effects, rest.raised)
    ensures var rest := InterpretLines(parse, lines[1..]);
      InterpretLines(parse, lines) == Execution(EffectsOf(parse(Text.Strip(lines[0])).value) + rest.effects, rest.raised)
  {
    Text.StripKeepsOut(lines[0], '\n');
  }

  /** No line the executor runs asks for a screenshot. */
  lemma {:induction false} DispatchTakesNoScreenshot(parse: string -> Outcome<Command>, a: string, fuel: int)
    requires fuel >= 0
    ensures Request(Client.Screenshot) !in Dispatch(parse, a, fuel).effects
    decreases fuel, 2
  {
    if MultiLine(a) {
      LinesTakeNoScreenshot(parse, Text.Split(a, '\n'), fuel);
    }
  }

  lemma {:induction false} LinesTakeNoScreenshot(parse: string -> Outcome<Command>, lines: seq<string>, fuel: int)
    requires fuel >= 0
    ensures Request(Client.Screenshot) !in ExecuteLines(parse, lines, fuel).effects
    decreases fuel, 1
  {
    if fuel == 0 {
      LinesWithoutDepth(parse, lines);
    } else {
      LinesAtDepth(parse, lines, fuel - 1);
    }
  }

  /** With no depth left, every dispatched line ends the list, so nothing is sent. */
  lemma {:induction false} LinesWithoutDepth(parse: string -> Outcome<Command>, lines: seq<string>)
    ensures ExecuteLines(parse, lines, 0).effects == []
    decreases |lines|
  {
    if |lines| > 0 {
      LinesWithoutDepth(parse, lines[1..]);
    }
  }

  lemma {:induction false} LinesAtDepth(parse: string -> Outcome<Command>, lines: seq<string>, d: int)
    requires d >= 0
    ensures Request(Client.Screenshot) !in ExecuteLines(parse, lines, d + 1).effects
    decreases d + 1, 0, |lines|
  {
    if |lines| > 0 {
      LinesAtDepth(parse, lines[1..], d);
      if Dispatched(Text.Strip(lines[0])) {
        var first := Dispatch(parse, Text.Strip(lines[0]), d);
        DispatchTakesNoScreenshot(parse, Text.Strip(lines[0]), d);
        if !first.raised {
          assert ExecuteLines(parse, lines, d + 1).effects == first.effects + ExecuteLines(parse, lines[1..], d + 1).effects;
        }
      }
    }
  }

  // ---------------------------------------------------------------------------------------
  // Task setup

  /** One entry of `run_task_setup`: a launch runs the joined command line in the background
      through the shell, an execute runs the argument list as it is, a sleep waits; entries
      of any other type do nothing. */
  function SetupEffect(e: SetupEntry): (r: seq<Effect>)
    ensures |r| <= 1
    ensures |r| == 1 <==>
      e.kind == Some("launch") || e.kind == Some("execute") || (e.kind == Some("sleep") && SleepError(SecondsOf(e)).None?)
    ensures |r| == 1 && r[0].Request? ==> r[0].call.Execute?
    ensures e.kind == Some("launch") ==>
      r[0].Request? && r[0].call.shell && r[0].call.timeout == 5 && r[0].call.command.Line? &&
      Backgrounded(r[0].call.command.text, CommandOf(e))
    ensures e.kind == Some("execute") ==> r == [Request(Client.Execute(Client.Argv(CommandOf(e)), false, 30))]
    ensures e.kind == Some("sleep") && SleepError(SecondsOf(e)).None? ==> r == [Sleep(SecondsOf(e))] && SecondsOf(e) >= 0.0
    ensures e.kind == Some("sleep") && (SecondsOf(e) < 0.0 || SecondsOf(e) * 1000000000.0 > MaxNanoseconds) ==> r == []
  {
    if e.kind == Some("launch") then
      LaunchLine(CommandOf(e));
      [Request(Client.Execute(Client.Line(Text.Join(" ", CommandOf(e)) + " &"), true, 5))]
    else if e.kind == Some("execute") then
      [Request(Client.Execute(Client.Argv(CommandOf(e)), false, 30))]
    else if e.kind == Some("sleep") && SleepError(SecondsOf(e)).None? then [Sleep(SecondsOf(e))]
    else []
  }

  /** A shell line that runs `words` in the background: the words, then " &". */
  predicate Backgrounded(line: string, words: seq<string>) {
    |line| >= 2 && line[|line| - 2..] == " &" &&
    (|words| >= 1 && (forall k :: 0 <= k < |words| ==> ' ' !in words[k]) ==>
      Text.Split(line[..|line| - 2], ' ') == words)
  }

  /** The launch line gives back the command's words, when they hold no space. */
  lemma {:induction false} LaunchLine(words: seq<string>)
    ensures Backgrounded(Text.Join(" ", words) + " &", words)
  {
    var joined := Text.Join(" ", words);
    var line := joined + " &";
    assert line[..|line| - 2] == joined;
    assert line[|line| - 2..] == " &";
    if |words| >= 1 && forall k :: 0 <= k < |words| ==> ' ' !in words[k] {
      Text.SplitJoin(words, ' ');
    }
  }

  /** `run_task_setup` over the whole list. */
  function SetupEffects(config: seq<SetupEntry>): (r: seq<Effect>)
    ensures |r| <= |config|
  {
    SetupTrace(SetupEffect, config)
  }

  /** A sleep for a negative time, or one too long for the clock, makes `time.sleep` raise,
      which the entry's handler swallows: the entry does nothing and the entries after it
      still run. */
  lemma {:induction false} RefusedSleepSkipped(a: seq<SetupEntry>, e: SetupEntry, b: seq<SetupEntry>)
    requires e.kind == Some("sleep") && SleepError(SecondsOf(e)).Some?
    ensures SetupEffects(a + [e] + b) == SetupEffects(a) + SetupEffects(b)
  {
    SetupTraceSkips(SetupEffect, a, e, b);
  }

  /** Setup never asks for a screenshot. */
  lemma {:induction false} SetupTakesNoScreenshot(config: seq<SetupEntry>)
    ensures Request(Client.Screenshot) !in SetupEffects(config)
  {
    SetupTraceBlind(SetupEffect, config);
  }

  // ---------------------------------------------------------------------------------------
  // Chrome preparation

  /** A task counts as a Chrome task when "chrome" occurs in its domain or its instruction,
      in lower case. */
  predicate IsChromeTask(domain: string, instruction: string): (r: bool)
    ensures Text.Contains(domain, "chrome") || Text.Contains(instruction, "chrome") ==> r
    ensures Text.Contains(domain, "Chrome") || Text.Contains(instruction, "Chrome") ==> r
  {
    MentionsChrome(domain);
    MentionsChrome(instruction);
    Text.Contains(Text.Lower(domain), "chrome") || Text.Contains(Text.Lower(instruction), "chrome")
  }

  /** "chrome" or "Chrome" in a text survives lower-casing as "chrome". */
  lemma {:induction false} MentionsChrome(s: string)
    ensures Text.Contains(s, "chrome") || Text.Contains(s, "Chrome") ==> Text.Contains(Text.Lower(s), "chrome")
  {
    assert Text.Lower("chrome") == "chrome";
    assert Text.Lower("Chrome") == "chrome";
    if Text.Contains(s, "chrome") {
      Text.ContainsLower(s, "chrome");
    } else if Text.Contains(s, "Chrome") {
      Text.ContainsLower(s, "Chrome");
    }
  }

  /** `task_id[:8]`. */
  function IdPrefix(taskId: string): (p: string)
    ensures p <= taskId && |p| == if |taskId| < 8 then |taskId| else 8
  {
    if |taskId| < 8 then taskId else taskId[..8]
  }

  const ChromeKill := Client.Execute(Client.Argv(["pkill", "-f", "chrome"]), false, 5)

  /** The start of the Chrome line, up to the task's part of the profile directory. */
  const ChromeStart := "google-chrome --no-sandbox --user-data-dir=/tmp/chrome-"

  /** The rest of the Chrome line: the start page, in the background. */
  const ChromeEnd := " https://www.google.com &"

  /** The shell line that starts Chrome on Google with a profile of its own for the task. */
  function ChromeLine(taskId: string): (r: string)
    ensures ChromeStart <= r && |r| == |ChromeStart| + |IdPrefix(taskId)| + |ChromeEnd|
    ensures r[|ChromeStart|..|ChromeStart| + |IdPrefix(taskId)|] == IdPrefix(taskId)
    ensures r[|r| - |ChromeEnd|..] == ChromeEnd
  {
    ChromeStart + IdPrefix(taskId) + ChromeEnd
  }

  /** Two tasks share a Chrome line, and so a Chrome profile, exactly when their ids agree
      on the first eight characters. */
  lemma {:induction false} ChromeLineShared(t1: string, t2: string)
    ensures ChromeLine(t1) == ChromeLine(t2) <==> IdPrefix(t1) == IdPrefix(t2)
  {
    if ChromeLine(t1) == ChromeLine(t2) {
      assert |IdPrefix(t1)| == |IdPrefix(t2)|;
    }
  }

  /** Whether a task is a Chrome task does not depend on case. */
  lemma {:induction false} ChromeTaskIgnoresCase(domain: string, instruction: string)
    ensures IsChromeTask(Text.Lower(domain), Text.Lower(instruction)) == IsChromeTask(domain, instruction)
  {
    Text.LowerIdempotent(domain);
    Text.LowerIdempotent(instruction);
  }

  /** Chrome tasks: any Chrome is killed, a fresh one is started in the background, and the
      script waits for it. */
  function ChromeEffects(taskId: string): (r: seq<Effect>)
    ensures |r| == 4 && r[0] == Request(ChromeKill) && r[1] == Sleep(1.0) && r[3] == Sleep(5.0)
    ensures r[2].Request? && r[2].call.Execute? && r[2].call.shell && r[2].call.timeout == 10
  {
    [Request(ChromeKill), Sleep(1.0), Request(Client.Execute(Client.Line(ChromeLine(taskId)), true, 10)), Sleep(5.0)]
  }

  /** What `run_single_task` does before the loop: the Chrome preparation for Chrome tasks,
      whatever their setup list; otherwise the setup list and, when it is not empty, a
      two-second wait. */
  function PrepareEffects(task: TaskFile, domain: string, taskId: string): (r: seq<Effect>)
    ensures IsChromeTask(domain, task.instruction.GetOr("")) ==> r == ChromeEffects(taskId)
    ensures !IsChromeTask(domain, task.instruction.GetOr("")) ==>
      (r == [] <==> |task.config.GetOr([])| == 0) &&
      (r != [] ==> r == SetupEffects(task.config.value) + [Sleep(2.0)])
  {
    var instruction := task.instruction.GetOr("");
    var config := task.config.GetOr([]);
    if IsChromeTask(domain, instruction) then ChromeEffects(taskId)
    else if |config| > 0 then SetupEffects(config) + [Sleep(2.0)]
    else []
  }

  /** For a Chrome task the setup list is never looked at. */
  lemma {:induction false} ChromeIgnoresSetup(t1: TaskFile, t2: TaskFile, domain: string, taskId: string)
    requires t1.instruction == t2.instruction
    requires IsChromeTask(domain, t1.instruction.GetOr(""))
    ensures PrepareEffects(t1, domain, taskId) == PrepareEffects(t2, domain, taskId)
  {
  }

  /** Preparation never asks for a screenshot. */
  lemma {:induction false} PrepareTakesNoScreenshot(task: TaskFile, domain: string, taskId: string)
    ensures Screenshots(PrepareEffects(task, domain, taskId)) == 0
  {
    var r := PrepareEffects(task, domain, taskId);
    if !IsChromeTask(domain, task.instruction.GetOr("")) && r != [] {
      SetupTakesNoScreenshot(task.config.value);
    }
    NoScreenshots(r);
  }

  // ---------------------------------------------------------------------------------------
  // The step loop

  /** A prediction that ends the loop successfully. */
  predicate Succeeds(p: Prediction) {
    p.Predicted? && Done in p.actions
  }

  datatype LoopResult = LoopResult(effects: seq<Effect>, lastStep: nat, success: bool)

  /** The actions of one step, executed in order by `run`; one that fails is logged and
      the rest still run. */
  function ExecuteAll(run: string -> seq<Effect>, actions: seq<string>): (r: seq<Effect>)
    ensures |actions| == 0 ==> r == []
    ensures |actions| == 1 ==> r == run(actions[0])
    decreases |actions|
  {
    if |actions| == 0 then [] else run(actions[0]) + ExecuteAll(run, actions[1..])
  }

  /** Executing two lists of actions one after the other is executing the joined list: the
      effects of each action follow those of the actions before it. */
  lemma {:induction false} ExecuteAllAppend(run: string -> seq<Effect>, xs: seq<string>, ys: seq<string>)
    ensures ExecuteAll(run, xs + ys) == ExecuteAll(run, xs) + ExecuteAll(run, ys)
    decreases |xs|
  {
    if |xs| == 0 {
      assert xs + ys == ys;
    } else {
      assert (xs + ys)[0] == xs[0];
      assert (xs + ys)[1..] == xs[1..] + ys;
      ExecuteAllAppend(run, xs[1..], ys);
    }
  }

  /** An action executor that never asks for a screenshot. */
  ghost predicate Blind(run: string -> seq<Effect>) {
    forall a :: Request(Client.Screenshot) !in run(a)
  }

  lemma {:induction false} ExecuteAllTakesNoScreenshot(run: string -> seq<Effect>, actions: seq<string>)
    requires Blind(run)
    ensures Screenshots(ExecuteAll(run, actions)) == 0
    decreases |actions|
  {
    if |actions| > 0 {
      NoScreenshots(run(actions[0]));
      ExecuteAllTakesNoScreenshot(run, actions[1..]);
      ScreenshotsAppend(run(actions[0]), ExecuteAll(run, actions[1..]));
    }
  }

  /** The effects of one step that does not stop the loop: the screenshot, the actions,
      and a one-second wait. */
  function StepEffects(run: string -> seq<Effect>, p: Prediction): seq<Effect>
    requires p.Predicted?
  {
    [Request(Client.Screenshot)] + ExecuteAll(run, Executable(p.actions)) + [Sleep(1.0)]
  }

  /** Steps `step` to `maxSteps` of the loop in `run_single_task`; `predict` gives the
      agent's prediction at each step and `run` executes one action. The loop ends at the
      first step whose prediction stops it, or after the last step. */
  function AgentLoop(run: string -> seq<Effect>, step: nat, maxSteps: nat, predict: nat -> Prediction): (r: LoopResult)
    requires 1 <= step <= maxSteps
    ensures step <= r.lastStep <= maxSteps
    ensures forall s :: step <= s < r.lastStep ==> !Stops(predict(s))
    ensures r.lastStep < maxSteps ==> Stops(predict(r.lastStep))
    ensures r.success <==> Succeeds(predict(r.lastStep))
    ensures |r.effects| > 0 && r.effects[0] == Request(Client.Screenshot)
    decreases maxSteps - step
  {
    var p := predict(step);
    var shot := [Request(Client.Screenshot)];
    if p.PredictionFailed? then LoopResult(shot, step, false)
    else if Done in p.actions then LoopResult(shot, step, true)
    else if Fail in p.actions then LoopResult(shot, step, false)
    else if step == maxSteps then LoopResult(StepEffects(run, p), step, false)
    else
      var rest := AgentLoop(run, step + 1, maxSteps, predict);
      LoopResult(StepEffects(run, p) + rest.effects, rest.lastStep, rest.success)
  }

  /** What one step adds to the trace: a step whose prediction stops the loop takes only
      its screenshot; any other takes the screenshot, runs its executable actions in order
      and waits a second. */
  function StepTrace(run: string -> seq<Effect>, p: Prediction): seq<Effect> {
    if Stops(p) then [Request(Client.Screenshot)] else StepEffects(run, p)
  }

  /** The traces of steps `first` last `last`, one after the other. */
  function StepsTrace(run: string -> seq<Effect>, predict: nat -> Prediction, first: nat, last: nat): seq<Effect>
    decreases last + 1 - first
  {
    if first > last then [] else StepTrace(run, predict(first)) + StepsTrace(run, predict, first + 1, last)
  }

  /** The loop's effects are the traces of its steps, from the first to the one it ends at,
      in order. */
  lemma {:induction false} LoopTrace(run: string -> seq<Effect>, step: nat, maxSteps: nat, predict: nat -> Prediction)
    requires 1 <= step <= maxSteps
    ensures var r := AgentLoop(run, step, maxSteps, predict);
      r.effects == StepsTrace(run, predict, step, r.lastStep)
    decreases maxSteps - step
  {
    var p := predict(step);
    if Stops(p) || step == maxSteps {
      assert StepsTrace(run, predict, step + 1, step) == [];
      assert StepsTrace(run, predict, step, step) == StepTrace(run, p) + [];
    } else {
      LoopTrace(run, step + 1, maxSteps, predict);
    }
  }

  /** DONE wins over FAIL when an agent gives both at one step. */
  lemma {:induction false} DoneBeatsFail(run: string -> seq<Effect>, step: nat, maxSteps: nat, predict: nat -> Prediction)
    requires 1 <= step <= maxSteps
    requires predict(step).Predicted? && Done in predict(step).actions && Fail in predict(step).actions
    ensures AgentLoop(run, step, maxSteps, predict) == LoopResult([Request(Client.Screenshot)], step, true)
  {
  }

  /** A failed prediction ends the loop at once, unsuccessfully, after the screenshot. */
  lemma {:induction false} PredictionErrorStops(run: string -> seq<Effect>, step: nat, maxSteps: nat, predict: nat -> Prediction)
    requires 1 <= step <= maxSteps && predict(step).PredictionFailed?
    ensures AgentLoop(run, step, maxSteps, predict) == LoopResult([Request(Client.Screenshot)], step, false)
  {
  }

  /** A step that does not stop the loop takes one screenshot. */
  lemma {:induction false} StepTakesOneScreenshot(run: string -> seq<Effect>, p: Prediction)
    requires p.Predicted? && Blind(run)
    ensures Screenshots(StepEffects(run, p)) == 1
  {
    var shot := [Request(Client.Screenshot)];
    var acted := ExecuteAll(run, Executable(p.actions));
    assert Screenshots(shot) == 1;
    assert Screenshots([Sleep(1.0)]) == 0;
    ExecuteAllTakesNoScreenshot(run, Executable(p.actions));
    ScreenshotsAppend(shot, acted);
    ScreenshotsAppend(shot + acted, [Sleep(1.0)]);
  }

  /** Exactly one screenshot per step run. */
  lemma {:induction false} OneScreenshotPerStep(run: string -> seq<Effect>, step: nat, maxSteps: nat, predict: nat -> Prediction)
    requires 1 <= step <= maxSteps && Blind(run)
    ensures var r := AgentLoop(run, step, maxSteps, predict);
      Screenshots(r.effects) == r.lastStep - step + 1
    decreases maxSteps - step
  {
    var p := predict(step);
    if Stops(p) {
      assert Screenshots([Request(Client.Screenshot)]) == 1;
    } else {
      StepTakesOneScreenshot(run, p);
      if step < maxSteps {
        var rest := AgentLoop(run, step + 1, maxSteps, predict);
        OneScreenshotPerStep(run, step + 1, maxSteps, predict);
        ScreenshotsAppend(StepEffects(run, p), rest.effects);
      }
    }
  }

  // ---------------------------------------------------------------------------------------
  // One task

  /** The dictionary `run_single_task` returns. */
  datatype Report = Report(
    taskId: string, domain: string, instruction: string, steps: nat, success: bool,
    screenshotsDir: Option<string>)

  /** A finished run: the effects on the environment, in order, and the report. */
  datatype TaskRun = TaskRun(effects: seq<Effect>, report: Report)

  /** `execute_pyautogui_action` with the single-line parser `parse`, starting at recursion
      depth `depth`, as an action executor for the loop. */
  function Executor(parse: string -> Outcome<Command>, depth: nat): string -> seq<Effect> {
    (a: string) => ExecuteAction(parse, a, depth).effects
  }

  /** The script's action executor. */
  function ScriptRun(depth: nat): string -> seq<Effect> {
    Executor(Recognise, depth)
  }

  lemma {:induction false} ExecutorIsBlind(parse: string -> Outcome<Command>, depth: nat)
    ensures Blind(Executor(parse, depth))
  {
    forall a: string {
      ExecuteTakesNoScreenshot(parse, a, depth);
    }
  }

  lemma {:induction false} ExecuteTakesNoScreenshot(parse: string -> Outcome<Command>, a: string, depth: nat)
    ensures Request(Client.Screenshot) !in Executor(parse, depth)(a)
  {
    DispatchTakesNoScreenshot(parse, Text.Strip(a), depth);
  }

  lemma {:induction false} ScriptRunIsBlind(depth: nat)
    ensures Blind(ScriptRun(depth))
  {
    ExecutorIsBlind(Recognise, depth);
  }

  const ResultsRoot := "results"

  /** `Path("results") / domain / task_id`, as `str` renders it. */
  function ResultsDir(domain: string, taskId: string): (r: string)
    ensures PurePath.Part(domain) && PurePath.Part(taskId) ==> r == ResultsRoot + "/" + domain + "/" + taskId
    ensures domain == "" && PurePath.Part(taskId) ==> r == ResultsRoot + "/" + taskId
  {
    var root := PurePath.Parse(ResultsRoot);
    ResultsRootParts();
    if PurePath.Part(domain) && PurePath.Part(taskId) then
      PurePath.JoinTwoParts(root, domain, taskId);
      PurePath.Str(PurePath.Join(PurePath.Join(root, domain), taskId))
    else if domain == "" && PurePath.Part(taskId) then
      PurePath.JoinEmptyThenPart(root, taskId);
      PurePath.Str(PurePath.Join(PurePath.Join(root, domain), taskId))
    else PurePath.Str(PurePath.Join(PurePath.Join(root, domain), taskId))
  }

  lemma ResultsRootParts()
    ensures PurePath.Parse(ResultsRoot) == PurePath.Path("", [ResultsRoot])
    ensures PurePath.Str(PurePath.Parse(ResultsRoot)) == ResultsRoot
  {
    PurePath.ParseName(ResultsRoot);
  }

  /** `run_single_task`. A missing task file raises FileNotFoundError; a step limit below
      one leaves the loop variable unbound and raises when it is reported. Otherwise the
      task is prepared, the loop runs from step 1 with `run` executing the actions (the
      script's executor is `ScriptRun`), and the report gives the last step and whether the
      agent said DONE. */
  function RunSingleTask(files: map<string, TaskFile>, domain: string, taskId: string, maxSteps: int,
                         saveScreenshots: bool, predict: nat -> Prediction, run: string -> seq<Effect>): (r: Outcome<TaskRun>)
    ensures TaskPath(domain, taskId) !in files ==> r == Raised("Task file not found: " + TaskPath(domain, taskId))
    ensures TaskPath(domain, taskId) in files && maxSteps < 1 ==> r == Raised(UnboundStep)
    ensures r.Returned? <==> TaskPath(domain, taskId) in files && maxSteps >= 1
    ensures r.Returned? ==>
      var task := files[TaskPath(domain, taskId)];
      var rep := r.value.report;
      rep.taskId == taskId && rep.domain == domain && rep.instruction == task.instruction.GetOr("") &&
      1 <= rep.steps <= maxSteps &&
      (rep.success <==> Succeeds(predict(rep.steps))) &&
      (forall s :: 1 <= s < rep.steps ==> !Stops(predict(s))) &&
      (rep.steps < maxSteps ==> Stops(predict(rep.steps))) &&
      (rep.screenshotsDir.Some? <==> saveScreenshots) &&
      (saveScreenshots ==> rep.screenshotsDir.value == ResultsDir(domain, taskId)) &&
      PrepareEffects(task, domain, taskId) <= r.value.effects
  {
    match LoadTaskConfig(files, domain, taskId)
    case Raised(m) => Raised(m)
    case Returned(task) =>
      if maxSteps < 1 then Raised(UnboundStep)
      else
        var instruction := task.instruction.GetOr("");
        var prepared := PrepareEffects(task, domain, taskId);
        var loop := AgentLoop(run, 1, maxSteps, predict);
        var dir := if saveScreenshots then Some(ResultsDir(domain, taskId)) else None;
        Returned(TaskRun(prepared + loop.effects,
          Report(taskId, domain, instruction, loop.lastStep, loop.success, dir)))
  }

  /** A run's effects are the preparation followed by the traces of steps 1 to the step
      it reports. */
  lemma {:induction false} RunTrace(files: map<string, TaskFile>, domain: string, taskId: string, maxSteps: int,
                                    saveScreenshots: bool, predict: nat -> Prediction, run: string -> seq<Effect>)
    ensures var r := RunSingleTask(files, domain, taskId, maxSteps, saveScreenshots, predict, run);
      r.Returned? ==>
        r.value.effects == PrepareEffects(files[TaskPath(domain, taskId)], domain, taskId) +
                           StepsTrace(run, predict, 1, r.value.report.steps)
  {
    if TaskPath(domain, taskId) in files && maxSteps >= 1 {
      LoopTrace(run, 1, maxSteps, predict);
    }
  }

  /** The run takes one screenshot per step it reports. */
  lemma {:induction false} RunScreenshots(files: map<string, TaskFile>, domain: string, taskId: string, maxSteps: int,
                                          saveScreenshots: bool, predict: nat -> Prediction, run: string -> seq<Effect>)
    requires TaskPath(domain, taskId) in files && maxSteps >= 1 && Blind(run)
    ensures var r := RunSingleTask(files, domain, taskId, maxSteps, saveScreenshots, predict, run);
      Screenshots(r.value.effects) == r.value.report.steps
  {
    var task := files[TaskPath(domain, taskId)];
    var prepared := PrepareEffects(task, domain, taskId);
    var loop := AgentLoop(run, 1, maxSteps, predict);
    PrepareTakesNoScreenshot(task, domain, taskId);
    OneScreenshotPerStep(run, 1, maxSteps, predict);
    ScreenshotsAppend(prepared, loop.effects);
  }
}

=== FILE: osworld_adapter.dfy ===
/** The simulated assessment backend (green_agent/osworld_adapter.py): a deterministic frame
    generator, a loop that asks the decision agent about each frame, and the dispatch entry. */
module Adapter {
  import opened Wrappers
  import opened JsonValues
  import Text
  import WhiteAgent
  import TaskConverter

  /** The settings read from the environment at import time: `USE_FAKE_OSWORLD == "1"`
      (default "1") and `MAX_STEPS` (default 120). */
  datatype Config = Config(useFake: bool, maxSteps: int)

  const DefaultConfig := Config(true, 120)

  /** The most frames the simulation ever produces. */
  const FrameCap := 10

  /** One synthetic frame. `png` stands in for the rendered canvas, whose only
      step-dependent content is its caption. */
  datatype Frame = Frame(frameId: int, png: string, hint: Option<string>, done: bool)

  function Caption(i: int): string {
    "Step " + Text.IntToString(i)
  }

  /** The hint shown with frame `i` (1-based): the i-th hint while there is one, then the last. */
  function HintFor(hints: seq<string>, i: int): Option<string>
    requires i >= 1
  {
    if |hints| == 0 then None
    else if i - 1 < |hints| - 1 then Some(hints[i - 1])
    else Some(hints[|hints| - 1])
  }

  /** `min(10, maxSteps)`, and no frames at all when that is not positive. */
  function FrameCount(maxSteps: int): (n: nat)
    ensures n <= FrameCap
    ensures maxSteps >= FrameCap ==> n == FrameCap
    ensures 0 <= maxSteps <= FrameCap ==> n == maxSteps
    ensures maxSteps <= 0 ==> n == 0
  {
    if maxSteps <= 0 then 0 else if maxSteps < FrameCap then maxSteps else FrameCap
  }

  /** The frame generator. */
  function FakeFrames(hints: seq<string>, maxSteps: int): (r: seq<Frame>)
    ensures |r| == FrameCount(maxSteps)
    ensures forall j :: 0 <= j < |r| ==> r[j].frameId == j + 1 && r[j].png == Caption(j + 1)
    ensures forall j :: 0 <= j < |r| && j < |hints| ==> r[j].hint == Some(hints[j])
    ensures forall j :: 0 <= j < |r| && |hints| > 0 && j >= |hints| ==> r[j].hint == Some(hints[|hints| - 1])
    ensures forall j :: 0 <= j < |r| && |hints| == 0 ==> r[j].hint == None
    ensures forall j :: 0 <= j < |r| ==> (r[j].done <==> j == |r| - 1)
  {
    var steps := if maxSteps < FrameCap then maxSteps else FrameCap;
    var n := FrameCount(maxSteps);
    seq(n, j requires 0 <= j < n => Frame(j + 1, Caption(j + 1), HintFor(hints, j + 1), j + 1 == steps))
  }

  /** What the loop hands to the decision agent for a frame: the hint, and `done` always false. */
  function ObservationOf(f: Frame): (obs: WhiteAgent.Observation)
    ensures obs.frameId == f.frameId && obs.uiHint == f.hint && !obs.done
  {
    WhiteAgent.Observation(f.frameId, f.png, f.hint, false)
  }

  /** What the loop did: the observations the agent was asked about, in order, the number of
      answers it got, and the failure that stopped it, if any. */
  datatype LoopTrace = LoopTrace(calls: seq<WhiteAgent.Observation>, steps: nat, failure: Option<string>)

  const DecideErrorTag := "white_decide_error: "

  /** Ask `decide` about each frame in turn, stopping at the first call that raises. */
  function DecideLoop(frames: seq<Frame>, decide: WhiteAgent.Observation -> Outcome<Json>): (t: LoopTrace)
    ensures |t.calls| <= |frames|
    ensures forall j :: 0 <= j < |t.calls| ==> t.calls[j] == ObservationOf(frames[j])
    ensures t.failure.None? ==>
      && |t.calls| == |frames| && t.steps == |frames|
      && forall j :: 0 <= j < |t.calls| ==> decide(t.calls[j]).Returned?
    ensures t.failure.Some? ==>
      && |t.calls| == t.steps + 1
      && (forall j :: 0 <= j < t.steps ==> decide(t.calls[j]).Returned?)
      && decide(t.calls[t.steps]).Raised?
      && t.failure.value == DecideErrorTag + decide(t.calls[t.steps]).message
    decreases |frames|
  {
    if |frames| == 0 then LoopTrace([], 0, None)
    else
      var obs := ObservationOf(frames[0]);
      match decide(obs)
      case Raised(e) => LoopTrace([obs], 0, Some(DecideErrorTag + e))
      case Returned(_) =>
        var rest := DecideLoop(frames[1..], decide);
        LoopTrace([obs] + rest.calls, rest.steps + 1, rest.failure)
  }

  /** The normalised result of a run. */
  datatype RunResult = RunResult(
    success: int,
    steps: int,
    timeSec: real,
    failureReason: Option<string>,
    artifacts: map<string, string>)

  /** A run of the backend: its outcome and every call it made to the decision callback. */
  datatype AdapterRun = AdapterRun(outcome: Outcome<RunResult>, calls: seq<WhiteAgent.Observation>)

  /** The simulated run; `elapsed` is the already rounded wall-clock time. */
  function RunOsworldLike(cfg: Config, task: TaskConverter.GreenTask,
                          decide: WhiteAgent.Observation -> Outcome<Json>, elapsed: real): (r: AdapterRun)
    ensures r.outcome.Returned?
    ensures r.outcome.value.artifacts == map[]
    ensures r.outcome.value.timeSec == elapsed
    ensures r.outcome.value.success == 1 <==> r.outcome.value.failureReason.None?
    ensures r.outcome.value.success == 0 || r.outcome.value.success == 1
  {
    var frames := FakeFrames(task.hints.GetOr([]), cfg.maxSteps);
    var t := DecideLoop(frames, decide);
    AdapterRun(
      Returned(RunResult(if t.failure.None? then 1 else 0, t.steps, elapsed, t.failure, map[])),
      t.calls)
  }

  /** If the agent never raises, the run succeeds after one call per frame, the j-th call
      being about frame j. */
  lemma {:induction false} RunSucceedsWhenDecideNeverRaises(cfg: Config, task: TaskConverter.GreenTask,
                          decide: WhiteAgent.Observation -> Outcome<Json>, elapsed: real)
    requires forall obs :: decide(obs).Returned?
    ensures var r := RunOsworldLike(cfg, task, decide, elapsed);
      && r.outcome.value.success == 1
      && r.outcome.value.steps == FrameCount(cfg.maxSteps)
      && r.outcome.value.failureReason == None
      && |r.calls| == FrameCount(cfg.maxSteps)
      && forall j :: 0 <= j < |r.calls| ==> r.calls[j].frameId == j + 1 && !r.calls[j].done
  {
  }

  /** If the agent first raises on call k, there is no call after it and the run reports
      failure with k - 1 steps and a `white_decide_error` reason. */
  lemma {:induction false} RunStopsAtFirstRaise(cfg: Config, task: TaskConverter.GreenTask,
                             decide: WhiteAgent.Observation -> Outcome<Json>, elapsed: real, k: nat)
    requires 1 <= k <= FrameCount(cfg.maxSteps)
    requires var frames := FakeFrames(task.hints.GetOr([]), cfg.maxSteps);
      && (forall j :: 0 <= j < k - 1 ==> decide(ObservationOf(frames[j])).Returned?)
      && decide(ObservationOf(frames[k - 1])).Raised?
    ensures var r := RunOsworldLike(cfg, task, decide, elapsed);
      && |r.calls| == k
      && r.outcome.value.success == 0
      && r.outcome.value.steps == k - 1
      && r.outcome.value.failureReason.Some?
      && DecideErrorTag <= r.outcome.value.failureReason.value
  {
  }

  const NotWiredMessage := "Real OSWorld integration not wired in this MVP. Set USE_FAKE_OSWORLD=1."

  /** The `TypeError` Python raises when `run_osworld(task, white_decide)` is called with
      `n` positional arguments instead of two. */
  function ArityMessage(n: nat): string
    requires n != 2
  {
    if n == 0 then "run_osworld() missing 2 required positional arguments: 'task' and 'white_decide'"
    else if n == 1 then "run_osworld() missing 1 required positional argument: 'white_decide'"
    else "run_osworld() takes 2 positional arguments but " + Text.IntToString(n) + " were given"
  }

  /** A call of `run_osworld` with `argCount` positional arguments. */
  function CallRunOsworld(cfg: Config, argCount: nat, task: TaskConverter.GreenTask,
                          decide: WhiteAgent.Observation -> Outcome<Json>, elapsed: real): (r: AdapterRun)
    ensures argCount != 2 ==> r.outcome.Raised? && r.calls == []
    ensures argCount == 2 && !cfg.useFake ==> r == AdapterRun(Raised(NotWiredMessage), [])
    ensures argCount == 2 && cfg.useFake ==> r == RunOsworldLike(cfg, task, decide, elapsed)
  {
    if argCount != 2 then AdapterRun(Raised(ArityMessage(argCount)), [])
    else if cfg.useFake then RunOsworldLike(cfg, task, decide, elapsed)
    else AdapterRun(Raised(NotWiredMessage), [])
  }
}

=== FILE: osworld_client.dfy ===
/** The environment client (green_agent/osworld_client.py): base-address normalisation, the
    remote-code snippets behind the synthetic-input calls, the browser launch command, the
    health check and the best-effort observation. */
module OsworldClient {
  import opened Wrappers
  import opened JsonValues
  import Text

  const DefaultBaseUrl := "http://localhost:5000"

  /** The base address kept by the client: the given one without its trailing slashes. */
  function NormaliseBaseUrl(url: string): (r: string)
    ensures r <= url
    ensures |r| == 0 || r[|r| - 1] != '/'
    ensures forall i :: |r| <= i < |url| ==> url[i] == '/'
  {
    Text.RStrip(url, '/')
  }

  /** Normalising twice changes nothing, and extra trailing slashes do not matter. */
  lemma {:induction false} NormaliseIdempotent(url: string)
    ensures NormaliseBaseUrl(NormaliseBaseUrl(url)) == NormaliseBaseUrl(url)
    ensures NormaliseBaseUrl(url + "/") == NormaliseBaseUrl(url)
  {
    assert (url + "/")[..|url|] == url;
  }

  /** `health_check`: the response to GET /platform, or the exception it raised. */
  function HealthCheck(platform: Outcome<int>): (healthy: bool)
    ensures healthy <==> platform == Returned(200)
  {
    match platform
    case Returned(code) => code == 200
    case Raised(_) => false
  }

  /** A command for `/execute`: an argument list, or one line for the shell. */
  datatype CommandArg = Argv(args: seq<string>) | Line(text: string)

  /** The client operations the scripts call. */
  datatype Call =
    | Execute(command: CommandArg, shell: bool, timeout: int)
    | Screenshot
    | MouseMove(x: int, y: int)
    | ClickAt(cx: Option<int>, cy: Option<int>)
    | DoubleClickAt(x: int, y: int)
    | RightClickAt(x: int, y: int)
    | TypeText(text: string)
    | PressKey(key: string)
    | Hotkey(keys: seq<string>)

  const DefaultExecuteTimeout := 120

  /** `text.replace("'", "\\'")`: a backslash before every single quote; backslashes
      already in the text are left alone. */
  function Escape(text: string): (e: string)
    ensures |e| >= |text|
    ensures |e| > 0 ==> e[0] != '\''
    decreases |text|
  {
    if |text| == 0 then ""
    else (if text[0] == '\'' then "\\'" else [text[0]]) + Escape(text[1..])
  }

  /** Every quote of an escaped text comes right after a backslash, so none of them ends
      the literal it is written into. */
  lemma {:induction false} EscapedQuotesArePreceded(text: string, i: int)
    requires 0 <= i < |Escape(text)| && Escape(text)[i] == '\''
    ensures i > 0 && Escape(text)[i - 1] == '\\'
    decreases |text|
  {
    var head := if text[0] == '\'' then "\\'" else [text[0]];
    var rest := Escape(text[1..]);
    assert Escape(text) == head + rest;
    if i >= |head| {
      assert rest[i - |head|] == '\'';
      EscapedQuotesArePreceded(text[1..], i - |head|);
      if i - |head| > 0 {
        assert Escape(text)[i - 1] == rest[i - |head| - 1];
      }
    }
  }

  /** Delete the backslash of every backslash-quote pair, scanning left to right. */
  function Unescape(e: string): string
    decreases |e|
  {
    if |e| >= 2 && e[0] == '\\' && e[1] == '\'' then "'" + Unescape(e[2..])
    else if |e| == 0 then ""
    else [e[0]] + Unescape(e[1..])
  }

  /** Deleting the inserted backslashes recovers the text, so escaping loses nothing. */
  lemma {:induction false} UnescapeEscape(text: string)
    ensures Unescape(Escape(text)) == text
    decreases |text|
  {
    if |text| > 0 {
      var rest := Escape(text[1..]);
      UnescapeEscape(text[1..]);
      if text[0] == '\'' {
        assert Escape(text) == "\\'" + rest;
        assert ("\\'" + rest)[2..] == rest;
      } else {
        assert Escape(text) == [text[0]] + rest;
        assert ([text[0]] + rest)[1..] == rest;
        if text[0] == '\\' {
          assert |rest| == 0 || rest[0] != '\'';
        }
      }
      assert text == [text[0]] + text[1..];
    }
  }

  const Prelude := "import pyautogui\n"

  /** The code `type_text` submits: the text written inside a single-quoted literal. */
  function TypeTextCode(text: string): (code: string)
    ensures |code| >= |Prelude| + 19
    ensures Prelude + "pyautogui.write('" <= code && code[|code| - 2..] == "')"
    ensures Unescape(code[|Prelude| + 17..|code| - 2]) == text
  {
    var body := Escape(text);
    var code := Prelude + ("pyautogui.write('" + body + "')");
    assert code[|Prelude| + 17..|code| - 2] == body;
    UnescapeEscape(text);
    code
  }

  /** `x, y` as f-string arguments. */
  function Coordinates(x: int, y: int): string {
    Text.IntToString(x) + ", " + Text.IntToString(y)
  }

  /** A snippet that is the prelude, then a single call `head` + `args` + ")": `head` names
      the pyautogui function and opens its parenthesis, `args` is what stands inside. */
  predicate Framed(code: string, head: string, args: string) {
    |code| == |Prelude| + |head| + |args| + 1 &&
    code[..|Prelude| + |head|] == Prelude + head &&
    code[|Prelude| + |head|..|code| - 1] == args &&
    code[|code| - 1] == ')'
  }

  /** The builders' layout is framed. */
  lemma {:induction false} FramedOf(head: string, args: string)
    ensures Framed(Prelude + (head + args + ")"), head, args)
  {
    var code := Prelude + (head + args + ")");
    assert code == (Prelude + head) + args + ")";
  }

  /** `mouse_move`: a move to the two coordinates as `str` writes them. */
  function MouseMoveCode(x: int, y: int): (code: string)
    ensures Framed(code, "pyautogui.moveTo(", Coordinates(x, y))
  {
    FramedOf("pyautogui.moveTo(", Coordinates(x, y));
    Prelude + ("pyautogui.moveTo(" + Coordinates(x, y) + ")")
  }

  /** `click_at`: a click at the current cursor position when either coordinate is None. */
  function ClickAtCode(x: Option<int>, y: Option<int>): (code: string)
    ensures x.None? || y.None? ==> code == Prelude + "pyautogui.click()"
    ensures x.Some? && y.Some? ==> code == Prelude + ("pyautogui.click(" + Coordinates(x.value, y.value) + ")")
  {
    if x.None? || y.None? then Prelude + "pyautogui.click()"
    else Prelude + ("pyautogui.click(" + Coordinates(x.value, y.value) + ")")
  }

  /** `double_click`: a double click at the two coordinates. */
  function DoubleClickAtCode(x: int, y: int): (code: string)
    ensures Framed(code, "pyautogui.doubleClick(", Coordinates(x, y))
  {
    FramedOf("pyautogui.doubleClick(", Coordinates(x, y));
    Prelude + ("pyautogui.doubleClick(" + Coordinates(x, y) + ")")
  }

  /** `right_click`: a right click at the two coordinates. */
  function RightClickAtCode(x: int, y: int): (code: string)
    ensures Framed(code, "pyautogui.rightClick(", Coordinates(x, y))
  {
    FramedOf("pyautogui.rightClick(", Coordinates(x, y));
    Prelude + ("pyautogui.rightClick(" + Coordinates(x, y) + ")")
  }

  /** `press_key`: the key goes into the literal unescaped. */
  function PressKeyCode(key: string): (code: string)
    ensures Framed(code, "pyautogui.press(", "'" + key + "'")
  {
    FramedOf("pyautogui.press(", "'" + key + "'");
    assert "pyautogui.press(" + ("'" + key + "'") + ")" == "pyautogui.press('" + key + "')";
    Prelude + ("pyautogui.press('" + key + "')")
  }

  /** Each key wrapped in single quotes. */
  function QuoteAll(keys: seq<string>): (q: seq<string>)
    ensures |q| == |keys|
    ensures forall i :: 0 <= i < |keys| ==> q[i] == "'" + keys[i] + "'"
  {
    seq(|keys|, i requires 0 <= i < |keys| => "'" + keys[i] + "'")
  }

  /** The argument list of `hotkey`: the quoted keys in order, joined by ", ". */
  function HotkeyArgs(keys: seq<string>): (args: string)
    ensures |keys| == 0 ==> args == ""
  {
    Text.Join(", ", QuoteAll(keys))
  }

  /** `hotkey`: one call with every key quoted, in order. */
  function HotkeyCode(keys: seq<string>): (code: string)
    ensures Framed(code, "pyautogui.hotkey(", HotkeyArgs(keys))
    ensures |keys| == 0 ==> code == Prelude + "pyautogui.hotkey()"
  {
    FramedOf("pyautogui.hotkey(", HotkeyArgs(keys));
    Prelude + ("pyautogui.hotkey(" + HotkeyArgs(keys) + ")")
  }

  /** The line of code after the prelude that each synthetic-input call submits. */
  function SnippetLine(c: Call): Option<string> {
    match c
    case MouseMove(x, y) => Some("pyautogui.moveTo(" + Coordinates(x, y) + ")")
    case ClickAt(x, y) =>
      if x.None? || y.None? then Some("pyautogui.click()") else Some("pyautogui.click(" + Coordinates(x.value, y.value) + ")")
    case DoubleClickAt(x, y) => Some("pyautogui.doubleClick(" + Coordinates(x, y) + ")")
    case RightClickAt(x, y) => Some("pyautogui.rightClick(" + Coordinates(x, y) + ")")
    case TypeText(t) => Some("pyautogui.write('" + Escape(t) + "')")
    case PressKey(k) => Some("pyautogui.press('" + k + "')")
    case Hotkey(keys) => Some("pyautogui.hotkey(" + HotkeyArgs(keys) + ")")
    case _ => None
  }

  /** The code `run_python` receives for a call: the builders above, each a prelude and one line. */
  function Snippet(c: Call): (code: Option<string>)
    ensures code.Some? <==> !c.Execute? && !c.Screenshot?
    ensures code.Some? ==> code.value == Prelude + SnippetLine(c).value
    ensures c.TypeText? ==> code == Some(TypeTextCode(c.text))
    ensures c.MouseMove? ==> code == Some(MouseMoveCode(c.x, c.y))
    ensures c.ClickAt? ==> code == Some(ClickAtCode(c.cx, c.cy))
    ensures c.DoubleClickAt? ==> code == Some(DoubleClickAtCode(c.x, c.y))
    ensures c.RightClickAt? ==> code == Some(RightClickAtCode(c.x, c.y))
    ensures c.PressKey? ==> code == Some(PressKeyCode(c.key))
    ensures c.Hotkey? ==> code == Some(HotkeyCode(c.keys))
  {
    match SnippetLine(c)
    case Some(line) => Some(Prelude + line)
    case None => None
  }

  const ChromeBase := ["google-chrome", "--no-sandbox", "--new-window"]

  /** `launch_chrome`: the fixed command, with the address appended when it is non-empty. */
  function LaunchChrome(url: Option<string>): (c: Call)
    ensures c.Execute? && c.command.Argv? && !c.shell && c.timeout == DefaultExecuteTimeout
    ensures |c.command.args| >= 3 && c.command.args[..3] == ChromeBase
    ensures |c.command.args| == 4 <==> url.Some? && url.value != ""
    ensures |c.command.args| == 3 || (url.Some? && c.command.args[3] == url.value)
  {
    var cmd := if url.Some? && url.value != "" then ChromeBase + [url.value] else ChromeBase;
    Execute(Argv(cmd), false, DefaultExecuteTimeout)
  }

  /** An observation from the live environment. */
  datatype Observation = Observation(
    screenshotB64: string,
    accessibilityTree: Option<map<string, Json>>,
    cursorPosition: Option<(int, int)>,
    screenSize: Option<map<string, int>>)

  const ObservationKeys := {"screenshot", "accessibility_tree", "cursor_position", "screen_size"}

  /** `to_dict`: one key per field, None becoming null. */
  function ToDict(o: Observation): (d: map<string, Json>)
    ensures d.Keys == ObservationKeys
    ensures d["screenshot"] == Str(o.screenshotB64)
  {
    map[
      "screenshot" := Str(o.screenshotB64),
      "accessibility_tree" := (match o.accessibilityTree case Some(t) => Obj(t) case None => Null),
      "cursor_position" := (match o.cursorPosition case Some(p) => Arr([Int(p.0), Int(p.1)]) case None => Null),
      "screen_size" := (match o.screenSize case Some(m) => Obj(map k | k in m :: Int(m[k])) case None => Null)
    ]
  }

  /** Reading an observation back from its dictionary. */
  function FromDict(d: map<string, Json>): Option<Observation> {
    if d.Keys != ObservationKeys then None
    else
      var shot := d["screenshot"];
      var tree: Option<Option<map<string, Json>>> := match d["accessibility_tree"]
        case Null => Some(None)
        case Obj(t) => Some(Some(t))
        case _ => None;
      var cursor: Option<Option<(int, int)>> := match d["cursor_position"]
        case Null => Some(None)
        case Arr(p) => if |p| == 2 && p[0].Int? && p[1].Int? then Some(Some((p[0].i, p[1].i))) else None
        case _ => None;
      var size: Option<Option<map<string, int>>> := match d["screen_size"]
        case Null => Some(None)
        case Obj(m) => if forall k :: k in m ==> m[k].Int? then Some(Some(map k | k in m :: m[k].i)) else None
        case _ => None;
      if !shot.Str? || tree.None? || cursor.None? || size.None? then None
      else Some(Observation(shot.s, tree.value, cursor.value, size.value))
  }

  /** `to_dict` maps each field to its own key and nothing is lost. */
  lemma {:induction false} FromToDict(o: Observation)
    ensures FromDict(ToDict(o)) == Some(o)
  {
    if o.screenSize.Some? {
      var m := o.screenSize.value;
      var j := map k | k in m :: Int(m[k]);
      assert (map k | k in j :: j[k].i) == m;
    }
  }

  /** The requests `create_observation` makes, in order. */
  datatype Request = GetScreenshot | GetAccessibilityTree | GetCursorPosition | GetScreenSize

  datatype Capture = Capture(requests: seq<Request>, result: Outcome<Observation>)

  /** `create_observation`, given what each request answers: a screenshot failure
      propagates; the tree is asked for only when `includeA11y`; a failed optional request
      leaves its own field None. */
  function CreateObservation(includeA11y: bool, screenshot: Outcome<string>, tree: Outcome<map<string, Json>>,
                             cursor: Outcome<(int, int)>, size: Outcome<map<string, int>>): (c: Capture)
    ensures screenshot.Raised? ==> c == Capture([GetScreenshot], Raised(screenshot.message))
    ensures screenshot.Returned? ==> c.result.Returned? && c.result.value.screenshotB64 == screenshot.value
    ensures screenshot.Returned? ==> (GetAccessibilityTree in c.requests <==> includeA11y)
    ensures screenshot.Returned? ==> |c.requests| >= 3 && c.requests[0] == GetScreenshot && c.requests[|c.requests| - 1] == GetScreenSize
    ensures screenshot.Returned? ==>
      (c.result.value.accessibilityTree.Some? <==> includeA11y && tree.Returned?)
    ensures screenshot.Returned? ==> (c.result.value.cursorPosition.Some? <==> cursor.Returned?)
    ensures screenshot.Returned? ==> (c.result.value.screenSize.Some? <==> size.Returned?)
    ensures screenshot.Returned? && includeA11y && tree.Returned? ==> c.result.value.accessibilityTree == Some(tree.value)
    ensures screenshot.Returned? && cursor.Returned? ==> c.result.value.cursorPosition == Some(cursor.value)
    ensures screenshot.Returned? && size.Returned? ==> c.result.value.screenSize == Some(size.value)
    ensures screenshot.Returned? && includeA11y ==>
      c.requests == [GetScreenshot, GetAccessibilityTree, GetCursorPosition, GetScreenSize]
    ensures screenshot.Returned? && !includeA11y ==> c.requests == [GetScreenshot, GetCursorPosition, GetScreenSize]
  {
    match screenshot
    case Raised(e) => Capture([GetScreenshot], Raised(e))
    case Returned(shot) =>
      var treeValue := if includeA11y && tree.Returned? then Some(tree.value) else None;
      var cursorValue := if cursor.Returned? then Some(cursor.value) else None;
      var sizeValue := if size.Returned? then Some(size.value) else None;
      var requests := [GetScreenshot] + (if includeA11y then [GetAccessibilityTree] else []) + [GetCursorPosition, GetScreenSize];
      Capture(requests, Returned(Observation(shot, treeValue, cursorValue, sizeValue)))
  }

  /** A failed optional request costs only its own field: the rest of the observation is
      what it would have been had that request succeeded. */
  lemma {:induction false} OptionalFailuresAreIsolated(includeA11y: bool, screenshot: string, tree: Outcome<map<string, Json>>,
                                    cursor: Outcome<(int, int)>, size: Outcome<map<string, int>>, e: string)
    ensures var full := CreateObservation(includeA11y, Returned(screenshot), tree, cursor, size).result.value;
      && CreateObservation(includeA11y, Returned(screenshot), Raised(e), cursor, size).result.value
         == full.(accessibilityTree := None)
      && CreateObservation(includeA11y, Returned(screenshot), tree, Raised(e), size).result.value
         == full.(cursorPosition := None)
      && CreateObservation(includeA11y, Returned(screenshot), tree, cursor, Raised(e)).result.value
         == full.(screenSize := None)
  {
  }
}

=== FILE: pure_path.dfy ===
/** The part of Python's `pathlib` the scripts rely on: building a POSIX path with `/` and
    rendering it with `str`. A path keeps an anchor and a list of parts; rendering joins the
    parts with single separators, so empty and "." segments, doubled and trailing
    separators do not survive, and an anchored segment starts the path afresh. */
module PurePath {
  import Text

  /** A pure path: its anchor ("", "/" or "//") and its parts. */
  datatype Path = Path(anchor: string, parts: seq<string>)

  /** What may stand as a part of a path. */
  predicate Part(p: string) {
    p != "" && p != "." && '/' !in p
  }

  /** The segments between separators that a path keeps: all but the empty ones and ".". */
  function Parts(pieces: seq<string>): (r: seq<string>)
    ensures |r| <= |pieces|
    ensures forall k :: 0 <= k < |r| ==> r[k] in pieces && r[k] != "" && r[k] != "."
    ensures (forall k :: 0 <= k < |pieces| ==> '/' !in pieces[k]) ==> forall k :: 0 <= k < |r| ==> Part(r[k])
    decreases |pieces|
  {
    if |pieces| == 0 then []
    else if pieces[0] == "" || pieces[0] == "." then Parts(pieces[1..])
    else [pieces[0]] + Parts(pieces[1..])
  }

  /** The anchor of a path string: exactly two leading separators are kept as "//", any
      other number of them as "/". */
  function Anchor(s: string): (r: string)
    ensures r == "" <==> |s| == 0 || s[0] != '/'
    ensures r == "//" <==> |s| >= 2 && s[..2] == "//" && (|s| == 2 || s[2] != '/')
  {
    if |s| >= 2 && s[0] == '/' && s[1] == '/' && (|s| == 2 || s[2] != '/') then "//"
    else if |s| >= 1 && s[0] == '/' then "/"
    else ""
  }

  /** `PurePosixPath(s)`. */
  function Parse(s: string): (r: Path)
    ensures forall k :: 0 <= k < |r.parts| ==> Part(r.parts[k])
  {
    Path(Anchor(s), Parts(Text.Split(s, '/')))
  }

  /** `p / s`: the parts of `s` go after those of `p`, unless `s` is anchored and replaces `p`. */
  function Join(p: Path, s: string): (r: Path)
    ensures Anchor(s) != "" ==> r == Parse(s)
    ensures Anchor(s) == "" ==> r.anchor == p.anchor && r.parts == p.parts + Parse(s).parts
  {
    var q := Parse(s);
    if q.anchor != "" then q else Path(p.anchor, p.parts + q.parts)
  }

  /** `str(p)`: "." for the empty relative path. */
  function Str(p: Path): string {
    if p.anchor == "" && |p.parts| == 0 then "."
    else if |p.parts| == 0 then p.anchor
    else p.anchor + Text.Join("/", p.parts)
  }

  /** Segments that are all parts are kept as they are. */
  lemma {:induction false} PartsOfParts(pieces: seq<string>)
    requires forall k :: 0 <= k < |pieces| ==> Part(pieces[k])
    ensures Parts(pieces) == pieces
    decreases |pieces|
  {
    if |pieces| > 0 {
      PartsOfParts(pieces[1..]);
      assert [pieces[0]] + pieces[1..] == pieces;
    }
  }

  /** Joining one more piece after at least one. */
  lemma {:induction false} JoinSnoc(parts: seq<string>, x: string)
    requires |parts| >= 1
    ensures Text.Join("/", parts + [x]) == Text.Join("/", parts) + "/" + x
    decreases |parts|
  {
    if |parts| == 1 {
      assert parts + [x] == [parts[0], x];
    } else {
      assert (parts + [x])[1..] == parts[1..] + [x];
      JoinSnoc(parts[1..], x);
    }
  }

  /** A relative path string whose segments are all parts renders as itself: `Parse` and
      `Str` lose and invent nothing on such a string. */
  lemma {:induction false} NormalRoundTrip(s: string)
    requires |s| > 0 && s[0] != '/'
    requires forall k :: 0 <= k < |Text.Split(s, '/')| ==> Part(Text.Split(s, '/')[k])
    ensures Str(Parse(s)) == s
  {
    PartsOfParts(Text.Split(s, '/'));
    Text.JoinSplit(s, '/');
  }

  /** Parts joined with separators parse back into the same relative path, which renders
      as the joined string. */
  lemma {:induction false} RelativeRoundTrip(parts: seq<string>)
    requires |parts| > 0 && forall k :: 0 <= k < |parts| ==> Part(parts[k])
    ensures Parse(Text.Join("/", parts)) == Path("", parts)
    ensures Str(Path("", parts)) == Text.Join("/", parts)
  {
    var s := Text.Join("/", parts);
    Text.SplitJoin(parts, '/');
    PartsOfParts(parts);
    Text.FirstPieceIsPrefix(s, '/');
    assert parts[0] <= s && |parts[0]| > 0 && parts[0][0] != '/';
  }

  /** A part appended to a non-empty path is rendered after one separator. */
  lemma {:induction false} JoinPart(p: Path, name: string)
    requires |p.parts| > 0 && Part(name)
    ensures Str(Join(p, name)) == Str(p) + "/" + name
  {
    Text.SplitWithoutSeparator(name, '/');
    assert Parse(name).parts == [name];
    JoinSnoc(p.parts, name);
  }

  /** An empty or "." segment leaves the path as it was. */
  lemma {:induction false} JoinNothing(p: Path, s: string)
    requires s == "" || s == "."
    ensures Join(p, s) == p
  {
    Text.SplitWithoutSeparator(s, '/');
    assert Parse(s).parts == [];
  }

  /** Two parts appended to a non-empty relative path. */
  lemma {:induction false} JoinTwoParts(p: Path, dir: string, name: string)
    requires p.anchor == "" && |p.parts| > 0 && Part(dir) && Part(name)
    ensures Str(Join(Join(p, dir), name)) == Str(p) + "/" + dir + "/" + name
  {
    JoinPart(p, dir);
    JoinPart(Join(p, dir), name);
  }

  /** An empty directory segment between a non-empty relative path and a part adds no level. */
  lemma {:induction false} JoinEmptyThenPart(p: Path, name: string)
    requires p.anchor == "" && |p.parts| > 0 && Part(name)
    ensures Str(Join(Join(p, ""), name)) == Str(p) + "/" + name
  {
    JoinNothing(p, "");
    JoinPart(p, name);
  }

  /** A single relative name parses to itself as the one part. */
  lemma {:induction false} ParseName(name: string)
    requires Part(name)
    ensures Parse(name) == Path("", [name])
  {
    Text.SplitWithoutSeparator(name, '/');
  }
}

=== FILE: script_common.dfy ===
/** What the two benchmark scripts (run_with_gpt4v.py and run_osworld_benchmark.py) share:
    the effects they have on the environment, the commands their action parsers recognise,
    the regular-expression pieces those parsers are built from, task files and predictions. */
module ScriptCommon {
  import opened Wrappers
  import Text
  import Client = OsworldClient
  import PurePath

  /** One thing a script does to the environment: a client call, or a pause of the script. */
  datatype Effect = Request(call: Client.Call) | Sleep(seconds: real)

  /** What an action string is recognised as. `NoKeys` is a hotkey line without quoted keys. */
  datatype Command =
    | MoveTo(x: nat, y: nat)
    | ClickAt(x: nat, y: nat)
    | ClickHere
    | DoubleClick(x: nat, y: nat)
    | RightClick(x: nat, y: nat)
    | Type(text: string)
    | Hotkey(keys: seq<string>)
    | Press(key: string)
    | Pause(seconds: real)
    | Scroll(amount: int)
    | NoKeys
    | Unknown

  /** The client call (or pause) a recognised command leads to; scrolling, key-less hotkeys
      and unknown actions only log. */
  function EffectsOf(c: Command): (e: seq<Effect>)
    ensures |e| <= 1
    ensures |e| == 0 <==> c.Scroll? || c.NoKeys? || c.Unknown?
    ensures Request(Client.Screenshot) !in e
  {
    match c
    case MoveTo(x, y) => [Request(Client.MouseMove(x, y))]
    case ClickAt(x, y) => [Request(Client.ClickAt(Some(x), Some(y)))]
    case ClickHere => [Request(Client.ClickAt(None, None))]
    case DoubleClick(x, y) => [Request(Client.DoubleClickAt(x, y))]
    case RightClick(x, y) => [Request(Client.RightClickAt(x, y))]
    case Type(t) => [Request(Client.TypeText(t))]
    case Hotkey(keys) => [Request(Client.Hotkey(keys))]
    case Press(k) => [Request(Client.PressKey(k))]
    case Pause(d) => [Sleep(d)]
    case Scroll(_) => []
    case NoKeys => []
    case Unknown => []
  }

  /** The text after a literal, when `re.match` of the literal succeeds. */
  function After(s: string, lit: string): (r: Option<string>)
    ensures r.Some? <==> lit <= s
    ensures r.Some? ==> s == lit + r.value
  {
    if lit <= s then Some(s[|lit|..]) else None
  }

  /** The first index at or after `i` holding one of `chars`. */
  function FindFrom(s: string, i: nat, chars: set<char>): (r: Option<nat>)
    requires i <= |s|
    ensures r.Some? ==> i <= r.value < |s| && s[r.value] in chars
    ensures forall k :: i <= k < |s| && (r.None? || k < r.value) ==> s[k] !in chars
    decreases |s| - i
  {
    if i == |s| then None
    else if s[i] in chars then Some(i)
    else FindFrom(s, i + 1, chars)
  }

  /** A run free of `chars` ends where the first of them is. */
  lemma {:induction false} FindFromRun(s: string, i: nat, j: nat, chars: set<char>)
    requires i <= j < |s| && s[j] in chars
    requires forall k :: i <= k < j ==> s[k] !in chars
    ensures FindFrom(s, i, chars) == Some(j)
    decreases j - i
  {
    if i < j {
      FindFromRun(s, i + 1, j, chars);
    }
  }

  const SingleQuote := {'\''}
  const Quotes := {'\'', '"'}

  /** The two digit runs a coordinate pattern captures, and what follows the second. */
  datatype Pair = Pair(x: string, y: string, rest: string)

  /** An optional literal at the start of `s`, consumed when present. */
  function Optional(s: string, lit: string, allowed: bool): (r: string)
    ensures |r| <= |s|
    ensures allowed && lit <= s ==> s == lit + r
    ensures !(allowed && lit <= s) ==> r == s
  {
    if allowed && lit <= s then s[|lit|..] else s
  }

  /** `(\d+)` at the start of `s`: the maximal digit run and what follows it. */
  function Number(s: string): (r: Option<(string, string)>)
    ensures r.Some? ==> |r.value.0| > 0 && Text.AllDigits(r.value.0) && s == r.value.0 + r.value.1
    ensures r.Some? ==> |r.value.1| == 0 || !Text.IsDigit(r.value.1[0])
    ensures r.None? <==> |s| == 0 || !Text.IsDigit(s[0])
  {
    var n := Text.LeadingDigits(s);
    assert s == s[..n] + s[n..];
    if n == 0 then None else Some((s[..n], s[n..]))
  }

  /** `(?:x=)?(\d+),\s*(?:y=)?(\d+)` when `named`, `(\d+),\s*(\d+)` otherwise, matched at
      the start of `s`; `rest` is what follows the second number. Every quantifier is greedy
      and backtracking cannot help, so each one takes all it can. */
  function NumberPair(s: string, named: bool): (r: Option<Pair>)
    ensures r.Some? ==> |r.value.x| > 0 && Text.AllDigits(r.value.x) && |r.value.y| > 0 && Text.AllDigits(r.value.y)
    ensures r.Some? ==> |r.value.rest| < |s| && (|r.value.rest| == 0 || !Text.IsDigit(r.value.rest[0]))
    ensures (|s| == 0 || !Text.IsDigit(s[0])) && !(named && "x=" <= s) ==> r.None?
  {
    match Number(Optional(s, "x=", named))
    case None => None
    case Some((dx, afterX)) =>
      if |afterX| == 0 || afterX[0] != ',' then None
      else match Number(Optional(Text.TrimStart(afterX[1..]), "y=", named))
        case None => None
        case Some((dy, rest)) => Some(Pair(dx, dy, rest))
  }

  /** A digit run followed by a non-digit is read as that run. */
  lemma {:induction false} DigitsAfter(d: string, rest: string)
    requires |d| > 0 && Text.AllDigits(d)
    requires |rest| == 0 || !Text.IsDigit(rest[0])
    ensures Number(d + rest) == Some((d, rest))
  {
    Text.LeadingDigitsOf(d, rest);
  }

  /** Two digit runs written `dx, dy` are captured as they are. */
  lemma {:induction false} NumberPairOf(dx: string, dy: string, rest: string, named: bool)
    requires |dx| > 0 && Text.AllDigits(dx) && |dy| > 0 && Text.AllDigits(dy)
    requires |rest| == 0 || !Text.IsDigit(rest[0])
    ensures NumberPair(dx + ", " + dy + rest, named) == Some(Pair(dx, dy, rest))
  {
    var s := dx + ", " + dy + rest;
    var tail := dy + rest;
    var afterX := ", " + tail;
    assert s == dx + afterX;
    assert Optional(s, "x=", named) == s by {
      assert s[0] == dx[0];
    }
    DigitsAfter(dx, afterX);
    assert afterX[1..] == " " + tail;
    Text.TrimStartAfterSpaces(" ", tail);
    assert Optional(tail, "y=", named) == tail by {
      assert tail[0] == dy[0];
    }
    DigitsAfter(dy, rest);
  }

  /** The keyword spelling `x=dx, y=dy` is refused where names are not allowed. */
  lemma {:induction false} NumberPairNamedRefused(dx: string, dy: string, rest: string)
    ensures NumberPair("x=" + dx + ", y=" + dy + rest, false).None?
  {
    var s := "x=" + dx + ", y=" + dy + rest;
    assert s[0] == 'x';
  }

  /** The keyword spelling `x=dx, y=dy` is read where names are allowed. */
  lemma {:induction false} NumberPairNamedOf(dx: string, dy: string, rest: string)
    requires |dx| > 0 && Text.AllDigits(dx) && |dy| > 0 && Text.AllDigits(dy)
    requires |rest| == 0 || !Text.IsDigit(rest[0])
    ensures NumberPair("x=" + dx + ", y=" + dy + rest, true) == Some(Pair(dx, dy, rest))
  {
    var tail := dy + rest;
    var afterX := ", y=" + tail;
    assert "x=" + dx + ", y=" + dy + rest == "x=" + (dx + afterX);
    OptionalTaken("x=", dx + afterX);
    DigitsAfter(dx, afterX);
    assert afterX[1..] == " " + ("y=" + tail);
    Text.TrimStartAfterSpaces(" ", "y=" + tail);
    OptionalTaken("y=", tail);
    DigitsAfter(dy, rest);
  }

  /** An allowed optional literal that is there is taken off. */
  lemma {:induction false} OptionalTaken(lit: string, rest: string)
    ensures Optional(lit + rest, lit, true) == rest
  {
    assert lit <= lit + rest;
  }

  /** Two numbers written as the client writes them (`x, y`) are captured as their digits. */
  lemma {:induction false} NumberPairRendered(x: nat, y: nat, rest: string, named: bool)
    requires |rest| == 0 || !Text.IsDigit(rest[0])
    ensures NumberPair(Client.Coordinates(x, y) + rest, named) == Some(Pair(Text.NatToString(x), Text.NatToString(y), rest))
  {
    NumberPairOf(Text.NatToString(x), Text.NatToString(y), rest, named);
  }

  /** The most digits `int` converts from text (`sys.get_int_max_str_digits()`, Python 3.11). */
  const IntMaxStrDigits := 4300

  /** The message of the ValueError `int` raises on a longer digit run of length `n`. */
  function IntLimitError(n: nat): (m: string)
    ensures IsIntLimitError(m)
  {
    IntLimitPrefix + Text.NatToString(n) + " digits; use sys.set_int_max_str_digits() to increase the limit"
  }

  /** The part of that message before the digit count. */
  const IntLimitPrefix := "Exceeds the limit (4300) for integer string conversion: value has "

  /** `int` of a captured digit run: its value, or the ValueError for a run over the limit. */
  function IntOf(d: string): (r: Outcome<nat>)
    requires Text.AllDigits(d)
    ensures r.Raised? <==> |d| > IntMaxStrDigits
    ensures r.Raised? ==> r.message == IntLimitError(|d|)
    ensures r.Returned? ==> r.value == Text.DigitsValue(d)
  {
    if |d| > IntMaxStrDigits then Raised(IntLimitError(|d|)) else Returned(Text.DigitsValue(d))
  }

  /** Numbers `str` can write: Python 3.11 refuses to write an int of more digits than `int`
      reads, so these are the numbers a script can ever be sent. */
  predicate Writable(n: nat) {
    |Text.NatToString(n)| <= IntMaxStrDigits
  }

  /** `int(str(n)) == n` for every number `str` can write. */
  lemma {:induction false} IntOfWritten(n: nat)
    requires Writable(n)
    ensures IntOf(Text.NatToString(n)) == Returned(n)
  {
    Text.NatToStringRoundTrip(n);
  }

  /** `x, y = int(group(1)), int(group(2))`: the first number is converted first, so its
      error is the one raised when both are too long. */
  function PairValues(p: Pair): (r: Outcome<(nat, nat)>)
    requires Text.AllDigits(p.x) && Text.AllDigits(p.y)
    ensures r.Returned? <==> |p.x| <= IntMaxStrDigits && |p.y| <= IntMaxStrDigits
    ensures r.Returned? ==> r.value == (Text.DigitsValue(p.x), Text.DigitsValue(p.y))
    ensures r.Raised? ==> r.message == IntLimitError(if |p.x| > IntMaxStrDigits then |p.x| else |p.y|)
  {
    match IntOf(p.x)
    case Raised(m) => Raised(m)
    case Returned(x) =>
      match IntOf(p.y)
      case Raised(m) => Raised(m)
      case Returned(y) => Returned((x, y))
  }

  /** The coordinates the client writes convert back to themselves. */
  lemma {:induction false} PairValuesWritten(x: nat, y: nat, rest: string)
    requires Writable(x) && Writable(y)
    ensures PairValues(Pair(Text.NatToString(x), Text.NatToString(y), rest)) == Returned((x, y))
  {
    IntOfWritten(x);
    IntOfWritten(y);
  }

  /** `["'](.+?)["']` at the start of `s`: the shortest non-empty run of non-newline
      characters between an opening quote and a following quote of either kind. */
  function LazyQuoted(s: string): (r: Option<string>)
    ensures r.Some? ==> |s| >= |r.value| + 2 && s[0] in Quotes && s[1..|r.value| + 1] == r.value
    ensures r.Some? ==> s[|r.value| + 1] in Quotes && |r.value| >= 1 && '\n' !in r.value
    ensures r.Some? ==> forall k :: 1 <= k < |r.value| ==> r.value[k] !in Quotes
  {
    if |s| < 3 || s[0] !in Quotes then None
    else match FindFrom(s, 2, Quotes)
      case None => None
      case Some(j) => if '\n' in s[1..j] then None else Some(s[1..j])
  }

  /** A text without quotes or newlines, quoted and followed by anything, is read back. */
  lemma {:induction false} LazyQuotedRendered(text: string, rest: string)
    requires |text| >= 1 && '\n' !in text
    requires forall k :: 0 <= k < |text| ==> text[k] !in Quotes
    ensures LazyQuoted("'" + text + "'" + rest) == Some(text)
  {
    var s := "'" + text + "'" + rest;
    assert s[1..|text| + 1] == text;
    assert s[|text| + 1] == '\'';
    assert forall k :: 2 <= k < |text| + 1 ==> s[k] == text[k - 1];
    assert FindFrom(s, 2, Quotes) == Some(|text| + 1);
  }

  /** `re.findall(r"'([^']+)'", s)`: the non-empty quote-free runs between single quotes,
      scanning left to right; a quote with nothing before the next one starts no match. */
  function FindQuoted(s: string): (r: seq<string>)
    ensures forall k :: 0 <= k < |r| ==> |r[k]| > 0 && '\'' !in r[k]
    ensures '\'' !in s ==> r == []
    decreases |s|
  {
    if |s| == 0 then []
    else if s[0] != '\'' then FindQuoted(s[1..])
    else match FindFrom(s, 1, SingleQuote)
      case None => []
      case Some(j) => if j == 1 then FindQuoted(s[1..]) else [s[1..j]] + FindQuoted(s[j + 1..])
  }

  /** Text without single quotes before the first match changes nothing. */
  lemma {:induction false} FindQuotedSkip(p: string, s: string)
    requires '\'' !in p
    ensures FindQuoted(p + s) == FindQuoted(s)
    decreases |p|
  {
    if |p| > 0 {
      assert (p + s)[0] == p[0] && p[0] != '\'';
      assert (p + s)[1..] == p[1..] + s;
      assert '\'' !in p[1..];
      assert FindQuoted(p + s) == FindQuoted((p + s)[1..]);
      FindQuotedSkip(p[1..], s);
    } else {
      assert p + s == s;
    }
  }

  /** The quoted keys of a `hotkey` call, as the client writes them, are all found, in order. */
  lemma {:induction false} FindQuotedHotkeyArgs(keys: seq<string>, tail: string)
    requires |keys| > 0
    requires forall k :: 0 <= k < |keys| ==> |keys[k]| > 0 && '\'' !in keys[k]
    requires '\'' !in tail
    ensures FindQuoted(Client.HotkeyArgs(keys) + tail) == keys
    decreases |keys|
  {
    var k0 := keys[0];
    if |keys| == 1 {
      HotkeyArgsCons(keys);
      FindQuotedFirst(k0, tail);
      assert FindQuoted(tail) == [];
    } else {
      var rest := Client.HotkeyArgs(keys[1..]) + tail;
      HotkeyArgsCons(keys);
      assert Client.HotkeyArgs(keys) + tail == "'" + k0 + "'" + (", " + rest);
      FindQuotedFirst(k0, ", " + rest);
      FindQuotedSkip(", ", rest);
      FindQuotedHotkeyArgs(keys[1..], tail);
      assert keys == [k0] + keys[1..];
    }
  }

  /** The argument list of `hotkey` is the first key quoted, then ", " and the others. */
  lemma {:induction false} HotkeyArgsCons(keys: seq<string>)
    requires |keys| > 0
    ensures |keys| == 1 ==> Client.HotkeyArgs(keys) == "'" + keys[0] + "'"
    ensures |keys| > 1 ==> Client.HotkeyArgs(keys) == "'" + keys[0] + "'" + ", " + Client.HotkeyArgs(keys[1..])
  {
    var q := Client.QuoteAll(keys);
    if |keys| > 1 {
      assert q[1..] == Client.QuoteAll(keys[1..]);
    }
  }

  /** A quoted key at the start is the first match; the search goes on after its closing quote. */
  lemma {:induction false} FindQuotedFirst(k0: string, after: string)
    requires |k0| > 0 && '\'' !in k0
    ensures FindQuoted("'" + k0 + "'" + after) == [k0] + FindQuoted(after)
  {
    var s := "'" + k0 + "'" + after;
    assert forall i :: 1 <= i < |k0| + 1 ==> s[i] == k0[i - 1];
    FindFromRun(s, 1, |k0| + 1, SingleQuote);
    assert s[1..|k0| + 1] == k0;
    assert s[|k0| + 2..] == after;
  }

  /** `'([^']+)'\)` at the start of `s`: a single-quoted key closed by a parenthesis. */
  function QuotedKeyCall(s: string): (r: Option<string>)
    ensures r.Some? ==> |s| >= |r.value| + 3 && s[..|r.value| + 3] == "'" + r.value + "')"
    ensures r.Some? ==> |r.value| > 0 && '\'' !in r.value
  {
    if |s| < 4 || s[0] != '\'' then None
    else match FindFrom(s, 1, SingleQuote)
      case None => None
      case Some(j) =>
        if j >= 2 && j + 1 < |s| && s[j + 1] == ')' then
          assert s[..j + 2] == "'" + s[1..j] + "')";
          Some(s[1..j])
        else None
  }

  /** Messages of the ValueError `int` raises on a digit run over the limit. */
  predicate IsIntLimitError(m: string) {
    IntLimitPrefix <= m
  }

  /** The commands that carry a pair of coordinates. */
  datatype Pointer = Move | Click | Double | Right

  function Pointing(kind: Pointer, x: nat, y: nat): (c: Command)
    ensures c.MoveTo? <==> kind == Move
    ensures c.ClickAt? <==> kind == Click
    ensures c.DoubleClick? <==> kind == Double
    ensures c.RightClick? <==> kind == Right
  {
    match kind
    case Move => MoveTo(x, y)
    case Click => ClickAt(x, y)
    case Double => DoubleClick(x, y)
    case Right => RightClick(x, y)
  }

  /** What a matched coordinate pattern leads to once `int` has read both numbers: the
      command at those coordinates, or the ValueError of the first number over the limit. */
  function PointerCommand(kind: Pointer, p: Pair): (r: Outcome<Command>)
    requires Text.AllDigits(p.x) && Text.AllDigits(p.y)
    ensures r.Raised? <==> |p.x| > IntMaxStrDigits || |p.y| > IntMaxStrDigits
    ensures r.Raised? ==> IsIntLimitError(r.message)
    ensures r.Returned? ==> r.value == Pointing(kind, Text.DigitsValue(p.x), Text.DigitsValue(p.y))
  {
    match PairValues(p)
    case Raised(m) =>
      assert m == IntLimitError(if |p.x| > IntMaxStrDigits then |p.x| else |p.y|);
      Raised(m)
    case Returned((x, y)) => Returned(Pointing(kind, x, y))
  }

  /** Coordinates as the client writes them give the command at those coordinates. */
  lemma {:induction false} PointerWritten(kind: Pointer, x: nat, y: nat, rest: string)
    requires Writable(x) && Writable(y)
    ensures PointerCommand(kind, Pair(Text.NatToString(x), Text.NatToString(y), rest)) == Returned(Pointing(kind, x, y))
  {
    PairValuesWritten(x, y, rest);
  }

  /** `(-?\d+)` at the start of `s`, then `int` of the capture: no match, or the number, or
      the ValueError for more digits than the limit (the sign is not a digit). */
  function SignedInt(s: string): (r: Option<Outcome<int>>)
    ensures r.None? <==> |Optional(s, "-", true)| == 0 || !Text.IsDigit(Optional(s, "-", true)[0])
    ensures r.Some? && r.value.Returned? && r.value.value < 0 ==> |s| > 0 && s[0] == '-'
    ensures |s| > 0 && Text.IsDigit(s[0]) ==> r.Some? && (r.value.Returned? ==> r.value.value >= 0)
    ensures r.Some? && r.value.Raised? ==> Text.LeadingDigits(Optional(s, "-", true)) > IntMaxStrDigits
    ensures r.Some? && r.value.Raised? ==> r.value.message == IntLimitError(Text.LeadingDigits(Optional(s, "-", true)))
  {
    var digits := Optional(s, "-", true);
    match Number(digits)
    case None => None
    case Some((d, rest)) =>
      Text.LeadingDigitsOf(d, rest);
      match IntOf(d)
      case Raised(m) => Some(Raised(m))
      case Returned(v) => Some(Returned(if "-" <= s then -(v as int) else v))
  }

  /** A number as `str` writes it, followed by a non-digit, is read back. */
  lemma {:induction false} SignedIntWritten(i: int, rest: string)
    requires Writable(if i < 0 then -i else i)
    requires |rest| == 0 || !Text.IsDigit(rest[0])
    ensures SignedInt(Text.IntToString(i) + rest) == Some(Returned(i))
  {
    var n: nat := if i < 0 then -i else i;
    var d := Text.NatToString(n);
    DigitsAfter(d, rest);
    IntOfWritten(n);
    if i < 0 {
      assert Text.IntToString(i) + rest == "-" + (d + rest);
      assert Optional("-" + (d + rest), "-", true) == d + rest;
    } else {
      assert (d + rest)[0] == d[0];
      assert !("-" <= d + rest);
    }
  }

  /** The module prefix every recognised action starts with. */
  const Module := "pyautogui."

  /** The command for the quoted keys of a hotkey line, each looked up in a script's key
      map: nothing when there are none. */
  function KeysCommand(keyMap: string -> string, found: seq<string>): (c: Command)
    ensures c.NoKeys? <==> |found| == 0
    ensures c.Hotkey? ==> |c.keys| == |found| && forall i :: 0 <= i < |found| ==> c.keys[i] == keyMap(found[i])
  {
    if |found| == 0 then NoKeys else Hotkey(seq(|found|, i requires 0 <= i < |found| => keyMap(found[i])))
  }

  /** Keys a key map leaves alone. */
  predicate Fixes(keyMap: string -> string, keys: seq<string>) {
    forall i :: 0 <= i < |keys| ==> keyMap(keys[i]) == keys[i]
  }

  /** The quoted words of a hotkey line, as the client writes it, are its keys; keys the map
      leaves alone come back as they were. */
  lemma {:induction false} HotkeyLineKeys(keyMap: string -> string, keys: seq<string>, a: string, tail: string)
    requires |keys| > 0 && Fixes(keyMap, keys)
    requires forall k :: 0 <= k < |keys| ==> |keys[k]| > 0 && '\'' !in keys[k]
    requires tail == Client.HotkeyArgs(keys) + ")" && a == (Module + "hotkey(") + tail
    ensures KeysCommand(keyMap, FindQuoted(a)) == Hotkey(keys)
  {
    FindQuotedSkip(Module + "hotkey(", tail);
    FindQuotedHotkeyArgs(keys, ")");
  }

  /** A call `lit` (the function name and its opening parenthesis) followed by two numbers,
      closed by `)` when `closed`; keyword spellings only when `named`. */
  function PairCall(call: string, lit: string, named: bool, closed: bool): (r: Option<Pair>)
    ensures r.Some? ==> lit <= call && Text.AllDigits(r.value.x) && Text.AllDigits(r.value.y)
    ensures r.Some? && closed ==> |r.value.rest| > 0 && r.value.rest[0] == ')'
  {
    match After(call, lit)
    case None => None
    case Some(args) =>
      match NumberPair(args, named)
      case None => None
      case Some(p) => if !closed || (|p.rest| > 0 && p.rest[0] == ')') then Some(p) else None
  }

  /** A call `lit` followed by a lazily quoted text. */
  function TextCall(call: string, lit: string): (r: Option<string>)
    ensures r.Some? ==> lit <= call && |r.value| > 0
  {
    match After(call, lit)
    case None => None
    case Some(args) => LazyQuoted(args)
  }

  /** `press('key')`. */
  function PressCall(call: string): (r: Option<string>)
    ensures r.Some? ==> "press('" + r.value + "')" <= call && |r.value| > 0 && '\'' !in r.value
  {
    match After(call, "press(")
    case None => None
    case Some(args) =>
      var key := QuotedKeyCall(args);
      assert key.Some? ==> "press('" + key.value + "')" == "press(" + args[..|key.value| + 3];
      key
  }

  /** `scroll(n` for a possibly negative whole number, and `int` of it. */
  function ScrollCall(call: string): (r: Option<Outcome<int>>)
    ensures r.Some? ==> "scroll(" <= call
    ensures r.Some? && r.value.Raised? ==> IsIntLimitError(r.value.message)
  {
    match After(call, "scroll(")
    case None => None
    case Some(args) => SignedInt(args)
  }

  /** The `parameters` of one setup entry: a command and a number of seconds, either absent. */
  datatype SetupParams = SetupParams(command: Option<seq<string>>, seconds: Option<real>)

  /** One entry of a task file's `config` list: its `type` and `parameters`, either absent. */
  datatype SetupEntry = SetupEntry(kind: Option<string>, parameters: Option<SetupParams>)

  /** `params.get("command", [])`. */
  function CommandOf(e: SetupEntry): seq<string> {
    if e.parameters.Some? then e.parameters.value.command.GetOr([]) else []
  }

  /** `params.get("seconds", 1)`. */
  function SecondsOf(e: SetupEntry): real {
    if e.parameters.Some? then e.parameters.value.seconds.GetOr(1.0) else 1.0
  }

  /** The largest count of nanoseconds `time.sleep` can hold: a signed 64-bit integer. */
  const MaxNanoseconds := 9223372036854775807.0

  /** The message of the OverflowError `time.sleep` raises for a duration out of range. */
  const SleepOverflowError := "timestamp too large to convert to C _PyTime_t"

  /** What `time.sleep(seconds)` raises, if anything, as Python 3.11 does it: the duration is
      first turned into nanoseconds, rounded away from zero, which must fit a signed 64-bit
      integer (OverflowError); then a negative duration is refused (ValueError). */
  function SleepError(seconds: real): (r: Option<string>)
    ensures r.None? <==> 0.0 <= seconds && seconds * 1000000000.0 <= MaxNanoseconds
    ensures seconds * 1000000000.0 > MaxNanoseconds ==> r == Some(SleepOverflowError)
    ensures 0.0 <= seconds ==> r.None? || r == Some(SleepOverflowError)
  {
    var ns := seconds * 1000000000.0;
    if ns > MaxNanoseconds || ns < -MaxNanoseconds - 1.0 then Some(SleepOverflowError)
    else if seconds < 0.0 then Some("sleep length must be non-negative")
    else None
  }

  /** The longest whole number of seconds `time.sleep` accepts is 9223372036; one more
      overflows, and so do the ten billion seconds of `sleep(10000000000)`. */
  lemma SleepBound()
    ensures SleepError(9223372036.0).None?
    ensures SleepError(9223372037.0) == Some(SleepOverflowError)
    ensures SleepError(10000000000.0) == Some(SleepOverflowError)
    ensures SleepError(0.0).None?
  {
  }

  /** `run_task_setup` over a whole list, given what a script does for one entry: each
      entry in turn. An entry that fails is logged and skipped, so it never stops the rest. */
  function SetupTrace(effect: SetupEntry -> seq<Effect>, config: seq<SetupEntry>): (r: seq<Effect>)
    ensures (forall e :: |effect(e)| <= 1) ==> |r| <= |config|
    decreases |config|
  {
    if |config| == 0 then [] else effect(config[0]) + SetupTrace(effect, config[1..])
  }

  /** Setting up two lists one after the other is setting up the joined list. */
  lemma {:induction false} SetupTraceAppend(effect: SetupEntry -> seq<Effect>, a: seq<SetupEntry>, b: seq<SetupEntry>)
    ensures SetupTrace(effect, a + b) == SetupTrace(effect, a) + SetupTrace(effect, b)
    decreases |a|
  {
    if |a| == 0 {
      assert a + b == b;
    } else {
      assert (a + b)[0] == a[0];
      assert (a + b)[1..] == a[1..] + b;
      SetupTraceAppend(effect, a[1..], b);
    }
  }

  /** An entry that does nothing, or whose failure is swallowed, leaves the entries around it
      as they would be without it. */
  lemma {:induction false} SetupTraceSkips(effect: SetupEntry -> seq<Effect>, a: seq<SetupEntry>, e: SetupEntry, b: seq<SetupEntry>)
    requires effect(e) == []
    ensures SetupTrace(effect, a + [e] + b) == SetupTrace(effect, a) + SetupTrace(effect, b)
  {
    SetupTraceAppend(effect, a + [e], b);
    SetupTraceAppend(effect, a, [e]);
    assert SetupTrace(effect, [e]) == effect(e) + SetupTrace(effect, []);
  }

  /** Setup with entries that never ask for a screenshot never asks for one. */
  lemma {:induction false} SetupTraceBlind(effect: SetupEntry -> seq<Effect>, config: seq<SetupEntry>)
    requires forall e :: Request(Client.Screenshot) !in effect(e)
    ensures Request(Client.Screenshot) !in SetupTrace(effect, config)
    decreases |config|
  {
    if |config| > 0 {
      SetupTraceBlind(effect, config[1..]);
    }
  }

  /** A task file: its `instruction` and `config`, either absent. */
  datatype TaskFile = TaskFile(instruction: Option<string>, config: Option<seq<SetupEntry>>)

  const ExamplesParts := ["vendor", "OSWorld", "evaluation_examples", "examples"]

  /** `vendor/OSWorld/evaluation_examples/examples`. */
  const ExamplesDir := Text.Join("/", ExamplesParts)

  /** `Path(ExamplesDir)`. */
  const ExamplesPath := PurePath.Path("", ExamplesParts)

  /** Where `load_task_config` looks for a task: `Path(ExamplesDir) / domain / f"{task_id}.json"`
      as `str` renders it. */
  function TaskPath(domain: string, taskId: string): (r: string)
    ensures PurePath.Part(domain) && '/' !in taskId ==> r == ExamplesDir + "/" + domain + "/" + taskId + ".json"
    ensures domain == "" && '/' !in taskId ==> r == ExamplesDir + "/" + taskId + ".json"
  {
    var name := taskId + ".json";
    if '/' in taskId then PurePath.Str(PurePath.Join(PurePath.Join(ExamplesPath, domain), name))
    else
      JsonNamePart(taskId);
      if PurePath.Part(domain) then
        PurePath.JoinTwoParts(ExamplesPath, domain, name);
        PurePath.Str(PurePath.Join(PurePath.Join(ExamplesPath, domain), name))
      else if domain == "" then
        PurePath.JoinEmptyThenPart(ExamplesPath, name);
        PurePath.Str(PurePath.Join(PurePath.Join(ExamplesPath, domain), name))
      else PurePath.Str(PurePath.Join(PurePath.Join(ExamplesPath, domain), name))
  }

  /** The examples directory parses into its four parts and renders as itself. */
  lemma ExamplesDirParts()
    ensures PurePath.Parse(ExamplesDir) == ExamplesPath
    ensures PurePath.Str(ExamplesPath) == ExamplesDir
  {
    assert forall k :: 0 <= k < |ExamplesParts| ==> PurePath.Part(ExamplesParts[k]);
    PurePath.RelativeRoundTrip(ExamplesParts);
  }

  /** A task file name whose id holds no separator is a single part. */
  lemma JsonNamePart(taskId: string)
    requires '/' !in taskId
    ensures PurePath.Part(taskId + ".json")
  {
    assert '/' !in ".json";
    assert |taskId + ".json"| > 1;
  }

  /** An absolute domain replaces the examples directory. */
  lemma {:induction false} AbsoluteDomainTaskPath(dir: string, taskId: string)
    requires PurePath.Part(dir) && '/' !in taskId
    ensures TaskPath("/" + dir, taskId) == "/" + dir + "/" + taskId + ".json"
  {
    JsonNamePart(taskId);
    var d := "/" + dir;
    assert d[0] == '/' && d[1..] == dir && d[1] == dir[0] != '/';
    assert PurePath.Anchor(d) == "/";
    Text.SplitWithoutSeparator(dir, '/');
    assert Text.Split(d, '/') == ["", dir];
    assert PurePath.Parts(["", dir]) == [dir];
    var p := PurePath.Join(ExamplesPath, d);
    assert p == PurePath.Path("/", [dir]);
    PurePath.JoinPart(p, taskId + ".json");
  }

  /** `load_task_config`: the task file, or FileNotFoundError when it does not exist. */
  function LoadTaskConfig(files: map<string, TaskFile>, domain: string, taskId: string): (r: Outcome<TaskFile>)
    ensures r.Returned? <==> TaskPath(domain, taskId) in files
    ensures r.Returned? ==> r.value == files[TaskPath(domain, taskId)]
    ensures r.Raised? ==> r.message == "Task file not found: " + TaskPath(domain, taskId)
  {
    var path := TaskPath(domain, taskId);
    if path in files then Returned(files[path]) else Raised("Task file not found: " + path)
  }

  /** What an agent's `predict` gives back at one step: a response and its action strings,
      or the message of the exception it raised. */
  datatype Prediction = Predicted(response: string, actions: seq<string>) | PredictionFailed(message: string)

  const Done := "DONE"
  const Fail := "FAIL"
  const Wait := "WAIT"

  /** The action strings the loops execute: all but the DONE, FAIL and WAIT markers. */
  function Executable(actions: seq<string>): (r: seq<string>)
    ensures |r| <= |actions|
    ensures forall k :: 0 <= k < |r| ==> r[k] != Done && r[k] != Fail && r[k] != Wait
    ensures forall a :: a in actions && a != Done && a != Fail && a != Wait ==> a in r
  {
    if |actions| == 0 then []
    else if actions[0] in [Done, Fail, Wait] then Executable(actions[1..])
    else [actions[0]] + Executable(actions[1..])
  }

  /** Filtering a joined list filters each part: the kept actions stay in their order. */
  lemma {:induction false} ExecutableAppend(xs: seq<string>, ys: seq<string>)
    ensures Executable(xs + ys) == Executable(xs) + Executable(ys)
    decreases |xs|
  {
    if |xs| == 0 {
      assert xs + ys == ys;
    } else {
      assert (xs + ys)[0] == xs[0];
      assert (xs + ys)[1..] == xs[1..] + ys;
      ExecutableAppend(xs[1..], ys);
    }
  }

  /** A single action is kept exactly when it is not DONE, FAIL or WAIT. */
  lemma ExecutableOne(a: string)
    ensures Executable([a]) == if a == Done || a == Fail || a == Wait then [] else [a]
  {
  }

  /** A prediction that ends a loop: it failed, or its actions hold DONE or FAIL. */
  predicate Stops(p: Prediction) {
    p.PredictionFailed? || Done in p.actions || Fail in p.actions
  }

  /** The step a loop reports when it runs no step at all: Python leaves `step` unbound. */
  const UnboundStep := "cannot access local variable 'step' where it is not associated with a value"

  /** How many screenshots a run of effects takes. */
  function Screenshots(e: seq<Effect>): nat
    decreases |e|
  {
    if |e| == 0 then 0
    else (if e[0] == Request(Client.Screenshot) then 1 else 0) + Screenshots(e[1..])
  }

  lemma {:induction false} ScreenshotsAppend(a: seq<Effect>, b: seq<Effect>)
    ensures Screenshots(a + b) == Screenshots(a) + Screenshots(b)
    decreases |a|
  {
    if |a| == 0 {
      assert a + b == b;
    } else {
      assert (a + b)[0] == a[0];
      assert (a + b)[1..] == a[1..] + b;
      ScreenshotsAppend(a[1..], b);
    }
  }

  /** Effects that are not a screenshot request count for none. */
  lemma {:induction false} NoScreenshots(e: seq<Effect>)
    requires Request(Client.Screenshot) !in e
    ensures Screenshots(e) == 0
    decreases |e|
  {
    if |e| > 0 {
      assert e[0] in e;
      assert forall x :: x in e[1..] ==> x in e;
      NoScreenshots(e[1..]);
    }
  }
}

=== FILE: storage.dfy ===
/** The run store (green_agent/storage.py): the `runs` table as a map from assessment id to
    row, and the append-only `actions` audit log. */
module Storage {
  import opened Wrappers

  /** One row of the `runs` table; NULL columns are None. */
  datatype Row = Row(
    assessmentId: string,
    taskId: string,
    whiteAgent: string,
    status: string,
    success: Option<int>,
    steps: Option<int>,
    timeSec: Option<real>,
    failureReason: Option<string>,
    artifactsDir: string,
    createdAt: real)

  /** One row of the `actions` table; `args` is the JSON text of the arguments. */
  datatype ActionEntry = ActionEntry(assessmentId: string, step: int, op: string, args: string, ok: int, ts: real)

  datatype Store = Store(runs: map<string, Row>, actions: seq<ActionEntry>)

  const EmptyStore := Store(map[], [])

  /** The keyword arguments of `update_status` besides the status: Some(v) for every
      column named, None for every column left alone. */
  datatype Updates = Updates(
    taskId: Option<string>,
    whiteAgent: Option<string>,
    success: Option<Option<int>>,
    steps: Option<Option<int>>,
    timeSec: Option<Option<real>>,
    failureReason: Option<Option<string>>,
    artifactsDir: Option<string>,
    createdAt: Option<real>)

  const NoUpdates := Updates(None, None, None, None, None, None, None, None)

  /** Every row is stored under its own assessment id. */
  ghost predicate WellKeyed(s: Store) {
    forall id :: id in s.runs ==> s.runs[id].assessmentId == id
  }

  /** `os.path.join(dir, name)` for two components. */
  function PathJoin(dir: string, name: string): (p: string)
    ensures |name| > 0 && name[0] == '/' ==> p == name
    ensures (|name| == 0 || name[0] != '/') && |dir| > 0 && dir[|dir| - 1] != '/' ==> p == dir + "/" + name
    ensures (|name| == 0 || name[0] != '/') && (|dir| == 0 || dir[|dir| - 1] == '/') ==> p == dir + name
  {
    if |name| > 0 && name[0] == '/' then name
    else if |dir| == 0 || dir[|dir| - 1] == '/' then dir + name
    else dir + "/" + name
  }

  /** `create_run`: insert or replace the row of `id`, status "running" and every metric
      NULL; the result is the new store and the artifacts directory. */
  function CreateRun(s: Store, runsDir: string, id: string, taskId: string, whiteAgent: string, now: real): (r: (Store, string))
    ensures r.1 == PathJoin(runsDir, id)
    ensures id in r.0.runs && r.0.runs.Keys == s.runs.Keys + {id}
    ensures var row := r.0.runs[id];
      && row.assessmentId == id && row.taskId == taskId && row.whiteAgent == whiteAgent
      && row.status == "running"
      && row.success == None && row.steps == None && row.timeSec == None && row.failureReason == None
      && row.artifactsDir == r.1 && row.createdAt == now
    ensures forall other :: other in s.runs && other != id ==> r.0.runs[other] == s.runs[other]
    ensures r.0.actions == s.actions
    ensures WellKeyed(s) ==> WellKeyed(r.0)
  {
    var dir := PathJoin(runsDir, id);
    var row := Row(id, taskId, whiteAgent, "running", None, None, None, None, dir, now);
    (Store(s.runs[id := row], s.actions), dir)
  }

  function Override<T>(u: Option<T>, current: T): T {
    match u
    case Some(v) => v
    case None => current
  }

  /** The row after `UPDATE runs SET status = ?, <named columns> = ?`. */
  function Updated(row: Row, status: string, u: Updates): (r: Row)
    ensures r.assessmentId == row.assessmentId && r.status == status
    ensures r.taskId == (if u.taskId.Some? then u.taskId.value else row.taskId)
    ensures r.whiteAgent == (if u.whiteAgent.Some? then u.whiteAgent.value else row.whiteAgent)
    ensures r.success == (if u.success.Some? then u.success.value else row.success)
    ensures r.steps == (if u.steps.Some? then u.steps.value else row.steps)
    ensures r.timeSec == (if u.timeSec.Some? then u.timeSec.value else row.timeSec)
    ensures r.failureReason == (if u.failureReason.Some? then u.failureReason.value else row.failureReason)
    ensures r.artifactsDir == (if u.artifactsDir.Some? then u.artifactsDir.value else row.artifactsDir)
    ensures r.createdAt == (if u.createdAt.Some? then u.createdAt.value else row.createdAt)
  {
    Row(row.assessmentId, Override(u.taskId, row.taskId), Override(u.whiteAgent, row.whiteAgent), status,
      Override(u.success, row.success), Override(u.steps, row.steps), Override(u.timeSec, row.timeSec),
      Override(u.failureReason, row.failureReason), Override(u.artifactsDir, row.artifactsDir),
      Override(u.createdAt, row.createdAt))
  }

  /** `update_status`: set the status and the named columns of the row of `id`; the WHERE
      clause matches nothing when there is no such row, and then nothing changes. */
  function UpdateStatus(s: Store, id: string, status: string, u: Updates): (r: Store)
    ensures id !in s.runs ==> r == s
    ensures r.runs.Keys == s.runs.Keys && r.actions == s.actions
    ensures id in s.runs ==> r.runs[id] == Updated(s.runs[id], status, u)
    ensures forall other :: other in s.runs && other != id ==> r.runs[other] == s.runs[other]
    ensures WellKeyed(s) ==> WellKeyed(r)
  {
    if id in s.runs then Store(s.runs[id := Updated(s.runs[id], status, u)], s.actions) else s
  }

  /** `record_action`: append one audit entry; the runs table is untouched and the run
      need not exist. */
  function RecordAction(s: Store, id: string, step: int, op: string, args: string, ok: int, now: real): (r: Store)
    ensures r.runs == s.runs
    ensures |r.actions| == |s.actions| + 1 && r.actions[..|s.actions|] == s.actions
    ensures r.actions[|s.actions|] == ActionEntry(id, step, op, args, ok, now)
  {
    Store(s.runs, s.actions + [ActionEntry(id, step, op, args, ok, now)])
  }

  /** `fetch_run`: the whole row of `id`, or None. */
  function FetchRun(s: Store, id: string): (r: Option<Row>)
    ensures r.Some? <==> id in s.runs
    ensures r.Some? ==> r.value == s.runs[id]
  {
    if id in s.runs then Some(s.runs[id]) else None
  }

  /** Insert-or-replace: creating an existing run again forgets its metrics. */
  lemma {:induction false} CreateRunReplaces(s: Store, runsDir: string, id: string, taskId: string, whiteAgent: string,
                          now: real, status: string, u: Updates, taskId2: string, whiteAgent2: string, now2: real)
    ensures var s1 := UpdateStatus(CreateRun(s, runsDir, id, taskId, whiteAgent, now).0, id, status, u);
      var s2 := CreateRun(s1, runsDir, id, taskId2, whiteAgent2, now2).0;
      && s2.runs[id].status == "running"
      && s2.runs[id].success == None && s2.runs[id].steps == None
      && s2.runs[id].timeSec == None && s2.runs[id].failureReason == None
      && s2 == CreateRun(s, runsDir, id, taskId2, whiteAgent2, now2).0
  {
  }

  /** Reading back: a created run is fetched with the path that creation returned, and an
      update is seen by the next fetch. */
  lemma {:induction false} FetchAfterCreateAndUpdate(s: Store, runsDir: string, id: string, taskId: string, whiteAgent: string,
                                  now: real, status: string, u: Updates)
    ensures var (s1, dir) := CreateRun(s, runsDir, id, taskId, whiteAgent, now);
      && FetchRun(s1, id).Some? && FetchRun(s1, id).value.artifactsDir == dir
      && FetchRun(UpdateStatus(s1, id, status, u), id) == Some(Updated(s1.runs[id], status, u))
  {
  }

  /** The operations a caller performs on the store. */
  datatype Op =
    | Create(runsDir: string, id: string, taskId: string, whiteAgent: string, now: real)
    | Update(id: string, status: string, u: Updates)
    | Record(id: string, step: int, op: string, args: string, ok: int, now: real)

  function Apply(s: Store, op: Op): Store {
    match op
    case Create(dir, id, t, w, now) => CreateRun(s, dir, id, t, w, now).0
    case Update(id, st, u) => UpdateStatus(s, id, st, u)
    case Record(id, step, o, a, ok, now) => RecordAction(s, id, step, o, a, ok, now)
  }

  function ApplyAll(s: Store, ops: seq<Op>): Store
    decreases |ops|
  {
    if |ops| == 0 then s else ApplyAll(Apply(s, ops[0]), ops[1..])
  }

  /** Applying one or two operations in sequence. */
  lemma {:induction false} ApplyShort(s: Store, a: Op, b: Op)
    ensures ApplyAll(s, [a]) == Apply(s, a)
    ensures ApplyAll(s, [a, b]) == Apply(Apply(s, a), b)
  {
    assert [a][1..] == [];
    assert [a, b][1..] == [b];
    assert ApplyAll(s, [a, b]) == ApplyAll(Apply(s, a), [b]);
    assert [b][1..] == [];
    assert ApplyAll(Apply(s, a), [b]) == ApplyAll(Apply(Apply(s, a), b), []);
  }

  predicate Creates(op: Op, id: string) {
    op.Create? && op.id == id
  }

  /** A fetch never finds a run that no operation created, and every stored row sits under
      its own id: there is no partially populated record. */
  lemma {:induction false} FetchNeverCreated(s: Store, ops: seq<Op>, id: string)
    requires WellKeyed(s) && id !in s.runs
    requires forall k :: 0 <= k < |ops| ==> !Creates(ops[k], id)
    ensures FetchRun(ApplyAll(s, ops), id) == None
    ensures WellKeyed(ApplyAll(s, ops))
    decreases |ops|
  {
    if |ops| > 0 {
      var s1 := Apply(s, ops[0]);
      assert !Creates(ops[0], id);
      assert id !in s1.runs && WellKeyed(s1);
      FetchNeverCreated(s1, ops[1..], id);
    }
  }
}

=== FILE: task_converter.dfy ===
/** Conversion of a task file into the benchmark's task format (green_agent/task_converter.py). */
module TaskConverter {
  import opened Wrappers
  import opened JsonValues

  /** The keys of a task file the model reads; a key absent from the file is None. */
  datatype GreenTask = GreenTask(
    taskId: Option<string>,
    environment: Option<string>,
    goal: Option<string>,
    constraints: Option<map<string, int>>,
    hints: Option<seq<string>>)

  datatype Evaluator = Evaluator(func: string, resultType: string)

  /** What the converted task keeps of the original, for debugging. */
  datatype Metadata = Metadata(environment: Option<string>, constraints: map<string, int>, hints: seq<string>)

  datatype OsworldTask = OsworldTask(
    id: string,
    instruction: string,
    config: seq<Json>,
    evaluator: Evaluator,
    metadata: Metadata)

  const UnknownTaskId := "unknown_task"
  const BasicEvaluator := Evaluator("evaluator_basic", "basic")
  const DefaultMaxSteps := 15
  const DefaultMaxTimeSec := 600

  function Convert(t: GreenTask): (r: OsworldTask)
    ensures t.taskId.Some? ==> r.id == t.taskId.value
    ensures t.taskId.None? ==> r.id == UnknownTaskId
    ensures t.goal.Some? ==> r.instruction == t.goal.value
    ensures t.goal.None? ==> r.instruction == ""
    ensures r.config == [] && r.evaluator == BasicEvaluator
    ensures r.metadata.environment == t.environment
    ensures r.metadata.constraints == t.constraints.GetOr(map[])
    ensures r.metadata.hints == t.hints.GetOr([])
  {
    OsworldTask(
      t.taskId.GetOr(UnknownTaskId),
      t.goal.GetOr(""),
      [],
      BasicEvaluator,
      Metadata(t.environment, t.constraints.GetOr(map[]), t.hints.GetOr([])))
  }

  /** The setup list and the evaluator do not depend on the task at all. */
  lemma {:induction false} ConvertFixedParts(a: GreenTask, b: GreenTask)
    ensures Convert(a).config == Convert(b).config
    ensures Convert(a).evaluator == Convert(b).evaluator
  {
  }

  /** A task whose keys are all present can be rebuilt from its conversion: nothing it
      carries is lost. */
  function Recover(r: OsworldTask): GreenTask {
    GreenTask(Some(r.id), r.metadata.environment, Some(r.instruction),
      Some(r.metadata.constraints), Some(r.metadata.hints))
  }

  lemma {:induction false} RecoverConvert(t: GreenTask)
    requires t.taskId.Some? && t.goal.Some? && t.constraints.Some? && t.hints.Some?
    ensures Recover(Convert(t)) == t
  {
  }

  /** `constraints.get(key, default)` on the task's constraints (an absent mapping is empty). */
  function Constraint(t: GreenTask, key: string, default: int): (v: int)
    ensures t.constraints.Some? && key in t.constraints.value ==> v == t.constraints.value[key]
    ensures t.constraints.None? || key !in t.constraints.value ==> v == default
  {
    var c := t.constraints.GetOr(map[]);
    if key in c then c[key] else default
  }

  function ExtractMaxSteps(t: GreenTask, default: int): (v: int)
    ensures t.constraints.Some? && "max_steps" in t.constraints.value ==> v == t.constraints.value["max_steps"]
    ensures t.constraints.None? || "max_steps" !in t.constraints.value ==> v == default
  {
    Constraint(t, "max_steps", default)
  }

  function ExtractMaxTime(t: GreenTask, default: int): (v: int)
    ensures t.constraints.Some? && "max_time_sec" in t.constraints.value ==> v == t.constraints.value["max_time_sec"]
    ensures t.constraints.None? || "max_time_sec" !in t.constraints.value ==> v == default
  {
    Constraint(t, "max_time_sec", default)
  }

  /** The budgets read from a task are the ones its conversion carries: a stored 0 is kept,
      and the defaults (15 steps, 600 s) apply exactly when the key is missing. */
  lemma {:induction false} BudgetsSurviveConversion(t: GreenTask)
    ensures var c := Convert(t).metadata.constraints;
      && ExtractMaxSteps(t, DefaultMaxSteps) == (if "max_steps" in c then c["max_steps"] else 15)
      && ExtractMaxTime(t, DefaultMaxTimeSec) == (if "max_time_sec" in c then c["max_time_sec"] else 600)
  {
  }

  lemma {:induction false} ZeroStepsKept(t: GreenTask)
    requires t.constraints == Some(map["max_steps" := 0])
    ensures ExtractMaxSteps(t, DefaultMaxSteps) == 0
    ensures ExtractMaxTime(t, DefaultMaxTimeSec) == 600
  {
  }
}

=== FILE: text.dfy ===
/** The parts of Python's `str` behaviour the model relies on: `strip`, `rstrip(c)`, `in`,
    `startswith`, `split(sep)`, `sep.join`, `lower`, `int(digits)` and `str(int)`. */
module Text {

  /** Python's `str.isspace()` for one character: the characters `str.strip()` removes
      and the regular-expression class `\s` matches. */
  predicate IsSpace(c: char) {
    || c == ' '
    || ('\t' <= c <= '\r')
    || ('\U{1C}' <= c <= '\U{1F}')
    || c == '\U{85}' || c == '\U{A0}' || c == '\U{1680}'
    || ('\U{2000}' <= c <= '\U{200A}')
    || c == '\U{2028}' || c == '\U{2029}' || c == '\U{202F}' || c == '\U{205F}' || c == '\U{3000}'
  }

  /** `s.lstrip()`: the suffix of `s` left after dropping leading whitespace. */
  function TrimStart(s: string): (r: string)
    ensures |r| <= |s| && r == s[|s| - |r|..]
    ensures |r| > 0 ==> !IsSpace(r[0])
    ensures forall i :: 0 <= i < |s| - |r| ==> IsSpace(s[i])
    decreases |s|
  {
    if |s| > 0 && IsSpace(s[0]) then
      var r := TrimStart(s[1..]);
      assert forall i :: 1 <= i < |s| - |r| ==> s[i] == s[1..][i - 1];
      r
    else s
  }

  /** `s.rstrip()`: the prefix of `s` left after dropping trailing whitespace. */
  function TrimEnd(s: string): (r: string)
    ensures r <= s
    ensures |r| > 0 ==> !IsSpace(r[|r| - 1])
    ensures forall i :: |r| <= i < |s| ==> IsSpace(s[i])
    decreases |s|
  {
    if |s| > 0 && IsSpace(s[|s| - 1]) then TrimEnd(s[..|s| - 1]) else s
  }

  /** `s.strip()`: `s` without its leading and trailing whitespace. */
  function Strip(s: string): (r: string)
    ensures |r| <= |s|
    ensures |r| > 0 ==> !IsSpace(r[0]) && !IsSpace(r[|r| - 1])
  {
    TrimEnd(TrimStart(s))
  }

  /** A string already stripped is its own strip. */
  lemma {:induction false} StripStripped(s: string)
    requires |s| > 0 ==> !IsSpace(s[0]) && !IsSpace(s[|s| - 1])
    ensures Strip(s) == s
  {
  }

  /** Stripping twice is stripping once. */
  lemma {:induction false} StripIdempotent(s: string)
    ensures Strip(Strip(s)) == Strip(s)
  {
    StripStripped(Strip(s));
  }

  /** Leading whitespace followed by a non-space is exactly what `lstrip` removes. */
  lemma {:induction false} TrimStartAfterSpaces(w: string, s: string)
    requires forall i :: 0 <= i < |w| ==> IsSpace(w[i])
    requires |s| == 0 || !IsSpace(s[0])
    ensures TrimStart(w + s) == s
    decreases |w|
  {
    if |w| > 0 {
      assert (w + s)[1..] == w[1..] + s;
      TrimStartAfterSpaces(w[1..], s);
    }
  }

  /** Stripping introduces no character. */
  lemma {:induction false} StripKeepsOut(s: string, c: char)
    requires c !in s
    ensures c !in Strip(s)
  {
    var t := TrimStart(s);
    assert forall i :: 0 <= i < |t| ==> t[i] == s[|s| - |t| + i];
    assert forall i :: 0 <= i < |Strip(s)| ==> Strip(s)[i] == t[i];
  }

  /** `s.rstrip(c)` for a single character `c`. */
  function RStrip(s: string, c: char): (r: string)
    ensures r <= s
    ensures |r| > 0 ==> r[|r| - 1] != c
    ensures forall i :: |r| <= i < |s| ==> s[i] == c
    decreases |s|
  {
    if |s| > 0 && s[|s| - 1] == c then RStrip(s[..|s| - 1], c) else s
  }

  /** `sub in s`: `sub` occurs in `s` at some position. */
  predicate Contains(s: string, sub: string)
    decreases |s|
  {
    sub <= s || (|s| > 0 && Contains(s[1..], sub))
  }

  /** A text without some character of `sub` does not contain `sub`. */
  lemma {:induction false} MissingChar(s: string, sub: string, c: char)
    requires c in sub && c !in s
    ensures !Contains(s, sub)
    decreases |s|
  {
    if |s| > 0 {
      MissingChar(s[1..], sub, c);
    }
  }

  /** Whatever occurs in a prefix of `b` occurs in `b`. */
  lemma {:induction false} ContainsInPrefix(a: string, b: string, sub: string)
    requires a <= b && Contains(a, sub)
    ensures Contains(b, sub)
    decreases |a|
  {
    if !(sub <= a) {
      assert a[1..] <= b[1..];
      ContainsInPrefix(a[1..], b[1..], sub);
    }
  }

  /** Whatever occurs in a suffix of `s` occurs in `s`. */
  lemma {:induction false} ContainsInSuffix(s: string, k: int, sub: string)
    requires 0 <= k <= |s| && Contains(s[k..], sub)
    ensures Contains(s, sub)
    decreases k
  {
    if k > 0 {
      assert s[k..] == s[1..][k - 1..];
      ContainsInSuffix(s[1..], k - 1, sub);
    }
  }

  /** Whatever occurs in `Strip(s)` occurs in `s`. */
  lemma {:induction false} ContainsInStrip(s: string, sub: string)
    requires Contains(Strip(s), sub)
    ensures Contains(s, sub)
  {
    var t := TrimStart(s);
    ContainsInPrefix(Strip(s), t, sub);
    ContainsInSuffix(s, |s| - |t|, sub);
  }

  /** `s.split(sep)` for a one-character separator: the maximal separator-free pieces, in order. */
  function Split(s: string, sep: char): (r: seq<string>)
    ensures |r| >= 1
    ensures forall k :: 0 <= k < |r| ==> sep !in r[k]
    decreases |s|
  {
    if |s| == 0 then [""]
    else if s[0] == sep then [""] + Split(s[1..], sep)
    else
      var rest := Split(s[1..], sep);
      [[s[0]] + rest[0]] + rest[1..]
  }

  /** `sep.join(parts)`. */
  function Join(sep: string, parts: seq<string>): string
    decreases |parts|
  {
    if |parts| == 0 then ""
    else if |parts| == 1 then parts[0]
    else parts[0] + sep + Join(sep, parts[1..])
  }

  /** Splitting and joining back with the same separator gives the string back, so
      `Split` loses and invents nothing. */
  lemma {:induction false} JoinSplit(s: string, sep: char)
    ensures Join([sep], Split(s, sep)) == s
    decreases |s|
  {
    if |s| == 0 {
    } else if s[0] == sep {
      JoinSplit(s[1..], sep);
      assert s == [sep] + s[1..];
    } else {
      var rest := Split(s[1..], sep);
      JoinSplit(s[1..], sep);
      if |rest| == 1 {
        assert s == [s[0]] + s[1..];
      } else {
        assert Join([sep], rest) == rest[0] + [sep] + Join([sep], rest[1..]);
        assert [s[0]] + rest[0] + [sep] + Join([sep], rest[1..]) == s;
      }
    }
  }

  /** A separator-free piece followed by the separator splits off as the first piece. */
  lemma {:induction false} SplitAfterPiece(p: string, sep: char, rest: string)
    requires sep !in p
    ensures Split(p + [sep] + rest, sep) == [p] + Split(rest, sep)
    decreases |p|
  {
    var s := p + [sep] + rest;
    if |p| == 0 {
      assert s[0] == sep && s[1..] == rest;
    } else {
      assert s[0] == p[0] && s[1..] == p[1..] + [sep] + rest;
      SplitAfterPiece(p[1..], sep, rest);
      assert [p[0]] + p[1..] == p;
    }
  }

  /** Joining separator-free pieces and splitting again gives the pieces back. */
  lemma {:induction false} SplitJoin(parts: seq<string>, sep: char)
    requires |parts| >= 1 && forall k :: 0 <= k < |parts| ==> sep !in parts[k]
    ensures Split(Join([sep], parts), sep) == parts
    decreases |parts|
  {
    if |parts| == 1 {
      SplitWithoutSeparator(parts[0], sep);
    } else {
      SplitJoin(parts[1..], sep);
      SplitAfterPiece(parts[0], sep, Join([sep], parts[1..]));
      assert [parts[0]] + parts[1..] == parts;
    }
  }

  /** A string without the separator splits into itself alone. */
  lemma {:induction false} SplitWithoutSeparator(s: string, sep: char)
    requires sep !in s
    ensures Split(s, sep) == [s]
    decreases |s|
  {
    if |s| > 0 {
      assert s[0] != sep;
      assert sep !in s[1..];
      SplitWithoutSeparator(s[1..], sep);
      assert [s[0]] + s[1..] == s;
    }
  }

  /** The first piece of a split is a prefix of the split string. */
  lemma {:induction false} FirstPieceIsPrefix(s: string, sep: char)
    ensures Split(s, sep)[0] <= s
    decreases |s|
  {
    if |s| > 0 && s[0] != sep {
      FirstPieceIsPrefix(s[1..], sep);
    }
  }

  /** Whatever occurs in a piece of a split occurs in the split string. */
  lemma {:induction false} ContainsInSplitPiece(s: string, sep: char, k: int, sub: string)
    requires 0 <= k < |Split(s, sep)| && Contains(Split(s, sep)[k], sub)
    ensures Contains(s, sub)
    decreases |s|
  {
    var r := Split(s, sep);
    if |s| == 0 {
    } else if s[0] == sep {
      if k > 0 {
        ContainsInSplitPiece(s[1..], sep, k - 1, sub);
      } else {
        assert sub <= r[0];
      }
    } else {
      var rest := Split(s[1..], sep);
      if k > 0 {
        ContainsInSplitPiece(s[1..], sep, k, sub);
      } else if sub <= r[0] {
        FirstPieceIsPrefix(s[1..], sep);
        assert r[0] <= s;
      } else {
        assert r[0][1..] == rest[0];
        ContainsInSplitPiece(s[1..], sep, 0, sub);
      }
    }
  }

  /** Python's `str.lower()` on one character, for ASCII letters. */
  function LowerChar(c: char): char {
    if 'A' <= c <= 'Z' then (c as int + 32) as char else c
  }

  /** `s.lower()`, character by character. */
  function Lower(s: string): (r: string)
    ensures |r| == |s|
    ensures forall i :: 0 <= i < |s| ==> r[i] == LowerChar(s[i])
  {
    seq(|s|, i requires 0 <= i < |s| => LowerChar(s[i]))
  }

  /** Lower-casing twice is lower-casing once. */
  lemma {:induction false} LowerIdempotent(s: string)
    ensures Lower(Lower(s)) == Lower(s)
  {
    assert forall i :: 0 <= i < |s| ==> LowerChar(LowerChar(s[i])) == LowerChar(s[i]);
  }

  /** Lower-casing keeps an occurrence: where `s` contains `sub`, `Lower(s)` contains `Lower(sub)`. */
  lemma {:induction false} ContainsLower(s: string, sub: string)
    requires Contains(s, sub)
    ensures Contains(Lower(s), Lower(sub))
    decreases |s|
  {
    if sub <= s {
      assert Lower(s)[..|sub|] == Lower(sub);
    } else {
      ContainsLower(s[1..], sub);
      assert Lower(s)[1..] == Lower(s[1..]);
    }
  }

  /** The regular-expression class `\d`, for ASCII digits. */
  predicate IsDigit(c: char) {
    '0' <= c <= '9'
  }

  predicate AllDigits(s: string) {
    forall i :: 0 <= i < |s| ==> IsDigit(s[i])
  }

  /** The number of leading digits of `s`: the length of the greedy match of `\d+` (or `\d*`). */
  function LeadingDigits(s: string): (n: nat)
    ensures n <= |s|
    ensures AllDigits(s[..n])
    ensures n < |s| ==> !IsDigit(s[n])
    decreases |s|
  {
    if |s| > 0 && IsDigit(s[0]) then
      var n := 1 + LeadingDigits(s[1..]);
      assert forall i :: 1 <= i < n ==> s[..n][i] == s[1..][..n - 1][i - 1];
      n
    else 0
  }

  /** A run of digits holds no other character. */
  lemma {:induction false} DigitsLack(d: string, c: char)
    requires AllDigits(d) && !IsDigit(c)
    ensures c !in d
  {
  }

  /** Digits followed by a non-digit: `\d+` matches exactly the digits. */
  lemma {:induction false} LeadingDigitsOf(d: string, rest: string)
    requires AllDigits(d)
    requires |rest| == 0 || !IsDigit(rest[0])
    ensures LeadingDigits(d + rest) == |d|
    ensures (d + rest)[..|d|] == d && (d + rest)[|d|..] == rest
  {
    var s := d + rest;
    assert forall i :: 0 <= i < |d| ==> s[i] == d[i];
    assert |rest| > 0 ==> s[|d|] == rest[0];
  }

  /** `int(d)` for a string of decimal digits. */
  function DigitsValue(d: string): nat
    requires AllDigits(d)
    decreases |d|
  {
    if |d| == 0 then 0
    else DigitsValue(d[..|d| - 1]) * 10 + (d[|d| - 1] as int - '0' as int)
  }

  /** `str(n)` for a natural number: its decimal digits, without leading zeros. */
  function NatToString(n: nat): (s: string)
    ensures |s| > 0 && AllDigits(s)
    ensures |s| > 1 ==> s[0] != '0'
    decreases n
  {
    if n < 10 then [('0' as int + n) as char]
    else NatToString(n / 10) + [('0' as int + n % 10) as char]
  }

  /** Reading back the digits `str` writes gives the number: `int(str(n)) == n`. */
  lemma {:induction false} NatToStringRoundTrip(n: nat)
    ensures DigitsValue(NatToString(n)) == n
    decreases n
  {
    if n >= 10 {
      var s := NatToString(n);
      assert s[..|s| - 1] == NatToString(n / 10);
      NatToStringRoundTrip(n / 10);
    }
  }

  /** `str(i)` for any integer: a minus sign before the digits of a negative number. */
  function IntToString(i: int): (s: string)
    ensures i >= 0 ==> s == NatToString(i)
    ensures i < 0 ==> s == "-" + NatToString(-i)
  {
    if i < 0 then "-" + NatToString(-i) else NatToString(i)
  }
}

=== FILE: white_agent.dfy ===
/** The baseline decision agent (white_agent/server.py): its request shape and its two-way policy. */
module WhiteAgent {
  import opened Wrappers
  import opened JsonValues
  import Text

  /** The body of a `/decide` request; `uiHint` defaults to None and `done` to false. */
  datatype Observation = Observation(frameId: int, imagePngB64: string, uiHint: Option<string>, done: bool)

  /** The JSON object a client sends for `obs`, with every field present. */
  function ToJson(obs: Observation): map<string, Json> {
    map[
      "frame_id" := Int(obs.frameId),
      "image_png_b64" := Str(obs.imagePngB64),
      "ui_hint" := (match obs.uiHint case Some(h) => Str(h) case None => Null),
      "done" := Bool(obs.done)
    ]
  }

  /** Request validation: `frame_id` and `image_png_b64` are required, `ui_hint` may be
      absent or null (None), `done` may be absent (false). None means the request is refused. */
  function ParseObservation(body: map<string, Json>): (r: Option<Observation>)
    ensures r.Some? ==> "frame_id" in body && body["frame_id"] == Int(r.value.frameId)
    ensures r.Some? ==> "image_png_b64" in body && body["image_png_b64"] == Str(r.value.imagePngB64)
    ensures r.Some? && "ui_hint" !in body ==> r.value.uiHint == None
    ensures r.Some? && "done" !in body ==> !r.value.done
    ensures "frame_id" !in body || "image_png_b64" !in body ==> r == None
  {
    if "frame_id" !in body || "image_png_b64" !in body then None
    else match (body["frame_id"], body["image_png_b64"])
      case (Int(id), Str(img)) =>
        var hint: Option<Option<string>> :=
          if "ui_hint" !in body then Some(None)
          else match body["ui_hint"]
            case Null => Some(None)
            case Str(h) => Some(Some(h))
            case _ => None;
        var done: Option<bool> :=
          if "done" !in body then Some(false)
          else match body["done"]
            case Bool(b) => Some(b)
            case _ => None;
        if hint.None? || done.None? then None
        else Some(Observation(id, img, hint.value, done.value))
      case _ => None
  }

  /** Validation accepts exactly what a client serialises: the two are inverse. */
  lemma {:induction false} ParseToJson(obs: Observation)
    ensures ParseObservation(ToJson(obs)) == Some(obs)
  {
  }

  /** A request carrying only the two required fields gets the declared defaults. */
  lemma {:induction false} ObservationDefaults(id: int, img: string)
    ensures ParseObservation(map["frame_id" := Int(id), "image_png_b64" := Str(img)])
         == Some(Observation(id, img, None, false))
  {
  }

  /** The keyboard shortcut for saving: `{"op": "hotkey", "args": {"keys": ["ctrl", "s"]}}`. */
  const SaveShortcut: Json :=
    Obj(map["op" := Str("hotkey"), "args" := Obj(map["keys" := Arr([Str("ctrl"), Str("s")])])])

  /** The default click: `{"op": "click", "args": {"x": 200, "y": 950}}`. */
  const DefaultClick: Json :=
    Obj(map["op" := Str("click"), "args" := Obj(map["x" := Int(200), "y" := Int(950)])])

  /** Whether a hint asks for saving: a non-empty hint with the case-sensitive substring "Ctrl+S". */
  predicate AsksToSave(hint: Option<string>) {
    hint.Some? && |hint.value| > 0 && Text.Contains(hint.value, "Ctrl+S")
  }

  /** The baseline policy. */
  function Decide(obs: Observation): (action: Json)
    ensures action == SaveShortcut <==> AsksToSave(obs.uiHint)
    ensures action == DefaultClick <==> !AsksToSave(obs.uiHint)
  {
    ActionsDiffer();
    if AsksToSave(obs.uiHint) then SaveShortcut else DefaultClick
  }

  /** The two actions are told apart by their `op`. */
  lemma {:induction false} ActionsDiffer()
    ensures SaveShortcut != DefaultClick
  {
    assert SaveShortcut.fields["op"] != DefaultClick.fields["op"];
  }

  /** The policy has exactly two outputs and reads nothing but the hint. */
  lemma {:induction false} DecideTwoWay(a: Observation, b: Observation)
    ensures Decide(a) == SaveShortcut || Decide(a) == DefaultClick
    ensures a.uiHint == b.uiHint ==> Decide(a) == Decide(b)
  {
  }

  /** Examples of the policy, which `DecideTwoWay` and `Decide`'s contract cover in general: the
      match is case-sensitive and needs a hint, so lower-case, empty and missing hints all click. */
  lemma {:induction false} DecideExamples(id: int, img: string)
    ensures Decide(Observation(id, img, Some("Press Ctrl+S to save"), false)) == SaveShortcut
    ensures Decide(Observation(id, img, Some("ctrl+s"), false)) == DefaultClick
    ensures Decide(Observation(id, img, Some(""), false)) == DefaultClick
    ensures Decide(Observation(id, img, None, false)) == DefaultClick
  {
    var h := "Press Ctrl+S to save";
    assert h[6..] == "Ctrl+S to save";
    assert Text.Contains(h[6..], "Ctrl+S");
    Text.ContainsInSuffix(h, 6, "Ctrl+S");
    NotContainsShort("ctrl+s", "Ctrl+S");
  }

  /** A string no longer than `sub` contains `sub` only if it equals it. */
  lemma {:induction false} NotContainsShort(s: string, sub: string)
    requires |s| <= |sub| && s != sub
    ensures !Text.Contains(s, sub)
    decreases |s|
  {
    if |s| > 0 {
      NotContainsShort(s[1..], sub);
    }
  }

  /** `/reset` always answers `{"ok": true}`. */
  function Reset(): (r: Json)
    ensures r.Obj? && r.fields.Keys == {"ok"} && r.fields["ok"] == Bool(true)
  {
    Obj(map["ok" := Bool(true)])
  }

  /** `/decide`: validate the body, then apply the policy; None is a refused request. */
  function HandleDecide(body: map<string, Json>): (r: Option<Json>)
    ensures r.Some? <==> ParseObservation(body).Some?
    ensures r.Some? ==> r.value == SaveShortcut || r.value == DefaultClick
    ensures r.Some? ==> (r.value == SaveShortcut <==> AsksToSave(ParseObservation(body).value.uiHint))
  {
    match ParseObservation(body)
    case Some(obs) => Some(Decide(obs))
    case None => None
  }
}

=== FILE: wrappers.dfy ===
/** Failure-compatible wrappers shared by every module of the model. */
module Wrappers {

  /** Python's `None` or a present value. */
  datatype Option<+T> = None | Some(value: T) {

    /** The wrapped value, or `default` when absent (Python's `x if x is not None else default`). */
    function GetOr(default: T): T {
      match this
      case Some(v) => v
      case None => default
    }
  }

  /** What a call into code outside the model does: it returns a value or raises an
      exception whose `str(e)` is `message`. */
  datatype Outcome<+T> = Returned(value: T) | Raised(message: string)
}

/** JSON-shaped values: the payloads exchanged with the decision agent and the environment. */
module JsonValues {

  datatype Json =
    | Null
    | Bool(b: bool)
    | Int(i: int)
    | Str(s: string)
    | Arr(items: seq<Json>)
    | Obj(fields: map<string, Json>)
}
